=== FILE: README.md ===
# GA-project in Dafny

GA-project is an obstacle-jumping game in which a population of balls,
each steered by a small neural network (or, in an earlier variant, by a
three-gene threshold rule), learns by a genetic algorithm to jump over
scrolling pillars. This project models its deterministic core as pure
functions over immutable records and proves properties of them:

- the per-tick physics of a player: ground clamp, gravity, semi-implicit Euler step, jump
  cooldown, circle-versus-rectangle collision with the ceiling test, death
  animation (`Kinematics`, `Geometry`, `Players`);
- the hazard stream: the obstacle, the gate built from it and the key, each
  with its spawn geometry and scroll-and-recycle rule (`Obstacles`, `Gates`,
  `Keys`);
- one frame of the network-driven game loop of `src/main.py`: per-obstacle
  scoring flags, the generation high score, kill-once death bookkeeping and
  the per-player score book (`Arena`);
- the jump-success metric (`Metrics`);
- the generation boundary of `src/main.py`: ranking, best-overall tracking,
  the slot partition into in-population crossover, cross-generation crossover
  and clone-or-reset, stagnation, `nested_mean` and mutation (`Evolution`);
- the gene-driven variant `src/game_logic.py` with its own player, obstacle
  and top-K/toughness selection (`GeneticGame`);
- the older top-level `player.py` and `obstacle.py` (`Legacy`) and the
  earliest `game_logic.py` and `pygame_test.py` (`Early`).

Shared helpers: `Numeric` (sums, maxima, Python's `round(x, 3)`, first
index), `Ranking` (Python's stable `sorted` and `heapq.nlargest` on
positions), `Wrappers` (`Option`), `Settings` (the constants of
`src/common/settings.py`).

Randomness (`np.random.*`, `random.*`) and clock readings (`time.time()`)
are parameters: each function that consumes a random draw takes it as an
argument, with a precondition that mirrors the draw's range (the high end of
`randint` is exclusive), and each function that reads the clock takes one
reading `now`, which stands for every `time.time()` call it makes. The neural network's decision (`NN_jump`, a sigmoid
perceptron) is a function parameter `decide` over the sensor vector and the
two weight matrices. Positions, speeds and times are `real`; obstacle
geometry is `int`. Python's `int(x)` on a non-negative number is the floor,
and `//` by a positive number is Dafny's `/`.

Behaviours of the code that the model keeps:

- the current player keeps falling under gravity after death, rather than
  freezing while its death animation runs;
- collision has a ceiling test but no floor test;
- an obstacle is recycled once `x + width <= 0`, so it can reach
  `x + width` just above `-OBSTACLE_SPEED`, rather than never going below
  `-width`;
- the success rate carries a `loss_penalty` factor;
- the current player's fitness is its time alive alone;
- the collision test is strict (`<`) in every version.

Two behaviours of the code are bugs (see Findings). Each is modelled twice:
as written, with a lemma that exhibits the bug, and corrected. The rest of
the model uses the corrected form:

- deaths are booked in the row registered for the player's id
  (`Arena.Record`, used by `Arena.KillAll` and `Arena.Frame`), not in the
  row of its current position (`Arena.RecordAsWritten`);
- the next generation is bred from the ranked population
  (`Evolution.NextGeneration`), not from the freshly re-initialised one
  (`Evolution.NextGenerationAsWritten`).

## Model

| member | source | states |
|---|---|---|
| Kinematics.Step | src/common/player.py:45-52 | a ball at or below ground contact that is not rising ends the tick exactly on the ground at rest; any other ball gains one gravity increment and moves by its new speed |
| Kinematics.RestingIsFixedPoint | src/game_logic.py:90-100 | a ball resting on the ground stays exactly there, at rest, for any number of ticks |
| Kinematics.RisingArc | src/common/player.py:45-52 | while the ball is still rising the clamp never fires, and after n ticks speed and height follow the closed form of the semi-implicit Euler scheme |
| Geometry.Clamp | src/common/player.py:60-67 | `max(lo, min(v, hi))` is the point of a non-empty interval nearest to v, and is lo for an empty one |
| Geometry.SqDistToRect | src/common/player.py:60-68 | the squared nearest-point distance is never negative, is zero for a centre inside the rectangle and positive for a centre outside a non-empty one |
| Geometry.NearestPointIsClosest | src/game_logic.py:117-121 | the clamped point is at least as close to the centre as every other point of the rectangle |
| Geometry.HitHasWitness | game_logic.py:55-59 | when the test fires, some rectangle point lies strictly within the radius |
| Geometry.ClosePointHits | pygame_test.py:48-52 | any rectangle point strictly within the radius makes the test fire (the converse) |
| Geometry.CentreInsideHits | src/game_logic.py:117-122 | a centre inside the rectangle collides for any non-zero radius |
| Geometry.ZeroRadiusNeverHits | src/common/player.py:68-69 | with the strict comparison a zero radius never registers a rectangle hit |
| Players.New | src/common/player.py:10-29 | a new player starts alive, not animating, at the start position at rest, with score 0, both clocks at the creation time and `jump_cd` = PLAYER_JUMP_COOLDOWN; a network player carries exactly the given 5x3 and 3x1 weights and zeroed sensors |
| Players.Cooldown | src/common/player.py:54-55 | the cooldown is rescaled by the frame rate so that it equals `jump_cd` at 60 frames per second |
| Players.CanJump | src/common/player.py:54-55 | at a positive frame rate the jump is allowed exactly when the elapsed time times the frame rate reaches `jump_cd` times 60; at 60 frames per second, exactly when `jump_cd` has elapsed |
| Players.Jump | src/common/player.py:54-57 | the jump fires exactly when the scaled cooldown has elapsed, then sets the jump force and restarts the cooldown; otherwise nothing changes |
| Players.Sense | src/common/player.py:81-92 | `NN_update` sets dx to the obstacle's offset and the ceiling and floor clearances by the pillar's side, touching nothing else |
| Players.SensorVector | src/common/player.py:94-99 | the network reads y, vy, dx, the floor clearance and the ceiling clearance, in that order |
| Players.Decide | src/common/player.py:38-44 | only a live network player senses and may jump; the jump changes only the speed and the jump time; when the network does not fire, speed and jump time are unchanged (the frame rate is needed only when it fires) |
| Players.Update | src/common/player.py:38-52 | after the decision, the ground clamp or gravity and the Euler step run whether or not the player is alive; position, life, score and time alive are otherwise untouched; the frame rate is needed only when the network fires |
| Players.DeadPlayerStillFalls | src/common/player.py:38-52 | a dead player's update is exactly the bare physics step, at any frame rate |
| Players.JumpTick | src/common/player.py:43-52 | on a tick where the network fires and the cooldown has elapsed the clamp cannot fire: the tick ends with speed -9.5, the ball 9.5 pixels higher and the jump time restarted |
| Players.RestingStaysPut | src/common/player.py:45-52 | a grounded player at rest whose network does not fire stays exactly on the ground at rest, at any frame rate |
| Players.JumpApex | src/common/player.py:45-57 | after a jump the first 20 ticks follow the closed-form rising arc, reaching 95 pixels up at speed 0 on the 20th |
| Players.CollisionHasWitness | src/common/player.py:59-69 | a collision clear of the ceiling band has a pillar point strictly within the radius of the ball at the start column |
| Players.WitnessCollides | src/common/player.py:59-69 | any such pillar point is a collision, with the rectangle chosen by the pillar's side |
| Players.CentreInPillarCollides | src/common/player.py:59-69 | a centre inside the pillar collides whenever the radius is positive |
| Players.PillarAheadIsHarmless | src/common/player.py:59-69 | a pillar at least one radius ahead of the start column cannot hit a ball clear of the ceiling |
| Players.AnimationStep | src/common/player.py:71-79 | while on screen or with a non-negative radius the ball drifts left by the obstacle speed and shrinks by one; otherwise it is parked at x = -radius and stops animating |
| Players.FinishAnimation | src/common/player.py:71-79 | the animation always ends, with a negative radius and the ball parked at x = -radius, nothing else changed |
| Players.StartPlayerAnimation | src/common/player.py:71-79 | from the start column and radius the animation stops at radius -1 and x = 1 |
| Players.AnimationRun | src/common/player.py:71-79 | while the tests hold, k frames are k plain drift-and-shrink steps |
| Players.Kill | src/common/player.py:112-115 | `kill` ends life, starts the animation and records the time alive rounded to the millisecond, changing nothing else |
| Players.FitnessIsSurvivalTime | src/common/player.py:112-118 | the fitness of a killed player is its survival time to within half a millisecond |
| Players.MutationRate | src/common/player.py:131-136 | one mutation step lies in [-0.25, 0.25) times MUTATION_SIZE |
| Players.MutateMatrix | src/common/player.py:120-129 | mutation keeps the shape, leaves a weight alone when its coin exceeds MUTATION_CHANCE, and moves any weight by less than a quarter of MUTATION_SIZE |
| Players.Mutate | src/common/player.py:120-129 | `mutate` keeps the network's 5x3 and 3x1 shape and changes nothing but the weights |
| Obstacles.Spawn | src/common/obstacle.py:10-19 | a new pillar is at the right edge, OBSTACLE_WIDTH wide, with the drawn height and category; a floor pillar ends at the floor band and a ceiling pillar at the ceiling band |
| Obstacles.New | src/common/obstacle.py:8-19 | the class attribute gives a fresh obstacle a score of 0 |
| Obstacles.Update | src/common/obstacle.py:29-33 | an obstacle that is outside is redrawn with its score raised by exactly one and ends at WIDTH - speed; otherwise only x moves; x + width > -speed after every update |
| Obstacles.ScoreCountsRedraws | src/common/obstacle.py:29-33 | over any run the score rises by exactly the number of redraws, so it never decreases |
| Obstacles.RunStaysOnTrack | src/common/obstacle.py:29-33 | a run keeps the pillar well formed and never further left than one tick past the edge |
| Obstacles.UpdateKeepsReachable | src/common/obstacle.py:29-33 | a pillar on the speed grid, on screen and not yet past the left edge stays so after every update |
| Obstacles.RedrawIsExact | src/common/obstacle.py:30-32 | a reachable pillar is redrawn on the exact tick its right edge reaches 0 |
| Obstacles.Lifetime | src/common/obstacle.py:29-33 | a fresh pillar scrolls 260 ticks before it is redrawn, and is outside exactly on the 260th |
| Gates.Spawn | src/common/gate.py:6-16 | a new gate is closed, at the right edge, OBSTACLE_WIDTH wide, spanning the gap the pillar leaves |
| Gates.Update | src/common/gate.py:25-28 | an outside gate is rebuilt, closed, from the given obstacle; otherwise only x moves |
| Gates.GateFillsGap | src/common/gate.py:6-16 | gate and pillar together exactly tile the playfield between the ceiling and floor bands, and the gate has positive height |
| Gates.SpawnCovers | src/common/gate.py:6-16 | the initial gate lies over the initial obstacle |
| Gates.TickKeepsCover | src/common/gate.py:25-28 | updating the obstacle and then the gate keeps the two in lockstep; after a redraw the gate is rebuilt, closed, for the new category |
| Keys.Spawn | src/common/key.py:8-13 | a new key is uncollected, KEY_SIZE large, in the middle third of the screen in both directions |
| Keys.Update | src/common/key.py:22-26 | when the obstacle is outside the key is redrawn and not moved; otherwise it only moves left |
| Keys.OnlyRedrawUncollects | src/common/key.py:22-26 | a collected key becomes uncollected only through a redraw |
| Arena.HazardTick | src/main.py:261-265 | the obstacle moves first; all scoring flags clear exactly when the moved obstacle is outside; gate and key update from the moved obstacle |
| Arena.HazardTickKeepsCover | src/main.py:261-264 | the hazard tick keeps the gate over the obstacle |
| Arena.Score | src/main.py:272-274 | a player scores one exactly when its flag is down and it is past the obstacle's right edge; the flag is then up |
| Arena.Advance | src/main.py:269-271 | update then the state part of `draw`: a live player keeps its column and animation state, a dead one takes one animation step; the frame rate is needed only when the network fires |
| Arena.RaiseTo | src/main.py:275-276 | the running high score is at least every score and the old value, and is one of them |
| Arena.ScoreAll | src/main.py:269-276 | every player is scored independently, and the generation score is the running maximum, attained |
| Arena.SweepAll | src/main.py:269-276 | the sweep neither kills nor revives, raises each score by at most one and keeps the generation score above every score; a flag is up afterwards exactly when it was up or the player scored, and a player whose flag was up does not score |
| Arena.ScoresOncePerObstacle | src/main.py:261-276 | over any run of frames in which the obstacle stays on screen (so the flags are never cleared), a score rises by at most one, not at all when the flag was already up, and a risen score leaves the flag up |
| Arena.Record | src/main.py:300-303 | a death is booked in the row registered for the player's id: its score appended and its death counted, every other row unchanged |
| Arena.RecordAsWritten | src/main.py:300-303 | as written the death is booked in the row of the player's current position |
| Arena.SortedPositionMisbooks | src/main.py:300-303 | after a re-sort that puts id 8 first, its death is charged to id 7's row |
| Arena.RecordAgreesInRegistrationOrder | src/main.py:300-303 | while the population is in registration order both bookings agree |
| Arena.KillIf | src/main.py:294-295 | only a live touched player is killed; the result is dead iff it was alive and touched |
| Arena.Victims | src/main.py:286-296 | the players appended to `dead_players` in one frame are exactly the live touched ones, in increasing order, each once |
| Arena.KillTouched | src/main.py:286-295 | every live touched player dies, every other player is unchanged, scores are kept |
| Arena.ScoresOf | src/main.py:298 | the scores appended to `gen_scores` are the victims' scores in order |
| Arena.RowOf | src/main.py:191-192 | the row registered for an id, found exactly when the id is registered, holding that id |
| Arena.BookDeaths | src/main.py:300-303 | booking the frame's victims keeps the book valid with its ids; a row no victim maps to is unchanged, and the row of a victim that shares it with no other victim gains exactly that victim's score and one death |
| Arena.BookFirst | src/main.py:300-303 | booking the first victim and then the rest keeps every row no victim maps to, and gives each victim with a row of its own exactly its score and one death |
| Arena.BookVictims | src/main.py:286-303 | with ids told apart, the row of every killed registered player gains its score and one death, and a row of no killed player is unchanged |
| Arena.ExtendDead | src/main.py:294-296 | appending the frame's victims keeps `dead_players` duplicate-free and exactly the dead |
| Arena.KillAll | src/main.py:285-303 | every live touched player is killed and every other player is unchanged, scores are kept, the bookkeeping stays consistent; the row of every killed registered player gains its score and one death, and every row of no killed player is unchanged |
| Arena.DeathsAreLogged | src/main.py:294-298 | `dead_players` only grows, by players that were alive and touched, so nobody is listed twice; `overall_deaths` and `gen_scores` grow with it, by the victims' scores |
| Arena.SweepArena | src/main.py:269-276 | the sweep neither kills nor revives, so the bookkeeping stays consistent; the generation score never drops; every score grows by at most one, a flag is up afterwards exactly when it was up or its player scored, and a player whose flag was up does not score |
| Arena.Frame | src/main.py:260-303 | a frame keeps the bookkeeping consistent, never lowers the generation score and hands on the ticked hazards; measured from the flags after the hazard tick, each score grows by at most one, a flag ends up exactly when it was up or its player scored, and a player whose flag was up does not score |
| Arena.FrameKeepsCover | src/main.py:261-264 | frames keep the gate over the obstacle |
| Arena.Play | src/main.py:225-323 | over any run of frames the bookkeeping stays consistent, the population keeps its size, and no score or the generation score ever drops |
| Arena.DistinctBelow | src/main.py:305 | a duplicate-free list of positions below n has at most n entries, so `len(dead_players)` cannot exceed the population |
| Arena.GenerationOverMeansAllDead | src/main.py:305-309 | once the generation is over every player of a full population is dead |
| Metrics.Suffix | src/main.py:193 | Python's `s[-k:]`: the last k entries, or the whole list when k is 0 or too large |
| Metrics.DefaultWindowIsWholeHistory | src/main.py:176-193 | the default window is bound at definition time with generation 1, so it is 0 and covers the whole history |
| Metrics.WindowBounded | src/main.py:193-194 | the windowed score sum is between 0 and the whole history's sum |
| Metrics.Rate | src/main.py:194-198 | the rate is 0 with nothing passed, otherwise in (0, 1], the share of passings among passings and penalised deaths, and 1 with no deaths |
| Metrics.RateFallsWithDeaths | src/main.py:198 | more deaths never raise the rate |
| Metrics.RateRisesWithPassings | src/main.py:198 | more passings with the same deaths never lower the rate |
| Metrics.Passed | src/main.py:192-194 | the score sum of the player's first row over the window: the whole row for a window of 0 or at least the row's length, otherwise exactly its last `gen_length` entries; a count never above the whole row's sum |
| Metrics.PlayerSuccess | src/main.py:190-200 | a value exists exactly for a registered player once enough generations have run; it lies in [0, 1], is 0 iff nothing was passed, and is 1 with no deaths |
| Metrics.DeathLowersSuccess | src/main.py:190-198 | a death booked with no new passings never raises the player's success |
| Metrics.Rates | src/main.py:162-166 | one rate per player, in population order, each the player's success |
| Metrics.SuccessMetric | src/main.py:160-173 | a summary exists exactly once enough generations have run; min <= mean <= max within [0, 1], every player's success between min and max, both attained, and the mean is the sum of the rates divided by the population size |
| Metrics.Summarise | src/main.py:168-170 | the mean, minimum and maximum of a non-empty list: the mean is the sum over the length, the minimum and maximum bound every entry and are attained, and the mean lies between them |
| Numeric.MeanBetweenMinAndMax | src/main.py:168-170 | the mean of a non-empty list lies between its minimum and maximum |
| Numeric.Mean | src/main.py:168 | `np.mean` of a non-empty list is its sum divided by its length, lies between its minimum and maximum, and its length-fold is the sum |
| Numeric.Round3 | src/common/player.py:115 | `round(t, 3)` is within half a millisecond of t and is a whole number of milliseconds |
| Numeric.FirstIndexOf | src/main.py:192 | `list.index`: the first position holding the value |
| Numeric.RoundHalfEven | src/common/player.py:115 | Python's `round`: the nearest integer, ties going to the even one |
| Numeric.MaxOf | src/main.py:341-347 | `max` of a non-empty list is one of its entries and no entry exceeds it |
| Numeric.MinOf | src/main.py:169 | `min` of a non-empty list is one of its entries and no entry is below it |
| Ranking.SortAscending | src/main.py:329 | `sorted` by fitness: every position once, ascending, equal keys in original order |
| Ranking.LastIsLastMaximum | src/main.py:329-331 | the last of the sorted population holds the largest fitness, and is the last such position |
| Ranking.TopK | src/game_logic.py:302-303 | `heapq.nlargest`: k distinct positions in descending order of key |
| Ranking.TopKBeatsTheRest | src/game_logic.py:302-303 | every selected position beats every unselected one, ties going to the earlier position |
| Ranking.TopPickIsFirstMaximum | src/game_logic.py:302-303 | the top pick is the first position holding the largest key |
| Evolution.NestedMean | src/main.py:204-215 | the mean keeps the shape and sits exactly midway between the two parents, entry by entry |
| Evolution.NestedMeanSymmetric | src/main.py:215 | the mean does not depend on the parents' order, so the order `random.sample` draws does not matter |
| Evolution.NestedMeanIdempotent | src/main.py:215 | the mean of a matrix with itself is the matrix |
| Evolution.NestedMeanBetween | src/main.py:215 | every entry of the mean lies between the parents' entries |
| Evolution.NestedMeanExample | src/main.py:204-215 | `[10, 20]` and `[30, 40]` average to `[20, 30]` |
| Evolution.MutateBrain | src/main.py:368 | a mutated brain keeps its shape, each weight moving by less than a quarter of MUTATION_SIZE and not at all when its coin says no |
| Evolution.MeanBrain | src/main.py:362-363 | a child brain is the nested mean of its parents' input and hidden matrices |
| Evolution.Truncate | src/main.py:356 | `int(x)` of a non-negative number is its floor |
| Evolution.AtMostTruncate | src/main.py:356 | an integer is at most `int(x)` exactly when it is at most x |
| Evolution.Slot | src/main.py:354-383 | slot i gets in-population crossover iff i <= n * CROSSOVER_RATE, cross-generation crossover iff it is above that and at most n * (CROSSOVER_RATE + CROSS_GENERATION_RATE), clone-or-reset otherwise |
| Evolution.SlotsInBlocks | src/main.py:356-383 | the kinds come in blocks along the population |
| Evolution.FiveSlots | src/main.py:354-392 | with five players: two in-population, two cross-generation and one clone-or-reset slot |
| Evolution.Breed | src/main.py:354-392 | each kind of slot breeds from the right parents and mutates; a stagnant clone slot starts afresh instead |
| Evolution.BreedInPlace | src/main.py:354-392 | as written the loop rewrites the list in place, and slots not yet reached are untouched |
| Evolution.BreedFromRanked | src/main.py:354-392 | every slot is bred from the fittest and runner-up of the ranked generation, with the population size kept |
| Evolution.Rank | src/main.py:329 | place a of the ranking holds the brain at position `SortAscending(fitness)[a]`; every player's brain is ranked; the order is ascending in fitness and stable |
| Evolution.RankedParentsAreFittest | src/main.py:329-331 | the last two after ranking are the two fittest players |
| Evolution.Conclude | src/main.py:331-347 | the log gains the generation, the fittest brain, its time, the generation's top score and its fitness, nothing else changing; the best fitness, best time and overall high score are the maxima of the log, and the best brain is the one logged at the first index of the best fitness |
| Evolution.BestFitnessNeverDrops | src/main.py:341 | the best fitness ever seen never drops from one generation to the next |
| Evolution.RankedBestTime | src/main.py:329-337 | the ranked generation's best time alive is the largest of the population's times |
| Evolution.NextGenerationAsWritten | src/main.py:329-397 | the boundary as written keeps the population size and advances the generation counter |
| Evolution.AsWrittenIgnoresRanking | src/main.py:349-392 | as written the next generation does not depend on the ranked weights beyond the fittest brain |
| Evolution.AsWrittenBreedsFromFreshWeights | src/main.py:351-363 | as written the first child of five is the mutated mean of the last two freshly drawn brains |
| Evolution.NextGeneration | src/main.py:329-397 | the intended boundary keeps the population size, advances the counter, logs the fittest player's brain with its time as time alive and as fitness, and keeps the best fitness the log's maximum with the brain logged at its first index |
| Evolution.ChildrenDescendFromFittest | src/main.py:354-380 | in the intended boundary an in-population child is exactly the mutated mean of the two fittest players, and a cross-generation child exactly the mutated mean of the fittest and the best brain ever |
| Evolution.BredFromFittest | src/main.py:354-392 | in the intended boundary slot i is `Breed` on the two fittest players, the best brain ever and the stagnation test on the log including this generation |
| Evolution.CloneSlotRestartsWhenStagnant | src/main.py:383-392 | a clone-or-reset slot starts afresh exactly when the generation is divisible by RESET_THRESHOLD and the best time RESET_THRESHOLD generations back exceeds the latest; otherwise it is the mutated clone of the fittest player |
| GeneticGame.New | src/game_logic.py:46-63 | a new player is on the ground at rest, alive, never jumped, with the given genes and toughness |
| GeneticGame.ApplyGravity | src/game_logic.py:90-100 | the ground clamp sets the ground height, zero speed and ends the jump; otherwise only the speed grows by gravity |
| GeneticGame.Jump | src/game_logic.py:102-110 | a jump sets the jumping flag and the third gene as speed, or JUMP_FORCE without genes |
| GeneticGame.Update | src/game_logic.py:74-88 | an animating player is left alone; otherwise gravity and the Euler step, after which the speed is the physics result or the evolved jump force |
| GeneticGame.JumpFiresIff | src/game_logic.py:84-88 | a jump happens exactly when the rules fire and the cooldown has elapsed or the player never jumped |
| GeneticGame.CentreInsideCollides | src/game_logic.py:112-122 | a centre inside the pillar collides for a positive radius |
| GeneticGame.CollisionMeansNearPoint | src/game_logic.py:112-122 | a collision clear of the ceiling means a pillar point strictly within the radius, and back |
| GeneticGame.Kill | src/game_logic.py:142-150 | `kill` marks the player dead, starts the animation at the kill time and records the rounded time alive |
| GeneticGame.AnimationStep | src/game_logic.py:152-162 | the animation stops once (x + radius) / speed seconds have passed since the kill; until then the ball drifts left |
| GeneticGame.OffScreenAnimationStops | src/game_logic.py:156-158 | a ball already past the left edge stops animating at once |
| GeneticGame.FitnessExample | src/game_logic.py:171-174 | 10 seconds alive at toughness 3 score 40/3 |
| GeneticGame.FitnessBoostFades | src/game_logic.py:171-174 | the toughness boost never drops the score below the time alive, at most doubles it, and shrinks as toughness grows |
| GeneticGame.Spawn | src/game_logic.py:178-183 | a new pillar of the drawn size stands on the floor at the right edge |
| GeneticGame.UpdateObstacle | src/game_logic.py:189-192 | the pillar is redrawn iff x + width <= 0 before moving, then moves left; x + width > -speed after every update |
| GeneticGame.MeanGenes | src/game_logic.py:342 | each gene of the mean chromosome is the average of the parents' genes |
| GeneticGame.MeanGenesBetweenParents | src/game_logic.py:342 | each mean gene lies between the parents' smallest and largest value |
| GeneticGame.MeanOfTwo | src/game_logic.py:339-342 | for two parents the mean is the midpoint, gene by gene |
| GeneticGame.MutateGenes | src/game_logic.py:344-357 | a gene moves by its integer step exactly when its coin is at most MUTATION_RATE |
| GeneticGame.Parents | src/game_logic.py:302-303 | selection picks KEEP_PARENTS positions of the population, or all of them when it is smaller |
| GeneticGame.NewToughness | src/game_logic.py:309-316 | selected players gain one toughness, every other player drops to zero |
| GeneticGame.Evolve | src/game_logic.py:299-364 | the boundary keeps the population size and gene count, advances the generation by one, spawns a fresh obstacle and appends one entry to the log of best times: the survival times of the selected parents, in selection order |
| GeneticGame.ParentsAreFittest | src/game_logic.py:302-303 | every selected parent scores at least every unselected player |
| GeneticGame.EvolveResets | src/game_logic.py:309-364 | after the boundary every player is reset alive on the ground, with the toughness rule applied and the parents' mean genes, mutated where its coin allows |
| GeneticGame.UnmutatedPlayersAgree | src/game_logic.py:339-362 | two players whose coins all spare their genes receive the same chromosome, the parents' mean |
| GeneticGame.OverallBest | src/game_logic.py:331-332 | the overall best time is the best parent time of some logged generation, and no other is better |
| GeneticGame.OverallBestNeverDrops | src/game_logic.py:331-332 | logging another generation never lowers the overall best time |
| Legacy.NewPlayer | player.py:9-27 | a new player is alive at the start position at rest; a network player has jump power -10 and 6x3 and 3x1 weights |
| Legacy.Jump | player.py:54-59 | a jump sets the jumping flag and the player's jump power for a network player, JUMP_FORCE for a human one |
| Legacy.Sense | player.py:82-93 | `NN_update` measures dx and the clearances by the pillar's category, touching nothing else |
| Legacy.SensorVector | player.py:95-98 | the network reads six inputs, the jump power last |
| Legacy.Decide | player.py:36-43 | only a live network player can change, and it always senses; when the network fires it jumps with its jump power, and when it stays silent its speed and jumping flag are kept; position and life are kept |
| Legacy.Update | player.py:36-52 | after the decision the ground clamp or gravity and the Euler step run whether or not the player is alive |
| Legacy.NetworkJumpsEveryTime | player.py:39-52 | with no cooldown, every tick the network fires ends with speed jump power + gravity |
| Legacy.PassiveUpdateIsPhysics | player.py:36-52 | a dead or human player's update is the bare physics step |
| Legacy.CollisionHasWitness | player.py:61-71 | a collision clear of the ceiling band has a pillar point strictly within the radius of the ball at the start column |
| Legacy.WitnessCollides | player.py:61-71 | any such point is a collision |
| Legacy.AnimationStep | player.py:73-80 | a frame moves the ball left by the obstacle speed and takes a tenth of its radius, rounded down: a non-negative radius stays non-negative, shrinks from 10 up and stays put below 10 |
| Legacy.AnimationNeverParks | player.py:73-80 | from a non-negative radius the parking branch is never reached: the ball drifts left forever with a non-negative radius |
| Legacy.Kill | player.py:111-113 | `kill` ends life and records the rounded time alive |
| Legacy.FitnessIsSurvivalTime | player.py:111-116 | the fitness of a killed player is its survival time to within half a millisecond |
| Legacy.MutationRate | player.py:127-131 | a step is MUTATION_SIZE * 0.005 * k for k in [-25, 25), so between -0.125 and 0.12 times MUTATION_SIZE |
| Legacy.MutateMatrix | player.py:118-125 | every weight moves by its own step, with the shape kept |
| Legacy.Mutate | player.py:118-125 | `mutate` keeps the 6x3 and 3x1 shape and changes only the weights |
| Legacy.MutationUndone | player.py:118-131 | mutating with the opposite draws restores every weight |
| Legacy.NewObstacle | obstacle.py:7-12 | a new pillar is at the right edge, OBSTACLE_WIDTH wide, standing on the floor |
| Legacy.UpdateObstacle | obstacle.py:18-21 | the pillar is redrawn iff x + width <= 0 before moving, then moves left, ending with x + width > -speed |
| Legacy.ObstacleStaysWellFormed | obstacle.py:18-21 | however long the game runs the pillar keeps its shape, stands on the floor and stays on its track |
| Early.NewBall | game_logic.py:28-34 | a new ball rests on the ground at the start column |
| Early.ApplyGravity | game_logic.py:43-49 | the ground clamp sets the ground height, zero speed and ends the jump; otherwise only the speed grows |
| Early.Update | game_logic.py:39-41 | gravity then the Euler step |
| Early.Jump | game_logic.py:51-53 | the jump is unconditional: JUMP_FORCE and the jumping flag |
| Early.UpdatesFollowKinematics | pygame_test.py:32-42 | repeated updates follow the shared vertical motion, whatever the gravity |
| Early.JumpHeight | game_logic.py:39-53 | with gravity 0.5 a jump from the ground rises 95 pixels in 20 updates |
| Early.PrototypeJumpHeight | pygame_test.py:16-46 | with gravity 1 a jump rises only 45 pixels, in 10 updates |
| Early.CollisionHasWitness | game_logic.py:55-59 | a collision has a pillar point strictly within the radius |
| Early.WitnessCollides | pygame_test.py:48-52 | any such point is a collision |
| Early.CeilingIsHarmless | game_logic.py:55-59 | without a ceiling term a ball wholly above a floor pillar never collides |
| Early.NewObstacle | game_logic.py:63-67 | a new pillar of the drawn size stands on the floor at the right edge |
| Early.UpdateObstacle | game_logic.py:72-75 | the pillar is redrawn iff x + width <= 0 before moving, then moves left, ending with x + width > -speed |
| Early.NewPost | pygame_test.py:55-60 | the prototype's pillar is 25 by 200, standing on the floor at the right edge |
| Early.Wrap | pygame_test.py:100-102 | the pillar wraps to the right edge once x < -OBSTACLE_WIDTH, then moves left, ending with x >= -OBSTACLE_WIDTH - GAME_SPEED |
| Early.PostStaysOnTrack | pygame_test.py:100-102 | the prototype's pillar stays within [-30, 800] and on the floor for ever |

## Left out

- Rendering, display, fonts and event handling (`draw`, `render_*`,
  `display_overlaps`, the event loops): screen I/O. Only the state part of
  `animation` is modelled.
- `save_data` in `src/game_logic.py`: file I/O.
- `NN_jump` and `sigmoid` in both player versions: they need `np.exp`. The
  decision is the function parameter `decide`.
- `np.std` in `get_success_metric`: it needs a square root.
- The random draws and `time.time()`: parameters. Their distributions are not
  modelled, only their ranges.
- Players.New, Players.Jump, GeneticGame.Update, GeneticGame.Kill,
  Arena.Frame, Arena.Play: one clock reading stands for the source's
  successive `time.time()` calls, which are later and never earlier:
  `__init__` reads it twice (src/common/player.py:15, 19), `jump` tests one
  reading and stores another (src/common/player.py:55, 57), the genetic
  `update` and `kill` do the same (src/game_logic.py:85, 88 and 147, 150),
  and within a frame every player's `jump` and every `kill` reads the clock
  anew. No contract depends on those readings being equal.
- Object identity via `id()`: an integer per player stands for it.
- Key pickup and gate-aware collision (`is_touching`, `has_key`, `keyscore`,
  `update(key=...)`, `is_colliding(gate=...)`), called at src/main.py:270,
  278 and 288-294: the player class defines none of them. Who touches the
  hazards is the parameter `colliding` of `Arena.Frame`, and key pickup is
  not modelled.
- `Obstacles.IsOutside`: the obstacle class has no `is_outside`, although
  src/main.py:262 and src/common/key.py:23 call it. It is assumed to be the
  gate's test, `x + width <= 0`.
- The human-player branch of the game loop (src/main.py:278-279 and
  311-321) and `reset` for a single player: it needs the same missing
  members.
- The run after `MAX_GENERATIONS` (src/main.py:409-413): nothing restarts the
  game, and the next boundary would take `max([])`.
- The top-level main.py: plumbing whose `restart` does nothing.
- src/common/settings.py: constants only, copied into `Settings`.
- Metrics.SuccessMetric: it requires every population member to be
  registered, which init does at src/main.py:75-77. For an unregistered
  player `get_player_success` returns `None`, and the source's `min` would
  then fail.
- Metrics.Rate: it requires non-negative inputs. Scores and death counts
  are counts, and the penalty is the configured 1.
- Players.Jump: it requires a non-zero frame rate, since the source divides
  by it. The same goes for `Players.Cooldown` and `Players.CanJump`. Callers
  need a non-zero rate only when the network fires.
- Arena.KillAll, Arena.Frame: book by id (the corrected booking), not by
  position as src/main.py:300-303 does. `Arena.RecordAsWritten` and
  `Arena.SortedPositionMisbooks` model the booking as written.
- Evolution.NextGeneration, Evolution.BredFromFittest,
  Evolution.ChildrenDescendFromFittest,
  Evolution.CloneSlotRestartsWhenStagnant: they breed from the ranked
  generation (the corrected boundary), not from the re-initialised one as
  src/main.py:351 does. `Evolution.NextGenerationAsWritten` models the
  boundary as written.
- Arena.BookDeaths: it does not say what a row gains when two victims share
  it. That takes two registered players with the same id, which `id()`
  never gives two live objects. The clause that every other row is unchanged
  still holds.
- Evolution.Stagnant: it requires that the look-back exists in the log.
  The source would raise `IndexError` without it, but the log has one entry
  per generation, so the look-back exists whenever it is taken.
- Evolution.Slot: it uses the exact rationals 0.3 and 0.6 instead of their
  binary floating-point approximations. `Evolution.FiveSlots` gives the
  same partition as floats do for the configured population of five.
- Evolution.MutateBrain: `mutate` reads its own module constants. The
  coins and uniform draws are parameters.
- The stored toughness history and the `ga_states` display dictionary in
  `src/game_logic.py`: display and logging only. The parents' times are
  kept in `GeneticGame.Game.bestTimes`.
- Legacy.NewObstacle, Legacy.UpdateObstacle: the top-level files import
  their constants from a module that is not part of this model, so the
  bound `x + width > -speed` is stated only under `Legacy.ObstacleConfig`:
  a positive `WIDTH + OBSTACLE_WIDTH` and a non-negative speed.
- Legacy.MutationRate: its bounds are stated only for a non-negative
  MUTATION_SIZE, which that missing module supplies.
- The obstacle's `category` read by the top-level player.py: the top-level
  obstacle.py has no such attribute, so it is passed separately.

## Findings

| source | as written | input that shows it | evidently intended | confidence | as-written member | corrected member |
|---|---|---|---|---|---|---|
| src/main.py:351 | `reset` re-runs each player's constructor, drawing fresh random weights, before the slot loop at lines 354-392 reads `population[-1]` and `population[-2]` as parents, so the children are bred from fresh random weights and the ranking of line 329 is lost (only `best_overall_iw`/`best_overall_hw` carry inherited weights) | any generation of five: slot 0 becomes the mutated mean of the fresh brains `reset[4]` and `reset[3]`, whatever the ranked population held | breed from the ranked generation: the fittest and the runner-up cross, and the fittest is cloned | high (not executed) | Evolution.NextGenerationAsWritten | Evolution.NextGeneration |
| src/main.py:300-303 | the death is booked in row `i`, the player's position in the current population, which after the re-sort at line 329 is not the row registered for its id at line 77 | ids [7, 8] registered in that order and re-sorted so that id 8 is first: its death of score 3 is appended to id 7's row | book the death in the row whose id matches, `player_scores['player_id'].index(id(_))` | high (not executed) | Arena.RecordAsWritten | Arena.Record |

The first row is shown by `Evolution.AsWrittenBreedsFromFreshWeights` and
`Evolution.AsWrittenIgnoresRanking`. The corrected boundary satisfies
`Evolution.ChildrenDescendFromFittest`. The second row is shown by
`Arena.SortedPositionMisbooks`. The corrected booking is the one
`Arena.KillAll` uses, and `Arena.RecordAgreesInRegistrationOrder` shows the
two agree while the population keeps its registration order.

=== FILE: arena.dfy ===
/**
 * One frame of the network-driven game loop of src/main.py: the hazards
 * scroll (and the per-player scoring flags clear when the obstacle leaves),
 * every player updates, animates if dead and scores once per obstacle, and
 * then every live player the hazards touch is killed and booked.
 *
 * Whether a player touches the obstacle or the locked gate is the parameter
 * `colliding` (the gate-aware collision test is not part of this model).
 * A player's `id()` is the integer at its position in `ids`.
 */
module Arena {
  import opened Settings
  import opened Obstacles
  import Gates
  import Keys
  import Players
  import Metrics
  import Numeric

  // Hazards

  datatype Hazards = Hazards(obstacle: Obstacle, gate: Gates.Gate, key: Keys.Key)

  /**
   * Lines 261-265: obstacle first, then the flags (cleared when the moved
   * obstacle is outside), then the gate and the key from the moved obstacle.
   */
  function HazardTick(h: Hazards, flags: seq<bool>, category: Category, height: int, keyX: int, keyY: int)
    : (r: (Hazards, seq<bool>))
    requires ObstacleHeightMin <= height < ObstacleHeightMax && Keys.InMiddleThird(keyX, keyY)
    ensures r.0.obstacle == Obstacles.Update(h.obstacle, category, height)
    ensures |r.1| == |flags|
    ensures Obstacles.IsOutside(r.0.obstacle) ==> forall i :: 0 <= i < |r.1| ==> !r.1[i]
    ensures !Obstacles.IsOutside(r.0.obstacle) ==> r.1 == flags
    ensures r.0.gate == Gates.Update(h.gate, r.0.obstacle)
    ensures r.0.key == Keys.Update(h.key, r.0.obstacle, keyX, keyY)
  {
    var o := Obstacles.Update(h.obstacle, category, height);
    var f := if Obstacles.IsOutside(o) then seq(|flags|, _ => false) else flags;
    (Hazards(o, Gates.Update(h.gate, o), Keys.Update(h.key, o, keyX, keyY)), f)
  }

  /** The hazard tick keeps the gate over the obstacle. */
  lemma HazardTickKeepsCover(h: Hazards, flags: seq<bool>, category: Category, height: int, keyX: int, keyY: int)
    requires ObstacleHeightMin <= height < ObstacleHeightMax && Keys.InMiddleThird(keyX, keyY)
    requires WellFormed(h.obstacle) && Gates.Covers(h.gate, h.obstacle)
    ensures var r := HazardTick(h, flags, category, height, keyX, keyY);
      WellFormed(r.0.obstacle) && Gates.Covers(r.0.gate, r.0.obstacle)
  {
    Gates.TickKeepsCover(h.gate, h.obstacle, category, height);
  }

  // Scoring

  /**
   * Lines 272-274: a player past the obstacle's right edge whose flag is down
   * scores one and raises its flag.
   */
  function Score(p: Players.Player, o: Obstacle, flag: bool): (r: (Players.Player, bool))
    ensures r.0 == p.(score := r.0.score)
    ensures r.0.score == p.score || r.0.score == p.score + 1
    ensures r.0.score == p.score + 1 <==> !flag && p.x >= o.x + o.width
    ensures r.1 <==> flag || r.0.score == p.score + 1
  {
    if p.x >= o.x + o.width && !flag then (p.(score := p.score + 1), true) else (p, flag)
  }

  /** Lines 270-271 for one player: `update`, then the state part of `draw` (a dead player animates). */
  function Advance(p: Players.Player, o: Obstacle, fps: int, now: real,
                   decide: (seq<real>, Players.Matrix, Players.Matrix) -> bool): (r: Players.Player)
    requires Players.Fires(p, o, decide) ==> fps != 0
    ensures r.isAlive == p.isAlive && r.score == p.score
    ensures p.isAlive ==> r.x == p.x && r.radius == p.radius && r.isAnimating == p.isAnimating
    ensures !p.isAlive ==>
      || (r.x == p.x - ObstacleSpeed && r.radius == p.radius - 1 && r.isAnimating == p.isAnimating)
      || (r.x == -p.radius && r.radius == p.radius && !r.isAnimating)
  {
    var u := Players.Update(p, o, fps, now, decide);
    if u.isAlive then u else Players.AnimationStep(u)
  }

  /**
   * Lines 275-276 over the sweep: `gen_score` raised, in order, to any
   * larger score. It ends at the largest of the start value and the scores.
   */
  function RaiseTo(genScore: int, scores: seq<int>): (g: int)
    ensures g >= genScore && forall k :: 0 <= k < |scores| ==> scores[k] <= g
    ensures g == genScore || g in scores
    decreases |scores|
  {
    if |scores| == 0 then genScore
    else
      var g := RaiseTo(if scores[0] > genScore then scores[0] else genScore, scores[1..]);
      assert forall k :: 1 <= k < |scores| ==> scores[k] == scores[1..][k - 1];
      assert g in scores[1..] ==> g in scores;
      g
  }

  /** Every player whose network fires this frame can divide by the frame rate. */
  ghost predicate JumpsDefined(pop: seq<Players.Player>, o: Obstacle, fps: int,
                               decide: (seq<real>, Players.Matrix, Players.Matrix) -> bool)
  {
    forall i :: 0 <= i < |pop| ==> (Players.Fires(pop[i], o, decide) ==> fps != 0)
  }

  /** The result of a population sweep. */
  datatype Sweep = Sweep(population: seq<Players.Player>, flags: seq<bool>, genScore: int)

  /**
   * Lines 272-276 over the advanced population: each player scores against
   * its own flag, and `gen_score` ends at the best score on the field, or
   * where it was if that is higher.
   */
  function ScoreAll(pop: seq<Players.Player>, flags: seq<bool>, genScore: int, o: Obstacle): (r: Sweep)
    requires |flags| == |pop|
    ensures |r.population| == |pop| && |r.flags| == |pop|
    ensures forall i :: 0 <= i < |pop| ==> (r.population[i], r.flags[i]) == Score(pop[i], o, flags[i])
    ensures r.genScore >= genScore
    ensures forall i :: 0 <= i < |pop| ==> r.population[i].score <= r.genScore
    ensures r.genScore == genScore || exists i :: 0 <= i < |pop| && r.population[i].score == r.genScore
  {
    var players := seq(|pop|, i requires 0 <= i < |pop| => Score(pop[i], o, flags[i]).0);
    var raised := seq(|pop|, i requires 0 <= i < |pop| => Score(pop[i], o, flags[i]).1);
    var scores := seq(|pop|, i requires 0 <= i < |pop| => players[i].score);
    var g := RaiseTo(genScore, scores);
    forall i | 0 <= i < |pop|
      ensures (players[i], raised[i]) == Score(pop[i], o, flags[i]) && players[i].score <= g
    {
      assert scores[i] == players[i].score;
    }
    assert g != genScore ==> exists i :: 0 <= i < |pop| && players[i].score == g by {
      if g != genScore {
        var i :| 0 <= i < |pop| && scores[i] == g;
        assert players[i].score == g;
      }
    }
    Sweep(players, raised, g)
  }

  /**
   * Lines 269-276. Player `i`'s scoring reads only player `i` after its own
   * update, so advancing everybody first and then scoring everybody is the
   * interleaved loop.
   */
  function SweepAll(pop: seq<Players.Player>, flags: seq<bool>, genScore: int, o: Obstacle, fps: int, now: real,
                    decide: (seq<real>, Players.Matrix, Players.Matrix) -> bool): (r: Sweep)
    requires |flags| == |pop| && JumpsDefined(pop, o, fps, decide)
    ensures |r.population| == |pop| && |r.flags| == |pop|
    ensures forall i :: 0 <= i < |pop| ==>
      (r.population[i], r.flags[i]) == Score(Advance(pop[i], o, fps, now, decide), o, flags[i])
    ensures forall i :: 0 <= i < |pop| ==> r.population[i].isAlive == pop[i].isAlive
    ensures forall i :: 0 <= i < |pop| ==> pop[i].score <= r.population[i].score <= pop[i].score + 1
    ensures forall i :: 0 <= i < |pop| ==>
      (r.flags[i] <==> flags[i] || r.population[i].score == pop[i].score + 1)
      && (flags[i] ==> r.population[i].score == pop[i].score)
    ensures r.genScore >= genScore && forall i :: 0 <= i < |pop| ==> r.population[i].score <= r.genScore
  {
    var advanced := seq(|pop|, i requires 0 <= i < |pop| => Advance(pop[i], o, fps, now, decide));
    ScoreAll(advanced, flags, genScore, o)
  }

  // Deaths

  /** The bookkeeping of one generation of the network-driven loop. */
  datatype Arena = Arena(
    population: seq<Players.Player>, ids: seq<int>, flags: seq<bool>,
    genScore: int, dead: seq<nat>, overallDeaths: int, genScores: seq<int>,
    book: Metrics.ScoreBook)

  /** `dead_players` holds, each once, exactly the positions of the dead players. */
  ghost predicate DeadConsistent(pop: seq<Players.Player>, dead: seq<nat>)
  {
    && (forall k :: 0 <= k < |dead| ==> dead[k] < |pop|)
    && (forall k, l :: 0 <= k < l < |dead| ==> dead[k] != dead[l])
    && (forall i :: 0 <= i < |pop| ==> (!pop[i].isAlive <==> i in dead))
  }

  /** `id()` tells live objects apart: no two players share an id. */
  ghost predicate Distinct(ids: seq<int>)
  {
    forall k, l :: 0 <= k < l < |ids| ==> ids[k] != ids[l]
  }

  ghost predicate Valid(a: Arena)
  {
    && |a.ids| == |a.population| && |a.flags| == |a.population| && Distinct(a.ids)
    && Metrics.Valid(a.book)
    && DeadConsistent(a.population, a.dead)
  }

  /**
   * Lines 301-303 with the row looked up by the player's id: append the
   * score to that row and count the death there. Unregistered ids leave
   * the book as it is.
   */
  function Record(book: Metrics.ScoreBook, pid: int, score: int): (r: Metrics.ScoreBook)
    requires Metrics.Valid(book) && score >= 0
    ensures Metrics.Valid(r) && r.ids == book.ids
    ensures pid !in book.ids ==> r == book
    ensures pid in book.ids ==>
      var row := Numeric.FirstIndexOf(book.ids, pid);
      && r.scores[row] == book.scores[row] + [score] && r.deaths[row] == book.deaths[row] + 1
      && (forall j :: 0 <= j < |book.ids| && j != row ==> r.scores[j] == book.scores[j] && r.deaths[j] == book.deaths[j])
  {
    if pid in book.ids then
      var row := Numeric.FirstIndexOf(book.ids, pid);
      book.(scores := book.scores[row := book.scores[row] + [score]],
            deaths := book.deaths[row := book.deaths[row] + 1])
    else book
  }

  /**
   * Lines 300-303 as written: the row is the player's position `i` in the
   * current population, which after the re-sort between generations need
   * not be the row registered for its id.
   */
  function RecordAsWritten(book: Metrics.ScoreBook, i: nat, pid: int, score: int): (r: Metrics.ScoreBook)
    requires Metrics.Valid(book) && i < |book.ids| && score >= 0
    ensures Metrics.Valid(r) && r.ids == book.ids
    ensures pid !in book.ids ==> r == book
    ensures pid in book.ids ==>
      && r.scores[i] == book.scores[i] + [score] && r.deaths[i] == book.deaths[i] + 1
      && (forall j :: 0 <= j < |book.ids| && j != i ==> r.scores[j] == book.scores[j] && r.deaths[j] == book.deaths[j])
  {
    if pid in book.ids then
      book.(scores := book.scores[i := book.scores[i] + [score]],
            deaths := book.deaths[i := book.deaths[i] + 1])
    else book
  }

  /**
   * After a re-sort that swaps two players, the death of the player now
   * first (id 8) is charged to the row of id 7; looked up by id it lands in
   * id 8's row.
   */
  lemma SortedPositionMisbooks()
    ensures var book := Metrics.ScoreBook([7, 8], [[], []], [0, 0]);
      && RecordAsWritten(book, 0, 8, 3) == Metrics.ScoreBook([7, 8], [[3], []], [1, 0])
      && Record(book, 8, 3) == Metrics.ScoreBook([7, 8], [[], [3]], [0, 1])
  {
    var book := Metrics.ScoreBook([7, 8], [[], []], [0, 0]);
    assert book.ids[1] == 8;
    assert Numeric.FirstIndexOf(book.ids, 8) == 1;
    var none: seq<int> := [];
    assert book.scores[0] + [3] == [3] && book.scores[1] + [3] == [3];
    assert book.scores[0 := [3]] == [[3], none];
    assert book.scores[1 := [3]] == [none, [3]];
  }

  /** While the population is in registration order the two agree. */
  lemma RecordAgreesInRegistrationOrder(book: Metrics.ScoreBook, i: nat, score: int)
    requires Metrics.Valid(book) && i < |book.ids| && score >= 0
    requires forall j :: 0 <= j < i ==> book.ids[j] != book.ids[i]
    ensures RecordAsWritten(book, i, book.ids[i], score) == Record(book, book.ids[i], score)
  {
    assert Numeric.FirstIndexOf(book.ids, book.ids[i]) == i;
  }

  /** A live player the hazards touch is killed; anybody else is left alone. */
  function KillIf(p: Players.Player, touched: bool, now: real): (r: Players.Player)
    ensures p.isAlive && touched ==> r == Players.Kill(p, now)
    ensures !(p.isAlive && touched) ==> r == p
    ensures r.score == p.score && (r.isAlive <==> p.isAlive && !touched)
  {
    if p.isAlive && touched then Players.Kill(p, now) else p
  }

  /** Scores are counts. */
  ghost predicate ScoresCount(pop: seq<Players.Player>)
  {
    forall i :: 0 <= i < |pop| ==> pop[i].score >= 0
  }

  /** The positions among the first `n` that the sweep of lines 286-298 kills, in order. */
  function Victims(pop: seq<Players.Player>, colliding: seq<bool>, n: nat): (v: seq<nat>)
    requires |colliding| == |pop| && n <= |pop|
    ensures forall k :: 0 <= k < |v| ==> v[k] < n
    ensures forall k, l :: 0 <= k < l < |v| ==> v[k] < v[l]
    ensures forall j :: 0 <= j < n ==> (j in v <==> pop[j].isAlive && colliding[j])
    decreases n
  {
    if n == 0 then []
    else
      var v := Victims(pop, colliding, n - 1);
      if pop[n - 1].isAlive && colliding[n - 1] then v + [n - 1] else v
  }

  /** The population after the sweep of lines 286-298. */
  function KillTouched(pop: seq<Players.Player>, colliding: seq<bool>, now: real): (r: seq<Players.Player>)
    requires |colliding| == |pop|
    ensures |r| == |pop|
    ensures forall j :: 0 <= j < |pop| ==> r[j] == KillIf(pop[j], colliding[j], now)
    ensures forall j :: 0 <= j < |pop| ==> r[j].score == pop[j].score
    ensures forall j :: 0 <= j < |pop| ==> (r[j].isAlive <==> pop[j].isAlive && !colliding[j])
  {
    seq(|pop|, j requires 0 <= j < |pop| => KillIf(pop[j], colliding[j], now))
  }

  /** The victims' scores, in order, as appended to `gen_scores`. */
  function ScoresOf(pop: seq<Players.Player>, v: seq<nat>): (r: seq<int>)
    requires forall k :: 0 <= k < |v| ==> v[k] < |pop|
    ensures |r| == |v| && forall k :: 0 <= k < |v| ==> r[k] == pop[v[k]].score
  {
    seq(|v|, k requires 0 <= k < |v| => pop[v[k]].score)
  }

  /** The row `Record` books player `pid` into, or -1 for an id that was never registered. */
  function RowOf(bookIds: seq<int>, pid: int): (row: int)
    ensures pid in bookIds <==> row >= 0
    ensures row >= 0 ==> row < |bookIds| && bookIds[row] == pid
  {
    if pid in bookIds then Numeric.FirstIndexOf(bookIds, pid) else -1
  }

  /** The rows the victims `v` are booked into, in order (-1 for an unregistered id). */
  function Rows(bookIds: seq<int>, ids: seq<int>, v: seq<nat>): (rows: seq<int>)
    requires forall k :: 0 <= k < |v| ==> v[k] < |ids|
    ensures |rows| == |v| && forall k :: 0 <= k < |v| ==> rows[k] == RowOf(bookIds, ids[v[k]])
  {
    seq(|v|, k requires 0 <= k < |v| => RowOf(bookIds, ids[v[k]]))
  }

  /** The `k`-th row of `rows` occurs nowhere else in it. */
  ghost predicate Once(rows: seq<int>, k: nat)
    requires k < |rows|
  {
    forall l :: 0 <= l < |rows| && l != k ==> rows[l] != rows[k]
  }

  /**
   * Lines 300-303 for each victim in turn. A row no victim maps to is left
   * alone; the row of a victim that shares it with no other victim gains
   * exactly that victim's score and one death.
   */
  function BookDeaths(book: Metrics.ScoreBook, ids: seq<int>, pop: seq<Players.Player>, v: seq<nat>)
    : (r: Metrics.ScoreBook)
    requires Metrics.Valid(book) && |ids| == |pop| && ScoresCount(pop)
    requires forall k :: 0 <= k < |v| ==> v[k] < |pop|
    ensures Metrics.Valid(r) && r.ids == book.ids
    ensures var rows := Rows(book.ids, ids, v);
      forall j :: 0 <= j < |book.ids| && j !in rows ==> r.scores[j] == book.scores[j] && r.deaths[j] == book.deaths[j]
    ensures var rows := Rows(book.ids, ids, v);
      forall k :: 0 <= k < |v| && rows[k] >= 0 && Once(rows, k) ==>
        r.scores[rows[k]] == book.scores[rows[k]] + [pop[v[k]].score] && r.deaths[rows[k]] == book.deaths[rows[k]] + 1
    decreases |v|
  {
    if |v| == 0 then book
    else
      var mid := Record(book, ids[v[0]], pop[v[0]].score);
      var r := BookDeaths(mid, ids, pop, v[1..]);
      BookFirst(book, ids, pop, v, mid, r);
      r
  }

  /**
   * The inductive step of `BookDeaths`: booking the first victim and then,
   * as `r`, the rest gives the whole frame's booking.
   */
  lemma BookFirst(book: Metrics.ScoreBook, ids: seq<int>, pop: seq<Players.Player>, v: seq<nat>,
                  mid: Metrics.ScoreBook, r: Metrics.ScoreBook)
    requires Metrics.Valid(book) && |ids| == |pop| && ScoresCount(pop) && |v| > 0
    requires forall k :: 0 <= k < |v| ==> v[k] < |pop|
    requires mid == Record(book, ids[v[0]], pop[v[0]].score)
    requires r.ids == mid.ids && |r.scores| == |mid.ids| && |r.deaths| == |mid.ids|
    requires var rows := Rows(mid.ids, ids, v[1..]);
      forall j :: 0 <= j < |mid.ids| && j !in rows ==> r.scores[j] == mid.scores[j] && r.deaths[j] == mid.deaths[j]
    requires var rows := Rows(mid.ids, ids, v[1..]);
      forall k :: 0 <= k < |v| - 1 && rows[k] >= 0 && Once(rows, k) ==>
        r.scores[rows[k]] == mid.scores[rows[k]] + [pop[v[1..][k]].score] && r.deaths[rows[k]] == mid.deaths[rows[k]] + 1
    ensures var rows := Rows(book.ids, ids, v);
      forall j :: 0 <= j < |book.ids| && j !in rows ==> r.scores[j] == book.scores[j] && r.deaths[j] == book.deaths[j]
    ensures var rows := Rows(book.ids, ids, v);
      forall k :: 0 <= k < |v| && rows[k] >= 0 && Once(rows, k) ==>
        r.scores[rows[k]] == book.scores[rows[k]] + [pop[v[k]].score] && r.deaths[rows[k]] == book.deaths[rows[k]] + 1
  {
    var rows := Rows(book.ids, ids, v);
    var rest := Rows(book.ids, ids, v[1..]);
    assert rest == rows[1..];
    forall k | 0 <= k < |v| && rows[k] >= 0 && Once(rows, k)
      ensures r.scores[rows[k]] == book.scores[rows[k]] + [pop[v[k]].score]
      ensures r.deaths[rows[k]] == book.deaths[rows[k]] + 1
    {
      if k == 0 {
        assert rows[k] !in rest;
      } else {
        assert rows[0] != rows[k] && rest[k - 1] == rows[k] && v[1..][k - 1] == v[k];
        assert Once(rest, k - 1);
      }
    }
    forall j | 0 <= j < |book.ids| && j !in rows
      ensures r.scores[j] == book.scores[j] && r.deaths[j] == book.deaths[j]
    {
      assert rows[0] != j && j !in rest;
    }
  }

  /** Listing the victims after the dead keeps the list exact and duplicate-free. */
  lemma ExtendDead(pop: seq<Players.Player>, pop': seq<Players.Player>, colliding: seq<bool>, dead: seq<nat>, v: seq<nat>)
    requires DeadConsistent(pop, dead) && |pop'| == |pop| && |colliding| == |pop|
    requires forall j :: 0 <= j < |pop| ==> (pop'[j].isAlive <==> pop[j].isAlive && !colliding[j])
    requires forall k :: 0 <= k < |v| ==> v[k] < |pop|
    requires forall k, l :: 0 <= k < l < |v| ==> v[k] < v[l]
    requires forall j :: 0 <= j < |pop| ==> (j in v <==> pop[j].isAlive && colliding[j])
    ensures DeadConsistent(pop', dead + v)
  {
    var all := dead + v;
    assert forall k :: 0 <= k < |v| ==> v[k] !in dead by {
      forall k | 0 <= k < |v| ensures v[k] !in dead {
        assert v[k] in v;
      }
    }
    assert forall k, l :: 0 <= k < l < |all| ==> all[k] != all[l] by {
      forall k, l | 0 <= k < l < |all| ensures all[k] != all[l] {
        if l >= |dead| && k < |dead| {
          assert all[l] == v[l - |dead|];
          assert all[k] in dead;
        }
      }
    }
    assert forall j :: 0 <= j < |pop| ==> (j in all <==> j in dead || j in v);
  }

  /** A live player the hazards touch this frame. */
  predicate Killed(a: Arena, colliding: seq<bool>, i: nat)
    requires |colliding| == |a.population| && i < |a.population|
  {
    a.population[i].isAlive && colliding[i]
  }

  /** No player killed this frame is booked into row `j`. */
  ghost predicate NoVictimIn(a: Arena, colliding: seq<bool>, j: int)
    requires |colliding| == |a.population| && |a.ids| == |a.population|
  {
    forall i :: 0 <= i < |a.population| && Killed(a, colliding, i) ==> RowOf(a.book.ids, a.ids[i]) != j
  }

  /**
   * The frame's deaths are in `book`: the row of every killed registered
   * player has gained its score and one death, and every row that belongs
   * to no killed player is as it was.
   */
  ghost predicate Booked(a: Arena, colliding: seq<bool>, book: Metrics.ScoreBook)
    requires Valid(a) && |colliding| == |a.population|
  {
    && Metrics.Valid(book) && book.ids == a.book.ids
    && (forall i :: 0 <= i < |a.population| && Killed(a, colliding, i) && a.ids[i] in a.book.ids ==>
          (book.scores[RowOf(a.book.ids, a.ids[i])] == a.book.scores[RowOf(a.book.ids, a.ids[i])] + [a.population[i].score]
           && book.deaths[RowOf(a.book.ids, a.ids[i])] == a.book.deaths[RowOf(a.book.ids, a.ids[i])] + 1))
    && (forall j :: 0 <= j < |a.book.ids| && NoVictimIn(a, colliding, j) ==>
          (book.scores[j] == a.book.scores[j] && book.deaths[j] == a.book.deaths[j]))
  }

  /**
   * Booking the frame's victims, ids told apart: the row of every killed
   * registered player gains its score and one death, and a row that belongs
   * to no killed player is left alone.
   */
  lemma BookVictims(a: Arena, colliding: seq<bool>)
    requires Valid(a) && ScoresCount(a.population) && |colliding| == |a.population|
    ensures Booked(a, colliding, BookDeaths(a.book, a.ids, a.population, Victims(a.population, colliding, |a.population|)))
  {
    var v := Victims(a.population, colliding, |a.population|);
    var rows := Rows(a.book.ids, a.ids, v);
    forall i | 0 <= i < |a.population| && Killed(a, colliding, i) && a.ids[i] in a.book.ids
      ensures exists k :: 0 <= k < |v| && v[k] == i && rows[k] >= 0 && Once(rows, k)
    {
      var k := VictimRowOnce(a, colliding, i);
    }
    forall j | 0 <= j < |a.book.ids| && NoVictimIn(a, colliding, j)
      ensures j !in rows
    {
      forall k | 0 <= k < |v| ensures rows[k] != j {
        assert v[k] in v && Killed(a, colliding, v[k]);
      }
    }
  }

  /** A killed registered player is booked once, into a row no other victim shares. */
  lemma VictimRowOnce(a: Arena, colliding: seq<bool>, i: nat) returns (k: nat)
    requires Valid(a) && |colliding| == |a.population|
    requires i < |a.population| && Killed(a, colliding, i) && a.ids[i] in a.book.ids
    ensures var v := Victims(a.population, colliding, |a.population|);
      var rows := Rows(a.book.ids, a.ids, v);
      k < |v| && v[k] == i && rows[k] >= 0 && Once(rows, k)
  {
    var v := Victims(a.population, colliding, |a.population|);
    var rows := Rows(a.book.ids, a.ids, v);
    assert i in v;
    k :| 0 <= k < |v| && v[k] == i;
    assert rows[k] == RowOf(a.book.ids, a.ids[i]) >= 0;
    forall l | 0 <= l < |v| && l != k
      ensures rows[l] != rows[k]
    {
      assert v[l] != v[k] by {
        if l < k { assert v[l] < v[k]; } else { assert v[k] < v[l]; }
      }
      assert a.ids[v[l]] != a.ids[v[k]] by {
        if v[l] < v[k] { assert !(a.ids[v[l]] == a.ids[v[k]]); } else { assert !(a.ids[v[k]] == a.ids[v[l]]); }
      }
    }
    assert 0 <= k < |v| && v[k] == i && rows[k] >= 0 && Once(rows, k);
  }

  /**
   * Lines 286-303: every live player the hazards touch is killed, in
   * population order, listed as dead, counted, logged and booked in the row
   * registered for its id.
   */
  function KillAll(a: Arena, colliding: seq<bool>, now: real): (r: Arena)
    requires Valid(a) && ScoresCount(a.population) && |colliding| == |a.population|
    ensures Valid(r) && ScoresCount(r.population)
    ensures r.ids == a.ids && r.flags == a.flags && r.genScore == a.genScore
    ensures |r.population| == |a.population|
    ensures forall j :: 0 <= j < |a.population| ==> r.population[j] == KillIf(a.population[j], colliding[j], now)
    ensures forall j :: 0 <= j < |a.population| ==> r.population[j].score == a.population[j].score
    ensures r.book.ids == a.book.ids
    ensures Booked(a, colliding, r.book)
  {
    var v := Victims(a.population, colliding, |a.population|);
    var pop := KillTouched(a.population, colliding, now);
    ExtendDead(a.population, pop, colliding, a.dead, v);
    BookVictims(a, colliding);
    a.(population := pop, dead := a.dead + v, overallDeaths := a.overallDeaths + |v|,
       genScores := a.genScores + ScoresOf(a.population, v),
       book := BookDeaths(a.book, a.ids, a.population, v))
  }

  /**
   * The kills are logged: `dead_players` only grows, by players that were
   * alive and touched, so nobody already dead is listed again; the death
   * count and `gen_scores` grow with it, by the victims' scores.
   */
  lemma DeathsAreLogged(a: Arena, colliding: seq<bool>, now: real)
    requires Valid(a) && ScoresCount(a.population) && |colliding| == |a.population|
    ensures var r := KillAll(a, colliding, now);
      && |r.dead| >= |a.dead| && (forall k :: 0 <= k < |a.dead| ==> r.dead[k] == a.dead[k])
      && (forall k :: |a.dead| <= k < |r.dead| ==> a.population[r.dead[k]].isAlive && colliding[r.dead[k]])
      && r.overallDeaths - a.overallDeaths == |r.dead| - |a.dead|
      && |r.genScores| - |a.genScores| == |r.dead| - |a.dead|
      && (forall k :: |a.dead| <= k < |r.dead| ==>
            r.genScores[|a.genScores| + k - |a.dead|] == a.population[r.dead[k]].score)
  {
    var r := KillAll(a, colliding, now);
    var v := Victims(a.population, colliding, |a.population|);
    forall k | 0 <= k < |v| ensures a.population[v[k]].isAlive && colliding[v[k]] {
      assert v[k] in v;
    }
    VictimsAppended(a.population, colliding, a.dead, a.genScores, v);
    KillAllParts(a, colliding, now);
  }

  lemma KillAllParts(a: Arena, colliding: seq<bool>, now: real)
    requires Valid(a) && ScoresCount(a.population) && |colliding| == |a.population|
    ensures var v := Victims(a.population, colliding, |a.population|);
      var r := KillAll(a, colliding, now);
      && r.dead == a.dead + v && r.overallDeaths == a.overallDeaths + |v|
      && r.genScores == a.genScores + ScoresOf(a.population, v)
  {
  }

  lemma VictimsAppended(pop: seq<Players.Player>, colliding: seq<bool>, dead: seq<nat>, gs: seq<int>, v: seq<nat>)
    requires |colliding| == |pop|
    requires forall k :: 0 <= k < |v| ==> v[k] < |pop| && pop[v[k]].isAlive && colliding[v[k]]
    ensures var d := dead + v; var g := gs + ScoresOf(pop, v);
      && (forall k :: 0 <= k < |dead| ==> d[k] == dead[k])
      && (forall k :: |dead| <= k < |d| ==> pop[d[k]].isAlive && colliding[d[k]])
      && |g| - |gs| == |d| - |dead|
      && (forall k :: |dead| <= k < |d| ==> g[|gs| + k - |dead|] == pop[d[k]].score)
  {
    var d := dead + v;
    var g := gs + ScoresOf(pop, v);
    forall k | |dead| <= k < |d|
      ensures d[k] == v[k - |dead|] && g[|gs| + k - |dead|] == pop[v[k - |dead|]].score
    {
    }
  }

  /**
   * A sweep starting from flags `flags` took `pop` to `pop'` with flags
   * `flags'`: every score grew by at most one, a flag is up afterwards exactly
   * when it was up before or its player scored, and a player whose flag was
   * up did not score.
   */
  ghost predicate Swept(pop: seq<Players.Player>, flags: seq<bool>, pop': seq<Players.Player>, flags': seq<bool>)
    requires |flags| == |pop| && |pop'| == |pop| && |flags'| == |pop|
  {
    forall i :: 0 <= i < |pop| ==>
      && pop[i].score <= pop'[i].score <= pop[i].score + 1
      && (flags'[i] <==> flags[i] || pop'[i].score == pop[i].score + 1)
      && (flags[i] ==> pop'[i].score == pop[i].score)
  }

  /**
   * Lines 269-276 on the whole arena: the sweep neither kills nor revives,
   * so the bookkeeping stays exact; scores grow by at most one and the
   * generation score never drops.
   */
  function SweepArena(a: Arena, o: Obstacle, flags: seq<bool>, fps: int, now: real,
                      decide: (seq<real>, Players.Matrix, Players.Matrix) -> bool): (b: Arena)
    requires Valid(a) && ScoresCount(a.population) && |flags| == |a.population|
    requires JumpsDefined(a.population, o, fps, decide)
    ensures Valid(b) && ScoresCount(b.population) && |b.population| == |a.population|
    ensures b.genScore >= a.genScore
    ensures Swept(a.population, flags, b.population, b.flags)
  {
    var s := SweepAll(a.population, flags, a.genScore, o, fps, now, decide);
    a.(population := s.population, flags := s.flags, genScore := s.genScore)
  }

  /** Kills change neither scores nor flags, so the sweep's account stands. */
  lemma SweptThenKilled(pop: seq<Players.Player>, flags: seq<bool>, swept: seq<Players.Player>, flags': seq<bool>,
                        killed: seq<Players.Player>, flags'': seq<bool>)
    requires |flags| == |pop| && |swept| == |pop| && |flags'| == |pop| && Swept(pop, flags, swept, flags')
    requires |killed| == |pop| && flags'' == flags'
    requires forall j :: 0 <= j < |pop| ==> killed[j].score == swept[j].score
    ensures Swept(pop, flags, killed, flags'')
  {
  }

  /**
   * One frame of lines 261-303: hazards, then the players' sweep, then the
   * kills. The bookkeeping stays exact, scores only grow, by at most one: a
   * player scores only with its flag down (after the clear, if the obstacle
   * left), and its flag is up afterwards.
   */
  function Frame(a: Arena, h: Hazards, category: Category, height: int, keyX: int, keyY: int,
                 fps: int, now: real, decide: (seq<real>, Players.Matrix, Players.Matrix) -> bool,
                 colliding: seq<bool>): (r: (Arena, Hazards))
    requires Valid(a) && ScoresCount(a.population) && |colliding| == |a.population|
    requires ObstacleHeightMin <= height < ObstacleHeightMax && Keys.InMiddleThird(keyX, keyY)
    requires JumpsDefined(a.population, Obstacles.Update(h.obstacle, category, height), fps, decide)
    ensures Valid(r.0) && ScoresCount(r.0.population) && |r.0.population| == |a.population|
    ensures r.0.genScore >= a.genScore
    ensures r.1 == HazardTick(h, a.flags, category, height, keyX, keyY).0
    ensures Swept(a.population, HazardTick(h, a.flags, category, height, keyX, keyY).1, r.0.population, r.0.flags)
  {
    var t := HazardTick(h, a.flags, category, height, keyX, keyY);
    var b := SweepArena(a, t.0.obstacle, t.1, fps, now, decide);
    var k := KillAll(b, colliding, now);
    SweptThenKilled(a.population, t.1, b.population, b.flags, k.population, k.flags);
    (k, t.0)
  }

  /** Frames keep the gate over the obstacle. */
  lemma FrameKeepsCover(a: Arena, h: Hazards, category: Category, height: int, keyX: int, keyY: int,
                        fps: int, now: real, decide: (seq<real>, Players.Matrix, Players.Matrix) -> bool,
                        colliding: seq<bool>)
    requires Valid(a) && ScoresCount(a.population) && |colliding| == |a.population|
    requires ObstacleHeightMin <= height < ObstacleHeightMax && Keys.InMiddleThird(keyX, keyY)
    requires JumpsDefined(a.population, Obstacles.Update(h.obstacle, category, height), fps, decide)
    requires WellFormed(h.obstacle) && Gates.Covers(h.gate, h.obstacle)
    ensures var r := Frame(a, h, category, height, keyX, keyY, fps, now, decide, colliding);
      WellFormed(r.1.obstacle) && Gates.Covers(r.1.gate, r.1.obstacle)
  {
    HazardTickKeepsCover(h, a.flags, category, height, keyX, keyY);
  }

  /** What one frame consumes: the redraw's draws, the frame rate, the clock and the touches. */
  datatype Tick = Tick(category: Category, height: int, keyX: int, keyY: int, fps: int, now: real,
                       colliding: seq<bool>)

  /** `Frame` may run on arena `a` with hazards `h` and tick `t`. */
  ghost predicate TickFits(a: Arena, h: Hazards, t: Tick, decide: (seq<real>, Players.Matrix, Players.Matrix) -> bool)
  {
    && Valid(a) && ScoresCount(a.population) && |t.colliding| == |a.population|
    && ObstacleHeightMin <= t.height < ObstacleHeightMax && Keys.InMiddleThird(t.keyX, t.keyY)
    && JumpsDefined(a.population, Obstacles.Update(h.obstacle, t.category, t.height), t.fps, decide)
  }

  function Step(a: Arena, h: Hazards, t: Tick, decide: (seq<real>, Players.Matrix, Players.Matrix) -> bool)
    : (Arena, Hazards)
    requires TickFits(a, h, t, decide)
  {
    Frame(a, h, t.category, t.height, t.keyX, t.keyY, t.fps, t.now, decide, t.colliding)
  }

  /** Every tick of the run fits the frame it is applied to. */
  ghost predicate Playable(a: Arena, h: Hazards, ticks: seq<Tick>,
                           decide: (seq<real>, Players.Matrix, Players.Matrix) -> bool)
    decreases |ticks|
  {
    |ticks| == 0 || (TickFits(a, h, ticks[0], decide)
      && var n := Step(a, h, ticks[0], decide); Playable(n.0, n.1, ticks[1..], decide))
  }

  /** During the run the obstacle never leaves the screen, so the flags are never cleared. */
  ghost predicate StaysOnScreen(a: Arena, h: Hazards, ticks: seq<Tick>,
                                decide: (seq<real>, Players.Matrix, Players.Matrix) -> bool)
    requires Playable(a, h, ticks, decide)
    decreases |ticks|
  {
    |ticks| == 0 || (!Obstacles.IsOutside(Obstacles.Update(h.obstacle, ticks[0].category, ticks[0].height))
      && var n := Step(a, h, ticks[0], decide); StaysOnScreen(n.0, n.1, ticks[1..], decide))
  }

  /**
   * Frame after frame (lines 225-323 while the game runs): the bookkeeping
   * stays exact, the population keeps its size, and no score or the
   * generation score ever drops.
   */
  function Play(a: Arena, h: Hazards, ticks: seq<Tick>, decide: (seq<real>, Players.Matrix, Players.Matrix) -> bool)
    : (r: (Arena, Hazards))
    requires Playable(a, h, ticks, decide)
    ensures |ticks| == 0 ==> r == (a, h)
    ensures |ticks| > 0 ==> Valid(r.0) && ScoresCount(r.0.population)
    ensures |r.0.population| == |a.population| && r.0.genScore >= a.genScore
    ensures forall i :: 0 <= i < |a.population| ==> r.0.population[i].score >= a.population[i].score
    decreases |ticks|
  {
    if |ticks| == 0 then (a, h)
    else
      var n := Step(a, h, ticks[0], decide);
      Play(n.0, n.1, ticks[1..], decide)
  }

  /**
   * A player scores at most once per obstacle: over any run of frames in
   * which the obstacle stays on screen, each score rises by at most one, not
   * at all for a player whose flag was already up, and once it has risen
   * the flag is up.
   */
  lemma {:induction false} ScoresOncePerObstacle(a: Arena, h: Hazards, ticks: seq<Tick>,
                                                 decide: (seq<real>, Players.Matrix, Players.Matrix) -> bool, i: nat)
    requires Playable(a, h, ticks, decide) && StaysOnScreen(a, h, ticks, decide)
    requires |a.flags| == |a.population| && i < |a.population|
    ensures var r := Play(a, h, ticks, decide).0;
      && a.population[i].score <= r.population[i].score <= a.population[i].score + 1
      && (a.flags[i] ==> r.population[i].score == a.population[i].score && r.flags[i])
      && (r.population[i].score == a.population[i].score + 1 ==> r.flags[i])
    decreases |ticks|
  {
    if |ticks| > 0 {
      var t := ticks[0];
      var n := Step(a, h, t, decide);
      assert HazardTick(h, a.flags, t.category, t.height, t.keyX, t.keyY).1 == a.flags;
      ScoresOncePerObstacle(n.0, n.1, ticks[1..], decide, i);
    }
  }

  /** Lines 305-309: the generation ends once everybody died and the last death's animation is over. */
  predicate GenerationOver(a: Arena)
  {
    |a.dead| == PopulationSize && a.dead[|a.dead| - 1] < |a.population|
    && !a.population[a.dead[|a.dead| - 1]].isAnimating
  }

  /** A duplicate-free list of positions below `n` has at most `n` entries. */
  lemma {:induction false} DistinctBelow(s: seq<nat>, n: nat)
    requires forall k :: 0 <= k < |s| ==> s[k] < n
    requires forall k, l :: 0 <= k < l < |s| ==> s[k] != s[l]
    ensures |s| <= n
    decreases n
  {
    if |s| > 0 {
      assert s[0] < n;
      if n - 1 in s {
        // drop the one entry n - 1; what is left lies below n - 1
        var m :| 0 <= m < |s| && s[m] == n - 1;
        var t := s[..m] + s[m + 1..];
        assert forall k :: 0 <= k < |t| ==> t[k] == s[if k < m then k else k + 1];
        DistinctBelow(t, n - 1);
      } else {
        DistinctBelow(s, n - 1);
      }
    }
  }

  /** When the generation is over, every player of a full population is dead. */
  lemma GenerationOverMeansAllDead(a: Arena)
    requires Valid(a) && |a.population| == PopulationSize && GenerationOver(a)
    ensures forall i :: 0 <= i < |a.population| ==> !a.population[i].isAlive
  {
    forall i | 0 <= i < |a.population|
      ensures !a.population[i].isAlive
    {
      if a.population[i].isAlive {
        assert i !in a.dead;
        var s := a.dead + [i];
        assert forall k :: 0 <= k < |a.dead| ==> s[k] == a.dead[k];
        DistinctBelow(s, |a.population|);
      }
    }
  }
}

=== FILE: early.dfy ===
/**
 * The two earliest, keyboard-driven versions of the game: the top-level
 * game_logic.py and its prototype pygame_test.py. Both have the same ball
 * (ground clamp, gravity, Euler step, an unconditional jump) and the same
 * collision test, against a floor pillar only and with no ceiling term; they
 * differ in gravity, ball size and obstacle handling. game_logic.py redraws
 * a randomly sized obstacle once it has left the screen; the prototype has a
 * fixed obstacle that is wrapped back to the right edge.
 */
module Early {
  import Kinematics
  import Geometry

  // Shared by both files
  const Width: int := 800
  const Height: int := 600
  const BaseHeight: int := 100
  const StartX: int := 40
  const JumpForce: real := -10.0
  const ObstacleSpeed: int := 5

  // game_logic.py
  const BallRadius: int := 10
  const Gravity: real := 0.5
  const ObstacleWidthMin: int := 25
  const ObstacleWidthMax: int := 100
  const ObstacleHeightMin: int := 50
  const ObstacleHeightMax: int := 300

  // pygame_test.py
  const PrototypeRadius: int := 20
  const PrototypeGravity: real := 1.0
  const PrototypeWidth: int := 25
  const PrototypeHeight: int := 200

  datatype Ball = Ball(radius: int, x: int, y: real, vy: real, isJumping: bool)

  /** A floor pillar spanning [x, x + width] x [y, y + height]. */
  datatype Obstacle = Obstacle(width: int, height: int, x: int, y: int)

  function Ground(b: Ball): real
  {
    (Height - BaseHeight - b.radius) as real
  }

  /** The constructor: on the ground at rest at the start column. */
  function NewBall(radius: int): (b: Ball)
    ensures b.radius == radius && b.x == StartX && b.vy == 0.0 && !b.isJumping
    ensures b.y + radius as real + BaseHeight as real == Height as real
  {
    Ball(radius, StartX, (Height - BaseHeight - radius) as real, 0.0, false)
  }

  /** `gravity()`, with the file's gravity `g`: the ground clamp (ending the jump) or an increment. */
  function ApplyGravity(b: Ball, g: real): (r: Ball)
    ensures Kinematics.Grounded(b.y, b.vy, Ground(b)) ==>
      r == b.(y := Ground(b), vy := 0.0, isJumping := false)
    ensures !Kinematics.Grounded(b.y, b.vy, Ground(b)) ==> r == b.(vy := b.vy + g)
  {
    var m := Kinematics.Gravity(b.y, b.vy, Ground(b), g);
    b.(y := m.y, vy := m.vy, isJumping := b.isJumping && !m.landed)
  }

  /** `update`: gravity, then `y += vy`. */
  function Update(b: Ball, g: real): (r: Ball)
    ensures Kinematics.Grounded(b.y, b.vy, Ground(b)) ==>
      r == b.(y := Ground(b), vy := 0.0, isJumping := false)
    ensures !Kinematics.Grounded(b.y, b.vy, Ground(b)) ==>
      r == b.(vy := b.vy + g, y := b.y + b.vy + g)
  {
    var q := ApplyGravity(b, g);
    q.(y := q.y + q.vy)
  }

  /** `jump`: unconditional, whatever the ball is doing. */
  function Jump(b: Ball): (r: Ball)
    ensures r == b.(vy := JumpForce, isJumping := true)
  {
    b.(vy := JumpForce, isJumping := true)
  }

  /** `n` updates with no key press. */
  function Updates(b: Ball, g: real, n: nat): Ball
  {
    if n == 0 then b else Update(Updates(b, g, n - 1), g)
  }

  /** Updates agree with the shared vertical motion, whatever the file's gravity. */
  lemma {:induction false} UpdatesFollowKinematics(b: Ball, g: real, n: nat)
    ensures Updates(b, g, n).y == Kinematics.Steps(n, b.y, b.vy, Ground(b), g).y
    ensures Updates(b, g, n).vy == Kinematics.Steps(n, b.y, b.vy, Ground(b), g).vy
    ensures Updates(b, g, n).radius == b.radius && Updates(b, g, n).x == b.x
  {
    if n > 0 {
      UpdatesFollowKinematics(b, g, n - 1);
    }
  }

  /**
   * A jump from the ground rises for 20 updates with game_logic.py's gravity
   * and reaches 95 pixels above the ground ...
   */
  lemma JumpHeight(radius: int)
    ensures Updates(Jump(NewBall(radius)), Gravity, 20).y == Ground(NewBall(radius)) - 95.0
    ensures Updates(Jump(NewBall(radius)), Gravity, 20).vy == 0.0
  {
    var b := Jump(NewBall(radius));
    UpdatesFollowKinematics(b, Gravity, 20);
    Kinematics.RisingArc(20, b.y, b.vy, Ground(b), Gravity);
  }

  /** ... and for 10 updates with the prototype's doubled gravity, reaching only 45 pixels. */
  lemma PrototypeJumpHeight(radius: int)
    ensures Updates(Jump(NewBall(radius)), PrototypeGravity, 10).y == Ground(NewBall(radius)) - 45.0
    ensures Updates(Jump(NewBall(radius)), PrototypeGravity, 10).vy == 0.0
  {
    var b := Jump(NewBall(radius));
    UpdatesFollowKinematics(b, PrototypeGravity, 10);
    Kinematics.RisingArc(10, b.y, b.vy, Ground(b), PrototypeGravity);
  }

  /** `is_colliding`: the ball at its own column overlaps the pillar; there is no ceiling term. */
  predicate IsColliding(b: Ball, o: Obstacle)
  {
    Geometry.CircleHitsRect(b.x as real, b.y, b.radius as real,
                            o.x as real, (o.x + o.width) as real, o.y as real, (o.y + o.height) as real)
  }

  /** A collision has a witness: a pillar point strictly within the radius ... */
  lemma CollisionHasWitness(b: Ball, o: Obstacle)
    requires o.width >= 0 && o.height >= 0 && IsColliding(b, o)
    ensures var px := Geometry.Clamp(b.x as real, o.x as real, (o.x + o.width) as real);
      var py := Geometry.Clamp(b.y, o.y as real, (o.y + o.height) as real);
      && o.x as real <= px <= (o.x + o.width) as real && o.y as real <= py <= (o.y + o.height) as real
      && Geometry.Square(b.x as real - px) + Geometry.Square(b.y - py) < Geometry.Square(b.radius as real)
  {
    Geometry.HitHasWitness(b.x as real, b.y, b.radius as real,
                           o.x as real, (o.x + o.width) as real, o.y as real, (o.y + o.height) as real);
  }

  /** ... and any such point makes the test fire. */
  lemma WitnessCollides(b: Ball, o: Obstacle, px: real, py: real)
    requires o.x as real <= px <= (o.x + o.width) as real && o.y as real <= py <= (o.y + o.height) as real
    requires Geometry.Square(b.x as real - px) + Geometry.Square(b.y - py) < Geometry.Square(b.radius as real)
    ensures IsColliding(b, o)
  {
    Geometry.ClosePointHits(b.x as real, b.y, b.radius as real,
                            o.x as real, (o.x + o.width) as real, o.y as real, (o.y + o.height) as real, px, py);
  }

  /**
   * Without a ceiling term, a ball far above a floor pillar never collides,
   * even inside the ceiling band that the later versions treat as deadly.
   */
  lemma CeilingIsHarmless(b: Ball, o: Obstacle)
    requires b.radius >= 0 && o.height >= 0
    requires b.y + b.radius as real <= o.y as real
    ensures !IsColliding(b, o)
  {
    var py := Geometry.Clamp(b.y, o.y as real, (o.y + o.height) as real);
    var px := Geometry.Clamp(b.x as real, o.x as real, (o.x + o.width) as real);
    assert py == o.y as real;
    Geometry.SquareMonotone(b.radius as real, py - b.y);
    Geometry.SquareFacts(b.y - py);
    Geometry.SquareFacts(b.x as real - px);
  }

  /** The randomly sized pillar of game_logic.py, as its constructor lays it out. */
  ghost predicate WellFormed(o: Obstacle)
  {
    && ObstacleWidthMin <= o.width < ObstacleWidthMax
    && ObstacleHeightMin <= o.height < ObstacleHeightMax
    && o.y + o.height == Height - BaseHeight
    && o.x + o.width > -ObstacleSpeed
    && o.x <= Width
  }

  /** The constructor, with the random width `w` and height `h`. */
  function NewObstacle(w: int, h: int): (o: Obstacle)
    requires ObstacleWidthMin <= w < ObstacleWidthMax && ObstacleHeightMin <= h < ObstacleHeightMax
    ensures WellFormed(o) && o.x == Width && o.width == w && o.height == h
  {
    Obstacle(w, h, Width, Height - BaseHeight - h)
  }

  /** `update`: redraw once past the left edge (checked before moving), then move left. */
  function UpdateObstacle(o: Obstacle, w: int, h: int): (r: Obstacle)
    requires ObstacleWidthMin <= w < ObstacleWidthMax && ObstacleHeightMin <= h < ObstacleHeightMax
    ensures o.x + o.width <= 0 ==> r == NewObstacle(w, h).(x := Width - ObstacleSpeed)
    ensures o.x + o.width > 0 ==> r == o.(x := o.x - ObstacleSpeed)
    ensures r.x + r.width > -ObstacleSpeed
    ensures WellFormed(o) ==> WellFormed(r)
  {
    var s := if o.x + o.width <= 0 then NewObstacle(w, h) else o;
    s.(x := s.x - ObstacleSpeed)
  }

  /** The prototype's fixed pillar, at the right edge standing on the floor. */
  function NewPost(): (o: Obstacle)
    ensures o.x == Width && o.y + o.height == Height - BaseHeight
    ensures o.width == PrototypeWidth && o.height == PrototypeHeight
  {
    Obstacle(PrototypeWidth, PrototypeHeight, Width, Height - BaseHeight - PrototypeHeight)
  }

  /** The prototype's per-frame move: back to the right edge once past -OBSTACLE_WIDTH, then left. */
  function Wrap(o: Obstacle): (r: Obstacle)
    ensures o.x < -PrototypeWidth ==> r == o.(x := Width - ObstacleSpeed)
    ensures o.x >= -PrototypeWidth ==> r == o.(x := o.x - ObstacleSpeed)
    ensures r.x >= -PrototypeWidth - ObstacleSpeed
  {
    var s := if o.x < -PrototypeWidth then o.(x := Width) else o;
    s.(x := s.x - ObstacleSpeed)
  }

  /** `n` frames of the prototype's obstacle. */
  function Wraps(o: Obstacle, n: nat): Obstacle
  {
    if n == 0 then o else Wrap(Wraps(o, n - 1))
  }

  /**
   * Started at the right edge, the prototype's pillar never leaves the band
   * [-OBSTACLE_WIDTH - GAME_SPEED, WIDTH] and keeps standing on the floor.
   */
  lemma {:induction false} PostStaysOnTrack(n: nat)
    ensures var o := Wraps(NewPost(), n);
      -PrototypeWidth - ObstacleSpeed <= o.x <= Width
      && o.y + o.height == Height - BaseHeight && o.width == PrototypeWidth
    ensures n > 0 ==> Wraps(NewPost(), n).x <= Width - ObstacleSpeed
  {
    if n > 0 {
      PostStaysOnTrack(n - 1);
    }
  }
}

=== FILE: evolution.dfy ===
/**
 * The generation boundary of src/main.py (lines 329-397): rank the dead
 * population by fitness, log the generation's best, track the best brain
 * ever seen, re-initialise the round, and refill every slot by in-population
 * crossover, cross-generation crossover, or cloning (or a fresh start when
 * the run has stagnated).
 *
 * A brain is a player's pair of weight matrices. Everything else about a
 * player is reset by the re-initialisation, so the boundary is modelled on
 * brains. Random draws (fresh weights, mutation coins and steps) are
 * parameters; `random.sample` of the two parents only orders them, and the
 * mean does not depend on the order (`NestedMeanSymmetric`).
 */
module Evolution {
  import opened Settings
  import opened Wrappers
  import Players
  import Numeric
  import Ranking

  type Matrix = Players.Matrix

  // nested_mean

  /** Two matrices of the same shape. */
  ghost predicate SameShape(a: Matrix, b: Matrix)
  {
    |a| == |b| && forall i :: 0 <= i < |a| ==> |a[i]| == |b[i]|
  }

  /** `nested_mean`: the componentwise average of two matrices of one shape. */
  function NestedMean(a: Matrix, b: Matrix): (m: Matrix)
    requires SameShape(a, b)
    ensures SameShape(m, a)
    ensures forall i, j :: 0 <= i < |a| && 0 <= j < |a[i]| ==> m[i][j] - a[i][j] == b[i][j] - m[i][j]
  {
    seq(|a|, i requires 0 <= i < |a| =>
      seq(|a[i]|, j requires 0 <= j < |a[i]| => (a[i][j] + b[i][j]) / 2.0))
  }

  /** The mean of two matrices does not depend on their order. */
  lemma NestedMeanSymmetric(a: Matrix, b: Matrix)
    requires SameShape(a, b)
    ensures NestedMean(a, b) == NestedMean(b, a)
  {
    var m, m' := NestedMean(a, b), NestedMean(b, a);
    forall i | 0 <= i < |a| ensures m[i] == m'[i] {
      assert forall j :: 0 <= j < |a[i]| ==> m[i][j] == m'[i][j];
    }
  }

  /** The mean of a matrix with itself is the matrix. */
  lemma NestedMeanIdempotent(a: Matrix)
    ensures NestedMean(a, a) == a
  {
    var m := NestedMean(a, a);
    forall i | 0 <= i < |a| ensures m[i] == a[i] {
      assert forall j :: 0 <= j < |a[i]| ==> m[i][j] == a[i][j];
    }
  }

  /** Every entry of the mean lies between the two parents' entries. */
  lemma NestedMeanBetween(a: Matrix, b: Matrix, i: nat, j: nat)
    requires SameShape(a, b) && i < |a| && j < |a[i]|
    ensures var m := NestedMean(a, b)[i][j];
      (a[i][j] <= m <= b[i][j]) || (b[i][j] <= m <= a[i][j])
  {
  }

  /** `[10, 20]` and `[30, 40]` average to `[20, 30]`. */
  lemma NestedMeanExample()
    ensures NestedMean([[10.0, 20.0]], [[30.0, 40.0]]) == [[20.0, 30.0]]
  {
    var m := NestedMean([[10.0, 20.0]], [[30.0, 40.0]]);
    assert m[0] == [20.0, 30.0];
  }

  // Brains and their mutation

  datatype Brain = Brain(input: Matrix, hidden: Matrix)

  /** The network's shape: 5 inputs, 3 hidden units, 1 output. */
  ghost predicate Wired(b: Brain)
  {
    Players.Shaped(b.input, 5, 3) && Players.Shaped(b.hidden, 3, 1)
  }

  /** The draws one slot consumes: mutation coins and steps, and the weights of a fresh start. */
  datatype SlotDraws = SlotDraws(coinsI: Matrix, stepsI: Matrix, coinsH: Matrix, stepsH: Matrix, restart: Brain)

  /** Coins and steps shaped like a wired brain, steps within `uniform(-0.25, 0.25)`, fresh weights wired. */
  ghost predicate DrawsFit(d: SlotDraws)
  {
    && Players.Shaped(d.coinsI, 5, 3) && Players.Shaped(d.stepsI, 5, 3)
    && Players.Shaped(d.coinsH, 3, 1) && Players.Shaped(d.stepsH, 3, 1)
    && (forall i, j :: 0 <= i < |d.stepsI| && 0 <= j < |d.stepsI[i]| ==> -0.25 <= d.stepsI[i][j] < 0.25)
    && (forall i, j :: 0 <= i < |d.stepsH| && 0 <= j < |d.stepsH[i]| ==> -0.25 <= d.stepsH[i][j] < 0.25)
    && Wired(d.restart)
  }

  /** `mutate` on a brain. */
  function MutateBrain(b: Brain, d: SlotDraws): (r: Brain)
    requires Wired(b) && DrawsFit(d)
    ensures Wired(r)
    ensures forall i, j :: 0 <= i < 5 && 0 <= j < 3 ==>
      -0.25 * MutationSize <= r.input[i][j] - b.input[i][j] < 0.25 * MutationSize
      && (d.coinsI[i][j] > MutationChance ==> r.input[i][j] == b.input[i][j])
    ensures forall i :: 0 <= i < 3 ==>
      -0.25 * MutationSize <= r.hidden[i][0] - b.hidden[i][0] < 0.25 * MutationSize
      && (d.coinsH[i][0] > MutationChance ==> r.hidden[i][0] == b.hidden[i][0])
  {
    Brain(Players.MutateMatrix(b.input, d.coinsI, d.stepsI), Players.MutateMatrix(b.hidden, d.coinsH, d.stepsH))
  }

  /** The componentwise mean of two wired brains. */
  function MeanBrain(a: Brain, b: Brain): (m: Brain)
    requires Wired(a) && Wired(b)
    ensures Wired(m)
    ensures m.input == NestedMean(a.input, b.input) && m.hidden == NestedMean(a.hidden, b.hidden)
  {
    Brain(NestedMean(a.input, b.input), NestedMean(a.hidden, b.hidden))
  }

  // Slots

  datatype SlotKind = InPopulation | CrossGeneration | CloneOrReset

  /** `int(x)` of a non-negative number. */
  function Truncate(x: real): (k: int)
    requires x >= 0.0
    ensures 0 <= k && k as real <= x < k as real + 1.0
  {
    x.Floor
  }

  /** An integer is at most `int(x)` exactly when it is at most `x`. */
  lemma AtMostTruncate(i: int, x: real)
    requires x >= 0.0
    ensures i <= Truncate(x) <==> i as real <= x
  {
  }

  /**
   * Lines 356 and 371: slot `i` of `n` crosses within the population up to
   * `int(n * CROSSOVER_RATE)`, across generations up to
   * `int(n * (CROSS_GENERATION_RATE + CROSSOVER_RATE))`, and clones or resets after that.
   */
  function Slot(i: nat, n: nat): (k: SlotKind)
    ensures k == InPopulation <==> i as real <= n as real * CrossoverRate
    ensures k == CrossGeneration <==>
      n as real * CrossoverRate < i as real && i as real <= n as real * (CrossGenerationRate + CrossoverRate)
  {
    AtMostTruncate(i, n as real * CrossoverRate);
    AtMostTruncate(i, n as real * (CrossGenerationRate + CrossoverRate));
    if i <= Truncate(n as real * CrossoverRate) then InPopulation
    else if i <= Truncate(n as real * (CrossGenerationRate + CrossoverRate)) then CrossGeneration
    else CloneOrReset
  }

  /** The order of the kinds along the population. */
  function Stage(k: SlotKind): nat
  {
    match k
    case InPopulation => 0
    case CrossGeneration => 1
    case CloneOrReset => 2
  }

  /** The kinds come in blocks: in-population first, then cross-generation, then the rest. */
  lemma SlotsInBlocks(i: nat, j: nat, n: nat)
    requires i <= j
    ensures Stage(Slot(i, n)) <= Stage(Slot(j, n))
  {
  }

  /** A population of five gets two in-population children, two cross-generation children and one clone. */
  lemma FiveSlots()
    ensures Slot(0, 5) == InPopulation && Slot(1, 5) == InPopulation
    ensures Slot(2, 5) == CrossGeneration && Slot(3, 5) == CrossGeneration
    ensures Slot(4, 5) == CloneOrReset
  {
    assert Truncate(5.0 * CrossoverRate) == 1;
    assert Truncate(5.0 * (CrossGenerationRate + CrossoverRate)) == 3;
  }

  /**
   * Line 385: the run has stagnated when the generation is a multiple of
   * RESET_THRESHOLD and the best time RESET_THRESHOLD generations back beats
   * the latest. The log has an entry per generation, so the look-back exists
   * whenever it is taken.
   */
  predicate Stagnant(generation: int, times: seq<real>)
    requires generation % ResetThreshold == 0 ==> |times| >= ResetThreshold
  {
    generation % ResetThreshold == 0 && times[|times| - ResetThreshold] > times[|times| - 1]
  }

  /**
   * One slot: in-population crossover of the two parents, cross-generation
   * crossover of the first parent with the best brain ever, or a clone of
   * the first parent, each mutated; a fresh brain instead of the clone when
   * the run has stagnated.
   */
  function Breed(kind: SlotKind, first: Brain, second: Brain, best: Brain, stagnant: bool, d: SlotDraws): (r: Brain)
    requires Wired(first) && Wired(second) && Wired(best) && DrawsFit(d)
    ensures Wired(r)
    ensures kind == InPopulation ==> r == MutateBrain(MeanBrain(first, second), d)
    ensures kind == CrossGeneration ==> r == MutateBrain(MeanBrain(first, best), d)
    ensures kind == CloneOrReset && stagnant ==> r == d.restart
    ensures kind == CloneOrReset && !stagnant ==> r == MutateBrain(first, d)
  {
    match kind
    case InPopulation => MutateBrain(MeanBrain(first, second), d)
    case CrossGeneration => MutateBrain(MeanBrain(first, best), d)
    case CloneOrReset => if stagnant then d.restart else MutateBrain(first, d)
  }

  ghost predicate AllWired(pop: seq<Brain>)
  {
    forall i :: 0 <= i < |pop| ==> Wired(pop[i])
  }

  ghost predicate AllFit(draws: seq<SlotDraws>)
  {
    forall i :: 0 <= i < |draws| ==> DrawsFit(draws[i])
  }

  /**
   * Lines 354-392 as written, for the first `k` slots: the loop rewrites the
   * population in place, and every slot reads its parents from the list as
   * it stands, `population[-1]` and `population[-2]`.
   */
  function BreedInPlace(pop: seq<Brain>, k: nat, best: Brain, stagnant: bool, draws: seq<SlotDraws>): (r: seq<Brain>)
    requires |pop| >= 2 && k <= |pop| && |draws| == |pop| && AllWired(pop) && Wired(best) && AllFit(draws)
    ensures |r| == |pop| && AllWired(r)
    ensures forall j :: k <= j < |pop| ==> r[j] == pop[j]
    decreases k
  {
    if k == 0 then pop
    else
      var s := BreedInPlace(pop, k - 1, best, stagnant, draws);
      var n := |s|;
      s[k - 1 := Breed(Slot(k - 1, n), s[n - 1], s[n - 2], best, stagnant, draws[k - 1])]
  }

  /**
   * Lines 354-392 with the parents taken from the ranked generation before
   * it was re-initialised: the fittest and the runner-up.
   */
  function BreedFromRanked(ranked: seq<Brain>, best: Brain, stagnant: bool, draws: seq<SlotDraws>): (r: seq<Brain>)
    requires |ranked| >= 2 && |draws| == |ranked| && AllWired(ranked) && Wired(best) && AllFit(draws)
    ensures |r| == |ranked| && AllWired(r)
    ensures forall i :: 0 <= i < |ranked| ==>
      r[i] == Breed(Slot(i, |ranked|), ranked[|ranked| - 1], ranked[|ranked| - 2], best, stagnant, draws[i])
  {
    var n := |ranked|;
    seq(n, i requires 0 <= i < n => Breed(Slot(i, n), ranked[n - 1], ranked[n - 2], best, stagnant, draws[i]))
  }

  // The boundary

  /** The `best_players` log, one entry per generation. */
  datatype Log = Log(generations: seq<int>, brains: seq<Brain>, times: seq<real>, highscores: seq<int>, fitness: seq<real>)

  ghost predicate LogValid(log: Log)
  {
    && |log.brains| == |log.generations| && |log.times| == |log.generations|
    && |log.highscores| == |log.generations| && |log.fitness| == |log.generations|
    && AllWired(log.brains)
  }

  /**
   * `best` is the log's highest fitness, and `brain` the brain logged with
   * its first occurrence (`max` keeps the first of equal keys).
   */
  ghost predicate BestOf(log: Log, best: real, brain: Brain)
  {
    && best in log.fitness && (forall k :: 0 <= k < |log.fitness| ==> log.fitness[k] <= best)
    && exists k :: 0 <= k < |log.fitness| && k < |log.brains| && log.fitness[k] == best && log.brains[k] == brain
         && forall l :: 0 <= l < k ==> log.fitness[l] < best
  }

  /** The state carried from one generation to the next. */
  datatype Run = Run(
    population: seq<Brain>, generation: int, log: Log,
    bestFitness: real, bestBrain: Brain, bestTime: real, highscore: int)

  /** Every brain of `brains` sits somewhere in `r`. */
  ghost predicate Keeps(r: seq<Brain>, brains: seq<Brain>)
  {
    forall i :: 0 <= i < |brains| ==> brains[i] in r
  }

  /**
   * Line 329: the brains in ascending order of fitness (stable). Place `a`
   * of the ranking holds the brain at position `SortAscending(fitness)[a]`,
   * which visits every position once, in ascending order of fitness (equal
   * fitness in population order); so every player's brain is ranked, and the
   * ranked fitness never falls.
   */
  function Rank(brains: seq<Brain>, fitness: seq<real>): (r: seq<Brain>)
    requires |fitness| == |brains| && AllWired(brains)
    ensures |r| == |brains| && AllWired(r)
    ensures var order := Ranking.SortAscending(fitness);
      forall a :: 0 <= a < |r| ==> r[a] == brains[order[a]]
    ensures Keeps(r, brains)
    ensures Ranking.Ordered(fitness, false, Ranking.SortAscending(fitness))
  {
    var order := Ranking.SortAscending(fitness);
    var r := seq(|brains|, a requires 0 <= a < |brains| => brains[order[a]]);
    assert forall a :: 0 <= a < |r| ==> r[a] == brains[order[a]];
    PermutedKeeps(brains, order, r);
    r
  }

  /** Brains picked at the positions of a permutation keep every brain. */
  lemma PermutedKeeps(brains: seq<Brain>, order: seq<nat>, r: seq<Brain>)
    requires |order| == |brains| && forall x :: x in order <==> 0 <= x < |brains|
    requires |r| == |order| && forall a :: 0 <= a < |r| ==> order[a] < |brains| && r[a] == brains[order[a]]
    ensures Keeps(r, brains)
  {
    forall i | 0 <= i < |brains| ensures brains[i] in r {
      assert i in order;
      var a :| 0 <= a < |order| && order[a] == i;
      assert r[a] == brains[i];
    }
  }

  /** The ranked fittest and runner-up are the two best players of the generation. */
  lemma RankedParentsAreFittest(fitness: seq<real>, j: nat)
    requires |fitness| >= 2 && j < |fitness|
    ensures var order := Ranking.SortAscending(fitness);
      var n := |fitness|;
      fitness[j] <= fitness[order[n - 1]]
      && (j != order[n - 1] ==> fitness[j] <= fitness[order[n - 2]])
  {
    var order := Ranking.SortAscending(fitness);
    var n := |fitness|;
    assert j in order;
    var b :| 0 <= b < n && order[b] == j;
    if b < n - 1 {
      assert fitness[order[b]] <= fitness[order[n - 1]];
    }
    if b < n - 2 {
      assert fitness[order[b]] <= fitness[order[n - 2]];
    }
  }

  /**
   * Lines 332, 337 and 338: the generation number, the best time alive and
   * the generation's top score (the largest of `gen_scores`) are appended
   * to the log.
   */
  ghost predicate Logged(log: Log, generation: int, bestTimeNow: real, genScores: seq<int>, l: Log)
  {
    && l.generations == log.generations + [generation]
    && l.times == log.times + [bestTimeNow]
    && |l.highscores| == |log.highscores| + 1 && l.highscores[..|log.highscores|] == log.highscores
    && l.highscores[|log.highscores|] in genScores
    && forall k :: 0 <= k < |genScores| ==> genScores[k] <= l.highscores[|log.highscores|]
  }

  /** Lines 331-347: log the generation's best and recompute the records. */
  function Conclude(log: Log, generation: int, ranked: seq<Brain>, bestFit: real, bestTimeNow: real, genScores: seq<int>)
    : (r: (Log, real, Brain, real, int))
    requires LogValid(log) && |ranked| > 0 && AllWired(ranked) && |genScores| > 0
    ensures LogValid(r.0) && |r.0.generations| == |log.generations| + 1
    ensures r.0.fitness == log.fitness + [bestFit] && r.0.brains == log.brains + [ranked[|ranked| - 1]]
    ensures BestOf(r.0, r.1, r.2)
    ensures Wired(r.2)
    ensures Logged(log, generation, bestTimeNow, genScores, r.0)
    ensures r.3 in r.0.times && forall k :: 0 <= k < |r.0.times| ==> r.0.times[k] <= r.3
    ensures r.4 in r.0.highscores && forall k :: 0 <= k < |r.0.highscores| ==> r.0.highscores[k] <= r.4
  {
    var l := Log(log.generations + [generation], log.brains + [ranked[|ranked| - 1]],
                 log.times + [bestTimeNow], log.highscores + [Numeric.MaxInt(genScores)],
                 log.fitness + [bestFit]);
    assert AllWired(l.brains) by {
      forall k | 0 <= k < |l.brains| ensures Wired(l.brains[k]) {
        if k < |log.brains| {
          assert l.brains[k] == log.brains[k];
        }
      }
    }
    var top := Numeric.MaxOf(l.fitness);
    var at := Numeric.FirstIndexOf(l.fitness, top);
    Numeric.BeforeFirstMax(l.fitness);
    assert l.fitness[at] == top && Wired(l.brains[at]);
    var hs := Numeric.MaxInt(l.highscores);
    var bt := Numeric.MaxOf(l.times);
    assert l.highscores[..|log.highscores|] == log.highscores;
    Numeric.MaxIntBoundsEach(genScores);
    Numeric.MaxOfBoundsEach(l.times);
    Numeric.MaxIntBoundsEach(l.highscores);
    (l, top, l.brains[at], bt, hs)
  }

  /** The best fitness ever seen never drops from one generation to the next. */
  lemma {:induction false} BestFitnessNeverDrops(log: Log, generation: int, ranked: seq<Brain>, bestFit: real,
                                                  bestTimeNow: real, genScores: seq<int>)
    requires LogValid(log) && |log.fitness| > 0 && |ranked| > 0 && AllWired(ranked) && |genScores| > 0
    ensures Conclude(log, generation, ranked, bestFit, bestTimeNow, genScores).1 >= Numeric.MaxOf(log.fitness)
    ensures Conclude(log, generation, ranked, bestFit, bestTimeNow, genScores).1 >= bestFit
  {
    Numeric.MaxOfAppend(log.fitness, bestFit);
  }

  /** Everything the boundary consumes that is not in the run: the generation's outcome and the draws. */
  datatype Outcome = Outcome(fitness: seq<real>, genScores: seq<int>, reset: seq<Brain>, draws: seq<SlotDraws>)

  ghost predicate OutcomeFits(run: Run, o: Outcome)
  {
    && |o.fitness| == |run.population| && |o.genScores| > 0
    && |o.reset| == |run.population| && AllWired(o.reset)
    && |o.draws| == |run.population| && AllFit(o.draws)
    && (run.generation % ResetThreshold == 0 ==> |run.log.times| + 1 >= ResetThreshold)
  }

  ghost predicate RunValid(run: Run)
  {
    |run.population| >= 2 && AllWired(run.population) && LogValid(run.log) && Wired(run.bestBrain)
  }

  /** The ranked generation's best time alive. */
  function RankedBestTime(fitness: seq<real>): (t: real)
    requires |fitness| > 0
    ensures t in fitness && forall k :: 0 <= k < |fitness| ==> fitness[k] <= t
  {
    var order := Ranking.SortAscending(fitness);
    Ranking.LastIsLastMaximum(fitness);
    fitness[order[|fitness| - 1]]
  }

  /**
   * Lines 329-397 as written: the re-initialisation at line 351 draws fresh
   * weights for every player before the slot loop reads any parent, so the
   * loop breeds from the fresh weights (and the best brain ever).
   */
  function NextGenerationAsWritten(run: Run, o: Outcome): (r: Run)
    requires RunValid(run) && OutcomeFits(run, o)
    ensures RunValid(r) && |r.population| == |run.population| && r.generation == run.generation + 1
  {
    var ranked := Rank(run.population, o.fitness);
    var c := Conclude(run.log, run.generation, ranked, RankedBestTime(o.fitness), RankedBestTime(o.fitness), o.genScores);
    var stagnant := Stagnant(run.generation, c.0.times);
    Run(BreedInPlace(o.reset, |o.reset|, c.2, stagnant, o.draws), run.generation + 1, c.0, c.1, c.2, c.3, c.4)
  }

  /** The ranked population's weights never reach the next generation, except through the best brain ever. */
  lemma AsWrittenIgnoresRanking(run: Run, other: seq<Brain>, o: Outcome)
    requires RunValid(run) && OutcomeFits(run, o)
    requires |other| == |run.population| && AllWired(other)
    requires Rank(other, o.fitness)[|other| - 1] == Rank(run.population, o.fitness)[|other| - 1]
    ensures NextGenerationAsWritten(run.(population := other), o).population
         == NextGenerationAsWritten(run, o).population
  {
    var t := RankedBestTime(o.fitness);
    ConcludeSeesOnlyFittest(run.log, run.generation, Rank(run.population, o.fitness), Rank(other, o.fitness), t, t, o.genScores);
  }

  /** Of the ranked generation, the summary looks at the fittest brain alone. */
  lemma ConcludeSeesOnlyFittest(log: Log, generation: int, ranked: seq<Brain>, ranked': seq<Brain>,
                                bestFit: real, bestTimeNow: real, genScores: seq<int>)
    requires LogValid(log) && |ranked| > 0 && AllWired(ranked) && |genScores| > 0
    requires |ranked'| > 0 && AllWired(ranked') && ranked'[|ranked'| - 1] == ranked[|ranked| - 1]
    ensures Conclude(log, generation, ranked', bestFit, bestTimeNow, genScores)
         == Conclude(log, generation, ranked, bestFit, bestTimeNow, genScores)
  {
  }

  /**
   * With five players the as-written loop crosses the last two fresh
   * brains: the first slot is the mutated mean of `reset[4]` and `reset[3]`.
   */
  lemma AsWrittenBreedsFromFreshWeights(run: Run, o: Outcome)
    requires RunValid(run) && OutcomeFits(run, o) && |run.population| == 5
    ensures var r := NextGenerationAsWritten(run, o);
      r.population[0] == MutateBrain(MeanBrain(o.reset[4], o.reset[3]), o.draws[0])
  {
    FiveSlots();
  }

  /**
   * Lines 329-397 as evidently intended: the slots breed from the ranked
   * generation, the two fittest crossing and the fittest carrying on. The
   * log gains the fittest player's brain and fitness, and the records are
   * the log's maxima, the best brain logged with the first maximal fitness.
   */
  function NextGeneration(run: Run, o: Outcome): (r: Run)
    requires RunValid(run) && OutcomeFits(run, o)
    ensures RunValid(r) && |r.population| == |run.population| && r.generation == run.generation + 1
    ensures |r.log.fitness| == |run.log.fitness| + 1 && r.bestFitness >= r.log.fitness[|run.log.fitness|]
    ensures var n := |run.population|;
      && r.log.brains == run.log.brains + [run.population[Ranking.SortAscending(o.fitness)[n - 1]]]
      && r.log.fitness == run.log.fitness + [RankedBestTime(o.fitness)]
      && r.log.times == run.log.times + [RankedBestTime(o.fitness)]
    ensures BestOf(r.log, r.bestFitness, r.bestBrain)
  {
    var ranked := Rank(run.population, o.fitness);
    var c := Conclude(run.log, run.generation, ranked, RankedBestTime(o.fitness), RankedBestTime(o.fitness), o.genScores);
    var stagnant := Stagnant(run.generation, c.0.times);
    Run(BreedFromRanked(ranked, c.2, stagnant, o.draws), run.generation + 1, c.0, c.1, c.2, c.3, c.4)
  }

  lemma NextGenerationParts(run: Run, o: Outcome)
    requires RunValid(run) && OutcomeFits(run, o)
    ensures var ranked := Rank(run.population, o.fitness);
      var t := RankedBestTime(o.fitness);
      var c := Conclude(run.log, run.generation, ranked, t, t, o.genScores);
      && NextGeneration(run, o).population == BreedFromRanked(ranked, c.2, Stagnant(run.generation, c.0.times), o.draws)
      && NextGeneration(run, o).bestBrain == c.2
  {
  }

  /** Slot `i` of the intended boundary is `Breed` on the ranked fittest and runner-up. */
  lemma BredFromFittest(run: Run, o: Outcome, i: nat)
    requires RunValid(run) && OutcomeFits(run, o) && i < |run.population|
    ensures var n := |run.population|;
      var order := Ranking.SortAscending(o.fitness);
      var fittest := run.population[order[n - 1]];
      var runnerUp := run.population[order[n - 2]];
      var r := NextGeneration(run, o);
      var times := run.log.times + [RankedBestTime(o.fitness)];
      && Wired(fittest) && Wired(runnerUp) && Wired(r.bestBrain) && DrawsFit(o.draws[i])
      && (run.generation % ResetThreshold == 0 ==> |times| >= ResetThreshold)
      && r.population[i] == Breed(Slot(i, n), fittest, runnerUp, r.bestBrain, Stagnant(run.generation, times), o.draws[i])
  {
    var n := |run.population|;
    var order := Ranking.SortAscending(o.fitness);
    var ranked := Rank(run.population, o.fitness);
    assert ranked[n - 1] == run.population[order[n - 1]] && ranked[n - 2] == run.population[order[n - 2]];
    var t := RankedBestTime(o.fitness);
    var c := Conclude(run.log, run.generation, ranked, t, t, o.genScores);
    NextGenerationParts(run, o);
    assert c.0.times == run.log.times + [t];
    assert Wired(ranked[n - 1]) && Wired(ranked[n - 2]) && Wired(c.2) && DrawsFit(o.draws[i]);
    var r := NextGeneration(run, o);
    SlotBred(r.population, ranked, c.2, Stagnant(run.generation, c.0.times), o.draws, i,
             run.population[order[n - 1]], run.population[order[n - 2]],
             Stagnant(run.generation, run.log.times + [t]));
  }

  /** Slot `i` of the bred children, with the parents and the flag named by equal values. */
  lemma SlotBred(kids: seq<Brain>, ranked: seq<Brain>, best: Brain, stagnant: bool, draws: seq<SlotDraws>, i: nat,
                 fittest: Brain, runnerUp: Brain, stagnant': bool)
    requires |ranked| >= 2 && |draws| == |ranked| && AllWired(ranked) && Wired(best) && AllFit(draws)
    requires kids == BreedFromRanked(ranked, best, stagnant, draws) && i < |ranked|
    requires fittest == ranked[|ranked| - 1] && runnerUp == ranked[|ranked| - 2] && stagnant' == stagnant
    ensures Wired(fittest) && Wired(runnerUp) && DrawsFit(draws[i])
    ensures kids[i] == Breed(Slot(i, |ranked|), fittest, runnerUp, best, stagnant', draws[i])
  {
  }

  /**
   * In the intended boundary an in-population child is the mutated mean of
   * the two fittest players, and a cross-generation child the mutated mean
   * of the fittest player and the best brain ever.
   */
  lemma ChildrenDescendFromFittest(run: Run, o: Outcome, i: nat)
    requires RunValid(run) && OutcomeFits(run, o) && i < |run.population|
    ensures var n := |run.population|;
      var order := Ranking.SortAscending(o.fitness);
      var fittest := run.population[order[n - 1]];
      var runnerUp := run.population[order[n - 2]];
      var r := NextGeneration(run, o);
      && Wired(fittest) && Wired(runnerUp) && Wired(r.bestBrain) && DrawsFit(o.draws[i])
      && (Slot(i, n) == InPopulation ==> r.population[i] == MutateBrain(MeanBrain(fittest, runnerUp), o.draws[i]))
      && (Slot(i, n) == CrossGeneration ==> r.population[i] == MutateBrain(MeanBrain(fittest, r.bestBrain), o.draws[i]))
  {
    BredFromFittest(run, o, i);
  }

  /**
   * Lines 383-392 in the intended boundary: a clone-or-reset slot starts
   * afresh when the generation is a multiple of RESET_THRESHOLD and the best
   * time RESET_THRESHOLD entries back in the log (this generation's entry
   * included) beats this generation's; otherwise it is the fittest player's
   * brain, mutated.
   */
  lemma CloneSlotRestartsWhenStagnant(run: Run, o: Outcome, i: nat)
    requires RunValid(run) && OutcomeFits(run, o) && i < |run.population|
    requires Slot(i, |run.population|) == CloneOrReset
    ensures var n := |run.population|;
      var fittest := run.population[Ranking.SortAscending(o.fitness)[n - 1]];
      var times := run.log.times + [RankedBestTime(o.fitness)];
      var stagnant := run.generation % ResetThreshold == 0 && times[|times| - ResetThreshold] > times[|times| - 1];
      && Wired(fittest) && DrawsFit(o.draws[i])
      && (stagnant ==> NextGeneration(run, o).population[i] == o.draws[i].restart)
      && (!stagnant ==> NextGeneration(run, o).population[i] == MutateBrain(fittest, o.draws[i]))
  {
    BredFromFittest(run, o, i);
  }
}

=== FILE: gates.dfy ===
/**
 * The locked gate that closes the gap left by the obstacle
 * (src/common/gate.py). It is laid out from the obstacle's category: above a
 * floor pillar it spans the ceiling band's edge down to the pillar's top,
 * below a ceiling pillar it spans the pillar's end down to the floor band.
 */
module Gates {
  import opened Settings
  import opened Obstacles

  datatype Gate = Gate(width: int, height: int, x: int, y: int, isOpen: bool)

  /** The gate spans exactly the part of the playfield the pillar leaves free. */
  ghost predicate Fits(g: Gate, o: Obstacle)
  {
    && (o.category == Bottom ==> g.y == BaseHeight && g.y + g.height == o.y)
    && (o.category == Top ==> g.y == o.y && g.y + g.height == Height - BaseHeight)
  }

  /** The constructor: a closed gate at the right edge filling the obstacle's gap. */
  function Spawn(o: Obstacle): (g: Gate)
    ensures g.x == Width && g.width == ObstacleWidth && !g.isOpen
    ensures Fits(g, o)
  {
    if o.category == Bottom then Gate(ObstacleWidth, o.y - BaseHeight, Width, BaseHeight, false)
    else Gate(ObstacleWidth, Height - BaseHeight - o.y, Width, o.y, false)
  }

  predicate IsOutside(g: Gate)
  {
    g.x + g.width <= 0
  }

  /** One tick: rebuild from the (already updated) obstacle when outside, then move left. */
  function Update(g: Gate, o: Obstacle): (r: Gate)
    ensures IsOutside(g) ==>
      r.x == Width - ObstacleSpeed && r.width == ObstacleWidth && !r.isOpen && Fits(r, o)
    ensures !IsOutside(g) ==>
      && r.x == g.x - ObstacleSpeed && r.width == g.width
      && r.y == g.y && r.height == g.height && r.isOpen == g.isOpen
  {
    var s := if IsOutside(g) then Spawn(o) else g;
    s.(x := s.x - ObstacleSpeed)
  }

  /** The gate and the obstacle move in lockstep: same left edge and width, gate in the gap. */
  ghost predicate Covers(g: Gate, o: Obstacle)
  {
    g.x == o.x && g.width == o.width && Fits(g, o)
  }

  /** Gate and pillar together tile the playfield between the ceiling and floor bands. */
  lemma GateFillsGap(g: Gate, o: Obstacle)
    requires WellFormed(o) && Covers(g, o)
    ensures o.category == Bottom ==>
      g.y == BaseHeight && g.y + g.height == o.y && o.y + o.height == Height - BaseHeight
    ensures o.category == Top ==>
      o.y - o.height == BaseHeight && o.y == g.y && g.y + g.height == Height - BaseHeight
    ensures g.height + o.height == Height - 2 * BaseHeight
    ensures g.height > 0
  {
  }

  /** The initial pair, a freshly built obstacle and the gate built from it. */
  lemma SpawnCovers(o: Obstacle)
    requires WellFormed(o) && o.x == Width
    ensures Covers(Spawn(o), o)
  {
  }

  /**
   * Updating the obstacle and then the gate from the updated obstacle keeps
   * the two in lockstep; after a redraw the gate is rebuilt, closed, for the
   * new pillar's category.
   */
  lemma TickKeepsCover(g: Gate, o: Obstacle, category: Category, height: int)
    requires WellFormed(o) && Covers(g, o)
    requires ObstacleHeightMin <= height < ObstacleHeightMax
    ensures var o' := Obstacles.Update(o, category, height);
      Covers(Update(g, o'), o')
    ensures Obstacles.IsOutside(o) ==> !Update(g, Obstacles.Update(o, category, height)).isOpen
  {
  }
}

=== FILE: genetic_game.dfy ===
/**
 * The gene-driven variant of the game (src/game_logic.py), with its own
 * constants. A player's chromosome is [distance rule, height rule, jump
 * force]: it jumps when the obstacle is near enough ahead or far enough above,
 * with the evolved jump force. When every player is dead the generation
 * ends: the fittest KeepParents are selected, all players receive the mean of
 * their genes, each gene mutates by an integer step with probability
 * MutationRate, and the game restarts.
 *
 * `genes` is empty for a player created without a chromosome (Python's
 * `None`); the clock, the random obstacle sizes and the mutation draws are
 * parameters.
 */
module GeneticGame {
  import Kinematics
  import Geometry
  import Numeric
  import Ranking

  const Width: int := 1200
  const Height: int := 600
  const BaseHeight: int := 50
  const ObstacleWidthMin: int := 100
  const ObstacleWidthMax: int := 150
  const ObstacleHeightMin: int := 50
  const ObstacleHeightMax: int := 300
  const PlayerStartPosition: int := 200
  const PlayerRadius: int := 25
  const PlayerJumpCooldown: real := 0.25
  const ObstacleSpeed: int := 10
  const Gravity: real := 0.5
  const JumpForce: real := -10.0
  const PopulationSize: int := 30
  const MutationRate: real := 0.5
  const KeepParents: nat := 2

  datatype Player = Player(
    radius: int, x: int, y: real, vy: real,
    isJumping: bool, jumpCooldown: real, lastJumpTime: real,
    genes: seq<real>, initTime: real,
    isAnimating: bool, animationStartTime: real, isDead: bool,
    timeAlive: real, toughness: int)

  /** A chromosome the rules can read: none at all, or at least the three rule genes. */
  predicate Readable(genes: seq<real>)
  {
    |genes| == 0 || |genes| >= 3
  }

  /** The ground-contact height of a centre for radius `r`. */
  function Ground(r: int): real
  {
    (Height - BaseHeight - r) as real
  }

  /** The constructor: on the ground, at rest, never jumped, alive. */
  function New(genes: seq<real>, toughness: int, now: real): (p: Player)
    ensures p.y == Ground(PlayerRadius) && p.vy == 0.0 && p.x == PlayerStartPosition
    ensures p.genes == genes && p.toughness == toughness && p.initTime == now
    ensures !p.isDead && !p.isAnimating && !p.isJumping && p.lastJumpTime == 0.0 && p.timeAlive == 0.0
  {
    Player(PlayerRadius, PlayerStartPosition, Ground(PlayerRadius), 0.0,
           false, PlayerJumpCooldown, 0.0, genes, now, false, 0.0, false, 0.0, toughness)
  }

  /** `gravity()`: the ground clamp (which also ends the jump) or a gravity increment. */
  function ApplyGravity(p: Player): (r: Player)
    ensures Kinematics.Grounded(p.y, p.vy, Ground(p.radius)) ==>
      r == p.(y := Ground(p.radius), vy := 0.0, isJumping := false)
    ensures !Kinematics.Grounded(p.y, p.vy, Ground(p.radius)) ==> r == p.(vy := p.vy + Gravity)
  {
    var m := Kinematics.Gravity(p.y, p.vy, Ground(p.radius), Gravity);
    p.(y := m.y, vy := m.vy, isJumping := p.isJumping && !m.landed)
  }

  /** `jump()`: the evolved jump force when there is a chromosome, JumpForce otherwise. */
  function Jump(p: Player): (r: Player)
    requires Readable(p.genes)
    ensures r.isJumping && r == p.(vy := r.vy, isJumping := true)
    ensures |p.genes| > 0 ==> r.vy == p.genes[2]
    ensures |p.genes| == 0 ==> r.vy == JumpForce
  {
    p.(isJumping := true, vy := if |p.genes| > 0 then p.genes[2] else JumpForce)
  }

  /**
   * `should_jump`: the obstacle's right edge is not yet behind the centre and
   * its left edge is within the distance rule, or the centre is at least the
   * height rule below the obstacle's top.
   */
  predicate ShouldJump(p: Player, o: Obstacle)
    requires |p.genes| >= 3
  {
    var dist := (o.x - p.x) as real;
    (dist + o.width as real >= 0.0 && dist <= p.genes[0]) || p.y - o.y as real >= p.genes[1]
  }

  /** The jump cooldown has run out, or the player has never jumped. */
  predicate CooledDown(p: Player, now: real)
  {
    now - p.lastJumpTime >= p.jumpCooldown || p.lastJumpTime == 0.0
  }

  /**
   * `update`: nothing while the death animation runs; otherwise gravity, the
   * Euler step, and then, for a player with a chromosome that wants to jump and
   * is off cooldown, the jump (which only sets the velocity and the jump time).
   */
  function Update(p: Player, o: Obstacle, now: real): (r: Player)
    requires Readable(p.genes)
    ensures p.isAnimating ==> r == p
    ensures !p.isAnimating ==>
      var m := Kinematics.Step(p.y, p.vy, Ground(p.radius), Gravity);
      && r.y == m.y
      && (r.vy == m.vy || (|r.genes| >= 3 && r.vy == r.genes[2]))
      && r.genes == p.genes && r.toughness == p.toughness && r.isDead == p.isDead
    ensures !p.isAnimating && Kinematics.Grounded(p.y, p.vy, Ground(p.radius)) ==>
      r.y == Ground(p.radius)
  {
    if p.isAnimating then p
    else
      var g := ApplyGravity(p);
      var q := g.(y := g.y + g.vy);
      if |q.genes| > 0 && ShouldJump(q, o) && CooledDown(q, now) then Jump(q).(lastJumpTime := now)
      else q
  }

  /** A jump happens on a tick exactly when the chromosome's rules fire and the cooldown allows it. */
  lemma JumpFiresIff(p: Player, o: Obstacle, now: real)
    requires |p.genes| >= 3 && !p.isAnimating
    ensures var q := Update(p, o, now);
      var moved := ApplyGravity(p).(y := ApplyGravity(p).y + ApplyGravity(p).vy);
      (q.lastJumpTime == now && q.vy == p.genes[2] && q.isJumping) ||
      (q == moved && !(ShouldJump(moved, o) && CooledDown(moved, now)))
    ensures var moved := ApplyGravity(p).(y := ApplyGravity(p).y + ApplyGravity(p).vy);
      ShouldJump(moved, o) && CooledDown(moved, now) ==>
      Update(p, o, now) == moved.(isJumping := true, vy := p.genes[2], lastJumpTime := now)
  {
  }

  /** `is_colliding`: the circle overlaps the floor pillar, or the centre reaches the ceiling band. */
  predicate IsColliding(p: Player, o: Obstacle)
  {
    || Geometry.CircleHitsRect(p.x as real, p.y, p.radius as real,
                               o.x as real, (o.x + o.width) as real,
                               o.y as real, (o.y + o.height) as real)
    || p.y <= BaseHeight as real
  }

  /** A centre inside the pillar always collides for a positive radius. */
  lemma CentreInsideCollides(p: Player, o: Obstacle)
    requires p.radius > 0
    requires o.x <= p.x <= o.x + o.width && o.y as real <= p.y <= (o.y + o.height) as real
    ensures IsColliding(p, o)
  {
    Geometry.CentreInsideHits(p.x as real, p.y, p.radius as real,
                              o.x as real, (o.x + o.width) as real,
                              o.y as real, (o.y + o.height) as real);
  }

  /** A collision clear of the ceiling means some pillar point lies strictly within the radius, and back. */
  lemma CollisionMeansNearPoint(p: Player, o: Obstacle, px: real, py: real)
    requires o.width >= 0 && o.height >= 0
    ensures IsColliding(p, o) && p.y > BaseHeight as real ==>
      var cx := Geometry.Clamp(p.x as real, o.x as real, (o.x + o.width) as real);
      var cy := Geometry.Clamp(p.y, o.y as real, (o.y + o.height) as real);
      Geometry.Square(p.x as real - cx) + Geometry.Square(p.y - cy) < Geometry.Square(p.radius as real)
    ensures o.x as real <= px <= (o.x + o.width) as real && o.y as real <= py <= (o.y + o.height) as real
         && Geometry.Square(p.x as real - px) + Geometry.Square(p.y - py) < Geometry.Square(p.radius as real)
         ==> IsColliding(p, o)
  {
    if IsColliding(p, o) && p.y > BaseHeight as real {
      Geometry.HitHasWitness(p.x as real, p.y, p.radius as real,
                             o.x as real, (o.x + o.width) as real,
                             o.y as real, (o.y + o.height) as real);
    }
    if o.x as real <= px <= (o.x + o.width) as real && o.y as real <= py <= (o.y + o.height) as real
       && Geometry.Square(p.x as real - px) + Geometry.Square(p.y - py) < Geometry.Square(p.radius as real) {
      Geometry.ClosePointHits(p.x as real, p.y, p.radius as real,
                              o.x as real, (o.x + o.width) as real,
                              o.y as real, (o.y + o.height) as real, px, py);
    }
  }

  /** `kill()` at clock reading `now`: record the rounded survival time and start the animation. */
  function Kill(p: Player, now: real): (r: Player)
    ensures r.isDead && r.isAnimating && r.animationStartTime == now
    ensures -0.0005 <= r.timeAlive - (now - p.initTime) <= 0.0005
    ensures r == p.(isDead := true, isAnimating := true, animationStartTime := now, timeAlive := r.timeAlive)
  {
    p.(timeAlive := Numeric.Round3(now - p.initTime), isDead := true,
       isAnimating := true, animationStartTime := now)
  }

  /**
   * The state part of `animation()`: the animation lasts (x + radius) /
   * ObstacleSpeed seconds of wall-clock time from the kill; until then the
   * ball drifts left with the obstacle.
   */
  function AnimationStep(p: Player, now: real): (r: Player)
    ensures now - p.animationStartTime >= (p.x + p.radius) as real / ObstacleSpeed as real ==>
      r == p.(isAnimating := false)
    ensures now - p.animationStartTime < (p.x + p.radius) as real / ObstacleSpeed as real ==>
      r == p.(x := p.x - ObstacleSpeed)
  {
    var duration := (p.x + p.radius) as real / ObstacleSpeed as real;
    if now - p.animationStartTime >= duration then p.(isAnimating := false)
    else p.(x := p.x - ObstacleSpeed)
  }

  /** Once the ball has drifted past the left edge the animation's duration is negative, so it stops at once. */
  lemma OffScreenAnimationStops(p: Player, now: real)
    requires p.x + p.radius < 0 && now >= p.animationStartTime
    ensures !AnimationStep(p, now).isAnimating
  {
  }

  /**
   * `fitness_score`: the survival time, boosted by a factor 1/toughness + 1
   * for a player that has survived selection `toughness` times in a row.
   */
  function FitnessScore(p: Player): real
  {
    if p.toughness > 0 then p.timeAlive * (1.0 / p.toughness as real + 1.0) else p.timeAlive
  }

  /** The worked example: 10 seconds alive at toughness 3 scores 40/3. */
  lemma FitnessExample(p: Player)
    requires p.timeAlive == 10.0 && p.toughness == 3
    ensures FitnessScore(p) == 40.0 / 3.0
  {
  }

  /**
   * The boost favours a fresh survivor and fades as it keeps surviving: for a
   * non-negative survival time the score never drops below the time itself
   * and does not grow with toughness.
   */
  lemma FitnessBoostFades(p: Player, t: int)
    requires p.timeAlive >= 0.0 && 0 < p.toughness <= t
    ensures p.timeAlive <= FitnessScore(p.(toughness := t)) <= FitnessScore(p)
    ensures FitnessScore(p) <= 2.0 * p.timeAlive
  {
    var a := p.timeAlive;
    var k1 := 1.0 / p.toughness as real;
    var k2 := 1.0 / t as real;
    Numeric.ReciprocalAntitone(p.toughness as real, t as real);
    Numeric.ReciprocalAntitone(1.0, p.toughness as real);
    assert 0.0 < k2 <= k1 <= 1.0;
    assert a * (k2 + 1.0) == a * k2 + a;
    assert a * (k1 + 1.0) == a * k1 + a;
    Geometry.MulMonotone(k2, k1, a);
    Geometry.MulNonNegative(k2, a);
    Geometry.MulMonotone(k1, 1.0, a);
    Geometry.MulCommutes(k1, a);
    Geometry.MulCommutes(k2, a);
  }

  // Obstacles

  /** A floor pillar of random width and height. */
  datatype Obstacle = Obstacle(width: int, height: int, x: int, y: int)

  predicate Sized(width: int, height: int)
  {
    ObstacleWidthMin <= width < ObstacleWidthMax && ObstacleHeightMin <= height < ObstacleHeightMax
  }

  ghost predicate WellFormed(o: Obstacle)
  {
    Sized(o.width, o.height) && o.y + o.height == Height - BaseHeight
  }

  /** The constructor: a pillar standing on the floor at the right edge. */
  function Spawn(width: int, height: int): (o: Obstacle)
    requires Sized(width, height)
    ensures WellFormed(o) && o.x == Width && o.width == width && o.height == height
  {
    Obstacle(width, height, Width, Height - BaseHeight - height)
  }

  /** `update()`: a fresh pillar once fully past the left edge, then move left. */
  function UpdateObstacle(o: Obstacle, width: int, height: int): (r: Obstacle)
    requires Sized(width, height)
    ensures o.x + o.width <= 0 ==>
      r.x == Width - ObstacleSpeed && r.width == width && r.height == height && WellFormed(r)
    ensures o.x + o.width > 0 ==> r.x == o.x - ObstacleSpeed && r.width == o.width && r.height == o.height && r.y == o.y
    ensures r.x + r.width > -ObstacleSpeed
    ensures WellFormed(o) ==> WellFormed(r)
  {
    var s := if o.x + o.width <= 0 then Spawn(width, height) else o;
    s.(x := s.x - ObstacleSpeed)
  }

  // The generation boundary

  /** Column `c` of a list of equal-length chromosomes. */
  function Column(genes: seq<seq<real>>, c: nat): (col: seq<real>)
    requires forall k :: 0 <= k < |genes| ==> c < |genes[k]|
    ensures |col| == |genes| && forall k :: 0 <= k < |genes| ==> col[k] == genes[k][c]
  {
    seq(|genes|, k requires 0 <= k < |genes| => genes[k][c])
  }

  /** `np.mean(np.array(genes), axis=0)` for a non-empty list of chromosomes of length `n`. */
  function MeanGenes(genes: seq<seq<real>>, n: nat): (m: seq<real>)
    requires |genes| > 0 && forall k :: 0 <= k < |genes| ==> |genes[k]| == n
    ensures |m| == n
    ensures forall c :: 0 <= c < n ==> m[c] == Numeric.Sum(Column(genes, c)) / |genes| as real
  {
    seq(n, c requires 0 <= c < n => Numeric.Sum(Column(genes, c)) / |genes| as real)
  }

  /** Each gene of the mean chromosome lies between the parents' smallest and largest value of that gene. */
  lemma MeanGenesBetweenParents(genes: seq<seq<real>>, n: nat, c: nat)
    requires |genes| > 0 && forall k :: 0 <= k < |genes| ==> |genes[k]| == n
    requires c < n
    ensures Numeric.MinOf(Column(genes, c)) <= MeanGenes(genes, n)[c] <= Numeric.MaxOf(Column(genes, c))
  {
    Numeric.MeanBetweenMinAndMax(Column(genes, c));
  }

  /** For two parents the mean is the midpoint, gene by gene. */
  lemma MeanOfTwo(a: seq<real>, b: seq<real>)
    requires |a| == |b|
    ensures var m := MeanGenes([a, b], |a|);
      forall c :: 0 <= c < |a| ==> m[c] == (a[c] + b[c]) / 2.0
  {
    forall c | 0 <= c < |a|
      ensures MeanGenes([a, b], |a|)[c] == (a[c] + b[c]) / 2.0
    {
      var col := Column([a, b], c);
      assert col[..|col| - 1] == col[..1];
      assert col[..1][..0] == [];
      assert Numeric.Sum(col[..1]) == a[c];
      assert Numeric.Sum(col) == a[c] + b[c];
    }
  }

  /**
   * `int(np.random.normal(...))` steps: gene `n` of the chromosome moves by
   * `steps[n]` when its coin is at most MutationRate.
   */
  function MutateGenes(genes: seq<real>, coins: seq<real>, steps: seq<int>): (r: seq<real>)
    requires |coins| == |genes| && |steps| == |genes|
    ensures |r| == |genes|
    ensures forall n :: 0 <= n < |genes| ==>
      r[n] == if coins[n] <= MutationRate then genes[n] + steps[n] as real else genes[n]
  {
    seq(|genes|, n requires 0 <= n < |genes| =>
      if coins[n] <= MutationRate then genes[n] + steps[n] as real else genes[n])
  }

  /** The random draws of one generation boundary, one row per player. */
  datatype Draws = Draws(coins: seq<seq<real>>, steps: seq<seq<int>>, width: int, height: int, now: real)

  ghost predicate DrawsFit(d: Draws, size: nat, n: nat)
  {
    && |d.coins| == size && |d.steps| == size
    && (forall i :: 0 <= i < size ==> |d.coins[i]| == n && |d.steps[i]| == n)
    && Sized(d.width, d.height)
  }

  /** The fitness of every player, in population order. */
  function Scores(pop: seq<Player>): (s: seq<real>)
    ensures |s| == |pop| && forall i :: 0 <= i < |pop| ==> s[i] == FitnessScore(pop[i])
  {
    seq(|pop|, i requires 0 <= i < |pop| => FitnessScore(pop[i]))
  }

  /** The selected parents' positions: `heapq.nlargest(KEEP_PARENTS, ...)` by fitness. */
  function Parents(pop: seq<Player>): (best: seq<nat>)
    ensures |best| == if KeepParents <= |pop| then KeepParents else |pop|
    ensures forall a :: 0 <= a < |best| ==> best[a] < |pop|
  {
    Ranking.TopK(Scores(pop), KeepParents)
  }

  /** Selected parents have their toughness raised by one, everyone else drops to zero. */
  function NewToughness(pop: seq<Player>, best: seq<nat>): (t: seq<int>)
    ensures |t| == |pop|
    ensures forall i :: 0 <= i < |pop| ==> t[i] == if i in best then pop[i].toughness + 1 else 0
  {
    seq(|pop|, i requires 0 <= i < |pop| => if i in best then pop[i].toughness + 1 else 0)
  }

  /** The game state the generation boundary rewrites. */
  datatype Game = Game(population: seq<Player>, obstacle: Obstacle, generation: nat, bestTimes: seq<seq<real>>)

  /** Every player carries a chromosome of the same length `n` (three in the game). */
  ghost predicate Chromosomes(pop: seq<Player>, n: nat)
  {
    forall i :: 0 <= i < |pop| ==> |pop[i].genes| == n
  }

  /** The mean chromosome of the selected parents (line 342). */
  function ParentMean(pop: seq<Player>, n: nat): (m: seq<real>)
    requires |pop| > 0 && Chromosomes(pop, n)
    ensures |m| == n
  {
    var best := Parents(pop);
    MeanGenes(seq(|best|, a requires 0 <= a < |best| => pop[best[a]].genes), n)
  }

  /** `times` lists the survival times of the selected parents, in selection order. */
  ghost predicate ParentTimes(pop: seq<Player>, times: seq<real>)
  {
    var best := Parents(pop);
    |times| == |best| && forall a :: 0 <= a < |best| ==> times[a] == pop[best[a]].timeAlive
  }

  /**
   * The generation boundary: select, update toughness, log the parents'
   * survival times, give every player the parents' mean chromosome, mutate it,
   * and restart the obstacle and every player (genes and toughness kept).
   */
  function Evolve(g: Game, d: Draws, n: nat): (r: Game)
    requires |g.population| > 0 && Chromosomes(g.population, n)
    requires DrawsFit(d, |g.population|, n)
    ensures |r.population| == |g.population| && r.generation == g.generation + 1
    ensures r.obstacle == Spawn(d.width, d.height)
    ensures |r.bestTimes| == |g.bestTimes| + 1 && r.bestTimes[..|g.bestTimes|] == g.bestTimes
    ensures ParentTimes(g.population, r.bestTimes[|g.bestTimes|])
    ensures Chromosomes(r.population, n)
  {
    var pop := g.population;
    var best := Parents(pop);
    var times := seq(|best|, a requires 0 <= a < |best| => pop[best[a]].timeAlive);
    assert ParentTimes(pop, times);
    var toughness := NewToughness(pop, best);
    var mean := ParentMean(pop, n);
    var next := seq(|pop|, i requires 0 <= i < |pop| =>
      New(MutateGenes(mean, d.coins[i], d.steps[i]), toughness[i], d.now));
    Game(next, Spawn(d.width, d.height), g.generation + 1, g.bestTimes + [times])
  }

  /** Selection is by fitness: every selected parent scores at least every other player. */
  lemma ParentsAreFittest(pop: seq<Player>, i: nat, j: nat)
    requires i in Parents(pop) && j < |pop| && j !in Parents(pop)
    ensures FitnessScore(pop[i]) >= FitnessScore(pop[j])
  {
    Ranking.TopKBeatsTheRest(Scores(pop), KeepParents, i, j);
  }

  /**
   * After the boundary every player starts afresh, alive and on the ground,
   * with the toughness rule applied and, gene by gene, the parents' mean
   * chromosome, moved by its integer step exactly when its coin allows.
   */
  lemma EvolveResets(g: Game, d: Draws, n: nat, i: nat, c: nat)
    requires |g.population| > 0 && Chromosomes(g.population, n)
    requires DrawsFit(d, |g.population|, n)
    requires i < |g.population| && c < n
    ensures var p := Evolve(g, d, n).population[i];
      var best := Parents(g.population);
      var mean := ParentMean(g.population, n);
      && !p.isDead && !p.isAnimating && p.timeAlive == 0.0 && p.y == Ground(PlayerRadius)
      && p.toughness == (if i in best then g.population[i].toughness + 1 else 0)
      && (d.coins[i][c] > MutationRate ==> p.genes[c] == mean[c])
      && (d.coins[i][c] <= MutationRate ==> p.genes[c] == mean[c] + d.steps[i][c] as real)
  {
  }

  /** Two players whose coins all come up tails share the same chromosome after the boundary. */
  lemma UnmutatedPlayersAgree(g: Game, d: Draws, n: nat, i: nat, j: nat)
    requires |g.population| > 0 && Chromosomes(g.population, n)
    requires DrawsFit(d, |g.population|, n)
    requires i < |g.population| && j < |g.population|
    requires forall c :: 0 <= c < n ==> d.coins[i][c] > MutationRate && d.coins[j][c] > MutationRate
    ensures Evolve(g, d, n).population[i].genes == Evolve(g, d, n).population[j].genes
  {
  }

  /** The overall best time shown on screen: the best parent time over every logged generation. */
  function OverallBest(log: seq<seq<real>>): (b: real)
    requires |log| > 0 && forall k :: 0 <= k < |log| ==> |log[k]| > 0
    ensures forall k :: 0 <= k < |log| ==> Numeric.MaxOf(log[k]) <= b
    ensures exists k :: 0 <= k < |log| && Numeric.MaxOf(log[k]) == b
  {
    var tops := seq(|log|, k requires 0 <= k < |log| => Numeric.MaxOf(log[k]));
    var b := Numeric.MaxOf(tops);
    forall k | 0 <= k < |log|
      ensures Numeric.MaxOf(log[k]) <= b
    {
      assert tops[k] in tops;
    }
    var w :| 0 <= w < |tops| && tops[w] == b;
    assert Numeric.MaxOf(log[w]) == b;
    b
  }

  /** Logging another generation never lowers the overall best time. */
  lemma OverallBestNeverDrops(log: seq<seq<real>>, times: seq<real>)
    requires |log| > 0 && forall k :: 0 <= k < |log| ==> |log[k]| > 0
    requires |times| > 0
    ensures OverallBest(log + [times]) >= OverallBest(log)
    ensures OverallBest(log + [times]) >= Numeric.MaxOf(times)
  {
    var log' := log + [times];
    forall j | 0 <= j < |log'|
      ensures |log'[j]| > 0
    {
      if j < |log| {
        assert log'[j] == log[j];
      }
    }
    var b := OverallBest(log);
    var b' := OverallBest(log');
    var k :| 0 <= k < |log| && Numeric.MaxOf(log[k]) == b;
    assert log'[k] == log[k];
    assert Numeric.MaxOf(log'[k]) <= b';
    assert log'[|log|] == times;
    assert Numeric.MaxOf(log'[|log|]) <= b';
  }
}

=== FILE: geometry.dfy ===
/**
 * Circle-versus-axis-aligned-rectangle overlap, the collision test every
 * version of the player uses: clamp the circle centre into the rectangle to
 * find the rectangle's nearest point, then compare the squared distance to
 * that point with the squared radius (strictly).
 *
 * Products go through `Mul`, and every fact about them is proved once, for
 * two independent factors, in the small lemmas below; squares are `Mul(a, a)`.
 */
module Geometry {

  function Max(a: real, b: real): real { if a >= b then a else b }

  function Min(a: real, b: real): real { if a <= b then a else b }

  /**
   * `max(lo, min(v, hi))`: the point of [lo, hi] nearest to `v`.
   * When the interval is empty (lo > hi) the result is `lo`.
   */
  function Clamp(v: real, lo: real, hi: real): (c: real)
    ensures lo <= hi ==> lo <= c <= hi
    ensures lo <= v <= hi ==> c == v
    ensures v < lo ==> c == lo
    ensures lo <= hi < v ==> c == hi
    ensures lo > hi ==> c == lo
  {
    Max(lo, Min(v, hi))
  }

  function Mul(a: real, b: real): real { a * b }

  /** `a ** 2`. */
  function Square(a: real): real { Mul(a, a) }

  lemma MulPositive(a: real, b: real)
    requires a > 0.0 && b > 0.0
    ensures Mul(a, b) > 0.0
  {
  }

  lemma MulNonNegative(a: real, b: real)
    requires a >= 0.0 && b >= 0.0
    ensures Mul(a, b) >= 0.0
  {
  }

  lemma MulNegateBoth(a: real, b: real)
    ensures Mul(-a, -b) == Mul(a, b)
  {
  }

  lemma MulZero(a: real, b: real)
    requires a == 0.0
    ensures Mul(a, b) == 0.0
  {
  }

  lemma MulMonotone(a: real, b: real, c: real)
    requires a <= b && c >= 0.0
    ensures Mul(a, c) <= Mul(b, c)
  {
  }

  lemma MulCommutes(a: real, b: real)
    ensures Mul(a, b) == Mul(b, a)
  {
  }

  /** A square is never negative, is zero only at zero and does not see the sign. */
  lemma SquareFacts(a: real)
    ensures Square(a) >= 0.0
    ensures a == 0.0 ==> Square(a) == 0.0
    ensures a != 0.0 ==> Square(a) > 0.0
    ensures Square(-a) == Square(a)
  {
    MulNegateBoth(a, a);
    if a > 0.0 {
      MulPositive(a, a);
    } else if a < 0.0 {
      MulPositive(-a, -a);
    } else {
      MulZero(a, a);
    }
  }

  /** Squaring is monotone on the non-negative reals. */
  lemma SquareMonotone(a: real, b: real)
    requires 0.0 <= a <= b
    ensures Square(a) <= Square(b)
  {
    MulMonotone(a, b, a);
    MulMonotone(a, b, b);
    MulCommutes(b, a);
  }

  /** Squared distance from (cx, cy) to the clamped nearest point of [x0, x1] x [y0, y1]. */
  function SqDistToRect(cx: real, cy: real, x0: real, x1: real, y0: real, y1: real): (d: real)
    ensures d >= 0.0
    ensures x0 <= cx <= x1 && y0 <= cy <= y1 ==> d == 0.0
    ensures x0 <= x1 && y0 <= y1 && !(x0 <= cx <= x1 && y0 <= cy <= y1) ==> d > 0.0
  {
    var dx := cx - Clamp(cx, x0, x1);
    var dy := cy - Clamp(cy, y0, y1);
    SquareFacts(dx);
    SquareFacts(dy);
    Square(dx) + Square(dy)
  }

  /** The overlap test: the nearest point lies strictly inside the radius. */
  predicate CircleHitsRect(cx: real, cy: real, r: real, x0: real, x1: real, y0: real, y1: real)
  {
    SqDistToRect(cx, cy, x0, x1, y0, y1) < Square(r)
  }

  /** Along one axis the clamped point is at least as close to `v` as any point of [lo, hi]. */
  lemma AxisNearest(v: real, lo: real, hi: real, p: real)
    requires lo <= p <= hi
    ensures Square(v - Clamp(v, lo, hi)) <= Square(v - p)
  {
    var c := Clamp(v, lo, hi);
    if v < lo {
      SquareMonotone(c - v, p - v);
      SquareFacts(v - c);
      SquareFacts(v - p);
    } else if v > hi {
      SquareMonotone(v - c, v - p);
    }
  }

  /** The clamped point is the rectangle's nearest point to the centre. */
  lemma NearestPointIsClosest(cx: real, cy: real, x0: real, x1: real, y0: real, y1: real, px: real, py: real)
    requires x0 <= px <= x1 && y0 <= py <= y1
    ensures SqDistToRect(cx, cy, x0, x1, y0, y1) <= Square(cx - px) + Square(cy - py)
  {
    AxisNearest(cx, x0, x1, px);
    AxisNearest(cy, y0, y1, py);
  }

  /**
   * The clamped test agrees with the direct definition of overlap: the circle
   * hits a non-empty rectangle exactly when some point of the rectangle lies
   * strictly within the radius. This lemma gives the witness direction ...
   */
  lemma HitHasWitness(cx: real, cy: real, r: real, x0: real, x1: real, y0: real, y1: real)
    requires x0 <= x1 && y0 <= y1
    requires CircleHitsRect(cx, cy, r, x0, x1, y0, y1)
    ensures var px, py := Clamp(cx, x0, x1), Clamp(cy, y0, y1);
      x0 <= px <= x1 && y0 <= py <= y1 && Square(cx - px) + Square(cy - py) < Square(r)
  {
  }

  /** ... and this one the converse: any rectangle point strictly within the radius makes the test fire. */
  lemma ClosePointHits(cx: real, cy: real, r: real, x0: real, x1: real, y0: real, y1: real, px: real, py: real)
    requires x0 <= px <= x1 && y0 <= py <= y1
    requires Square(cx - px) + Square(cy - py) < Square(r)
    ensures CircleHitsRect(cx, cy, r, x0, x1, y0, y1)
  {
    NearestPointIsClosest(cx, cy, x0, x1, y0, y1, px, py);
  }

  /** A centre inside the rectangle always collides when the radius is non-zero. */
  lemma CentreInsideHits(cx: real, cy: real, r: real, x0: real, x1: real, y0: real, y1: real)
    requires x0 <= cx <= x1 && y0 <= cy <= y1
    requires r != 0.0
    ensures CircleHitsRect(cx, cy, r, x0, x1, y0, y1)
  {
    SquareFacts(r);
  }

  /** A zero radius never registers a hit: the comparison is strict. */
  lemma ZeroRadiusNeverHits(cx: real, cy: real, x0: real, x1: real, y0: real, y1: real)
    ensures !CircleHitsRect(cx, cy, 0.0, x0, x1, y0, y1)
  {
    SquareFacts(0.0);
  }
}

=== FILE: keys.dfy ===
/**
 * The key that unlocks the gate (src/common/key.py). It appears at a random
 * point of the middle third of the screen in each direction and scrolls
 * with the obstacle until the obstacle leaves the screen, when it is drawn
 * afresh. The random position of a redraw is a parameter.
 */
module Keys {
  import opened Settings
  import opened Obstacles

  datatype Key = Key(size: int, x: int, y: int, isCollected: bool)

  /** Where `randint(WIDTH // 3, 2 * WIDTH // 3)` and its vertical twin can land. */
  predicate InMiddleThird(x: int, y: int)
  {
    Width / 3 <= x < 2 * Width / 3 && Height / 3 <= y < 2 * Height / 3
  }

  /** The constructor, at a drawn position. */
  function Spawn(x: int, y: int): (k: Key)
    requires InMiddleThird(x, y)
    ensures k.size == KeySize && !k.isCollected
    ensures 400 <= k.x < 800 && 233 <= k.y < 466
    ensures k.x == x && k.y == y
  {
    Key(KeySize, x, y, false)
  }

  /**
   * One tick: a fresh key (not moved this tick) when the obstacle is outside,
   * otherwise the same key moved left.
   */
  function Update(k: Key, o: Obstacle, x: int, y: int): (r: Key)
    requires InMiddleThird(x, y)
    ensures Obstacles.IsOutside(o) ==> r.x == x && r.y == y && r.size == KeySize && !r.isCollected
    ensures !Obstacles.IsOutside(o) ==>
      r.x == k.x - ObstacleSpeed && r.y == k.y && r.size == k.size && r.isCollected == k.isCollected
  {
    if Obstacles.IsOutside(o) then Spawn(x, y) else k.(x := k.x - ObstacleSpeed)
  }

  /** A collected key becomes uncollected only through a redraw. */
  lemma OnlyRedrawUncollects(k: Key, o: Obstacle, x: int, y: int)
    requires InMiddleThird(x, y)
    requires k.isCollected && !Update(k, o, x, y).isCollected
    ensures Obstacles.IsOutside(o)
  {
  }
}

=== FILE: kinematics.dfy ===
/**
 * The vertical motion every player version shares: the ground clamp, a
 * constant gravity increment, and one semi-implicit Euler step per tick.
 * `ground` is the ground-contact height of the ball's centre
 * (HEIGHT - BASE_HEIGHT - radius; y grows downwards).
 */
module Kinematics {

  /** Vertical state after a step; `landed` records that the ground clamp fired. */
  datatype Motion = Motion(y: real, vy: real, landed: bool)

  /** The clamp fires on a ball at or below ground contact that is not moving up. */
  predicate Grounded(y: real, vy: real, ground: real)
  {
    y >= ground && vy >= 0.0
  }

  /** The source's `gravity()`: snap to the ground with zero velocity, else accelerate. */
  function Gravity(y: real, vy: real, ground: real, g: real): Motion
  {
    if Grounded(y, vy, ground) then Motion(ground, 0.0, true)
    else Motion(y, vy + g, false)
  }

  /**
   * One tick: gravity, then `y += vy`. A grounded ball ends the tick exactly at
   * ground height at rest; any other ball gains `g` of speed and moves by its
   * new speed.
   */
  function Step(y: real, vy: real, ground: real, g: real): (m: Motion)
    ensures m.landed <==> Grounded(y, vy, ground)
    ensures m.landed ==> m.y == ground && m.vy == 0.0
    ensures !m.landed ==> m.vy == vy + g && m.y == y + vy + g
  {
    var f := Gravity(y, vy, ground, g);
    Motion(f.y + f.vy, f.vy, f.landed)
  }

  /** `n` consecutive ticks with no jump in between. */
  function Steps(n: nat, y: real, vy: real, ground: real, g: real): Motion
  {
    if n == 0 then Motion(y, vy, false)
    else
      var m := Steps(n - 1, y, vy, ground, g);
      Step(m.y, m.vy, ground, g)
  }

  /** A ball resting on the ground stays there, exactly, tick after tick. */
  lemma {:induction false} RestingIsFixedPoint(n: nat, ground: real, g: real)
    requires n > 0
    ensures Steps(n, ground, 0.0, ground, g) == Motion(ground, 0.0, true)
  {
    if n > 1 {
      RestingIsFixedPoint(n - 1, ground, g);
    }
  }

  /**
   * While the ball is still moving up before each tick (vy + (n-1)g < 0 with
   * g >= 0), gravity never clamps, and after n ticks the closed-form
   * semi-implicit Euler solution holds:
   * vy_n = vy + n g and y_n = y + n vy + g n (n + 1) / 2.
   */
  lemma {:induction false} RisingArc(n: nat, y: real, vy: real, ground: real, g: real)
    requires g >= 0.0
    requires n > 0 ==> vy + (n - 1) as real * g < 0.0
    ensures Steps(n, y, vy, ground, g).vy == vy + n as real * g
    ensures Steps(n, y, vy, ground, g).y == y + n as real * vy + g * (n * (n + 1)) as real / 2.0
  {
    if n > 0 {
      var k := n - 1;
      if k > 0 {
        assert (k - 1) as real * g <= k as real * g by {
          assert k as real * g == (k - 1) as real * g + g;
        }
      }
      RisingArc(k, y, vy, ground, g);
      var m := Steps(k, y, vy, ground, g);
      assert m.vy == vy + k as real * g;
      assert m.vy < 0.0;
      assert !Grounded(m.y, m.vy, ground);
      assert (n * (n + 1)) as real == (k * (k + 1)) as real + 2.0 * n as real;
      assert n as real * g == k as real * g + g;
    }
  }
}

=== FILE: legacy.dfy ===
/**
 * The first network-driven player and its obstacle (the top-level player.py
 * and obstacle.py). They read their tuning from a `constants` module that is
 * not part of this model, so every constant is a field of `Config`.
 *
 * This player jumps whenever the network says so, with no cooldown, at a
 * fixed jump power of -10; it senses six inputs (the jump power among them);
 * its death animation shrinks the radius by a tenth, rounded down, per frame;
 * and mutation adds an integer multiple of MUTATION_SIZE * 0.005 to every
 * weight. The obstacle has no category of its own, although the player reads
 * one, so the category is passed alongside it.
 */
module Legacy {
  import Kinematics
  import Geometry
  import Numeric

  type Matrix = seq<seq<real>>

  /** The values the two files import from `constants`. */
  datatype Config = Config(
    width: int, height: int, baseHeight: int,
    playerRadius: int, playerStartPos: int, playerStartHeight: real,
    jumpForce: real, gravity: real, mutationSize: real,
    obstacleSpeed: int, obstacleWidth: int, obstacleHeightMin: int, obstacleHeightMax: int)

  /** Which way the pillar the player reads stands. */
  datatype Category = Bottom | Top

  /** The pillar: it stands on the floor, spanning [y, y + height]. */
  datatype Obstacle = Obstacle(width: int, height: int, x: int, y: int)

  datatype Sensors = Sensors(dyBottom: real, dyTop: real, dx: real)

  datatype Player = Player(
    radius: int, x: int, y: real, vy: real,
    isJumping: bool, isAlive: bool, initTime: real, timeAlive: real,
    isAi: bool, sensors: Sensors, jumpPower: real,
    weightsInput: Matrix, weightsHidden: Matrix)

  /** The jump power every network player is created with. */
  const AiJumpPower: real := -10.0

  /** A `rows` x `cols` matrix. */
  ghost predicate Shaped(m: Matrix, rows: nat, cols: nat)
  {
    |m| == rows && forall i :: 0 <= i < rows ==> |m[i]| == cols
  }

  /** The network's shape: 6 inputs, 3 hidden units, 1 output. */
  ghost predicate Wired(p: Player)
  {
    p.isAi ==> Shaped(p.weightsInput, 6, 3) && Shaped(p.weightsHidden, 3, 1)
  }

  /**
   * The constructor at clock reading `now`; `wi` and `wh` are the random
   * initial weights (ignored for a human player).
   */
  function NewPlayer(c: Config, isAi: bool, now: real, wi: Matrix, wh: Matrix): (p: Player)
    requires isAi ==> Shaped(wi, 6, 3) && Shaped(wh, 3, 1)
    ensures Wired(p) && p.isAi == isAi && p.isAlive && !p.isJumping
    ensures p.radius == c.playerRadius && p.x == c.playerStartPos
    ensures p.y == c.playerStartHeight && p.vy == 0.0
    ensures p.initTime == now && p.timeAlive == 0.0
    ensures isAi ==> p.jumpPower == AiJumpPower
  {
    Player(c.playerRadius, c.playerStartPos, c.playerStartHeight, 0.0,
           false, true, now, 0.0, isAi, Sensors(0.0, 0.0, 0.0), AiJumpPower,
           if isAi then wi else [], if isAi then wh else [])
  }

  /** `jump`: the player's own jump power for a network player, JUMP_FORCE for a human one. */
  function Jump(c: Config, p: Player): (r: Player)
    ensures r.isJumping && r == p.(isJumping := true, vy := r.vy)
    ensures r.vy == if p.isAi then p.jumpPower else c.jumpForce
  {
    p.(isJumping := true, vy := if p.isAi then p.jumpPower else c.jumpForce)
  }

  /** `NN_update`: the same measurements as the current player, for the given category. */
  function Sense(c: Config, p: Player, o: Obstacle, category: Category): (r: Player)
    ensures r == p.(sensors := r.sensors)
    ensures r.sensors.dx == (o.x - p.x) as real
    ensures category == Bottom ==>
      r.sensors.dyTop == p.y - c.baseHeight as real && r.sensors.dyBottom == o.y as real - p.y
    ensures category == Top ==>
      r.sensors.dyTop == o.y as real - p.y && r.sensors.dyBottom == c.height as real - p.y
  {
    var dx := (o.x - p.x) as real;
    if category == Bottom then p.(sensors := Sensors(o.y as real - p.y, p.y - c.baseHeight as real, dx))
    else p.(sensors := Sensors(c.height as real - p.y, o.y as real - p.y, dx))
  }

  /** The network's input row: position, speed, the three measurements and the jump power. */
  function SensorVector(p: Player): (v: seq<real>)
    ensures |v| == 6
    ensures v[0] == p.y && v[1] == p.vy && v[2] == p.sensors.dx
    ensures v[3] == p.sensors.dyBottom && v[4] == p.sensors.dyTop && v[5] == p.jumpPower
  {
    [p.y, p.vy, p.sensors.dx, p.sensors.dyBottom, p.sensors.dyTop, p.jumpPower]
  }

  /** Ground contact for the player's current radius. */
  function Ground(c: Config, p: Player): real
  {
    (c.height - c.baseHeight - p.radius) as real
  }

  /** Lines 39-43 reach `jump`: the player is a live network player and the network says jump. */
  predicate Fires(c: Config, p: Player, o: Obstacle, category: Category, decide: (seq<real>, Matrix, Matrix) -> bool)
  {
    p.isAlive && p.isAi && decide(SensorVector(Sense(c, p, o, category)), p.weightsInput, p.weightsHidden)
  }

  /** The decision half of `update`: a live network player senses, and jumps whenever the network says so. */
  function Decide(c: Config, p: Player, o: Obstacle, category: Category,
                  decide: (seq<real>, Matrix, Matrix) -> bool): (r: Player)
    ensures !(p.isAlive && p.isAi) ==> r == p
    ensures r.y == p.y && r.radius == p.radius && r.isAlive == p.isAlive && r.x == p.x
    ensures r.vy == p.vy || r.vy == p.jumpPower
    ensures p.isAlive && p.isAi ==> r.sensors == Sense(c, p, o, category).sensors
    ensures Fires(c, p, o, category, decide) ==> r.isJumping && r.vy == p.jumpPower
    ensures p.isAlive && p.isAi && !Fires(c, p, o, category, decide) ==>
      r.vy == p.vy && r.isJumping == p.isJumping
  {
    if p.isAlive && p.isAi then
      var s := Sense(c, p, o, category);
      if decide(SensorVector(s), s.weightsInput, s.weightsHidden) then Jump(c, s) else s
    else p
  }

  /**
   * `update`: the decision, then the ground clamp (which also ends the jump)
   * or gravity, then the Euler step, whether or not the player is alive.
   */
  function Update(c: Config, p: Player, o: Obstacle, category: Category,
                  decide: (seq<real>, Matrix, Matrix) -> bool): (r: Player)
    ensures var q := Decide(c, p, o, category, decide);
      Kinematics.Grounded(q.y, q.vy, Ground(c, p)) ==> r.y == Ground(c, p) && r.vy == 0.0 && !r.isJumping
    ensures var q := Decide(c, p, o, category, decide);
      !Kinematics.Grounded(q.y, q.vy, Ground(c, p)) ==>
        r.vy == q.vy + c.gravity && r.y == q.y + r.vy && r.isJumping == q.isJumping
    ensures r.isAlive == p.isAlive && r.x == p.x && r.radius == p.radius && r.timeAlive == p.timeAlive
    ensures r.weightsInput == p.weightsInput && r.weightsHidden == p.weightsHidden
  {
    var q := Decide(c, p, o, category, decide);
    var m := Kinematics.Step(q.y, q.vy, Ground(c, q), c.gravity);
    q.(y := m.y, vy := m.vy, isJumping := q.isJumping && !m.landed)
  }

  /**
   * With no cooldown, every tick on which the network fires is a jump: the
   * tick ends with vy = jump power + gravity and the ball moved by that much.
   */
  lemma NetworkJumpsEveryTime(c: Config, p: Player, o: Obstacle, category: Category,
                              decide: (seq<real>, Matrix, Matrix) -> bool)
    requires p.isAlive && p.isAi && p.jumpPower < 0.0
    requires decide(SensorVector(Sense(c, p, o, category)), p.weightsInput, p.weightsHidden)
    ensures Update(c, p, o, category, decide).vy == p.jumpPower + c.gravity
    ensures Update(c, p, o, category, decide).y == p.y + p.jumpPower + c.gravity
    ensures Update(c, p, o, category, decide).isJumping
  {
    assert Decide(c, p, o, category, decide) == Jump(c, Sense(c, p, o, category));
  }

  /** A dead or human player's update is the bare physics step. */
  lemma PassiveUpdateIsPhysics(c: Config, p: Player, o: Obstacle, category: Category,
                               decide: (seq<real>, Matrix, Matrix) -> bool)
    requires !(p.isAlive && p.isAi)
    ensures var m := Kinematics.Step(p.y, p.vy, Ground(c, p), c.gravity);
      Update(c, p, o, category, decide) == p.(y := m.y, vy := m.vy, isJumping := p.isJumping && !m.landed)
  {
  }

  /** The pillar's rectangle: [y, y + height] for a floor pillar, [y - height, y] for a ceiling one. */
  function PillarTop(o: Obstacle, category: Category): int
  {
    if category == Bottom then o.y else o.y - o.height
  }

  function PillarBottom(o: Obstacle, category: Category): int
  {
    if category == Bottom then o.y + o.height else o.y
  }

  predicate HitsRoof(c: Config, p: Player)
  {
    p.y - p.radius as real <= c.baseHeight as real
  }

  /**
   * `is_colliding`: the ball, taken at the start column rather than its own
   * `x`, overlaps the pillar, or it touches the ceiling band.
   */
  predicate IsColliding(c: Config, p: Player, o: Obstacle, category: Category)
  {
    || Geometry.CircleHitsRect(c.playerStartPos as real, p.y, p.radius as real,
                               o.x as real, (o.x + o.width) as real,
                               PillarTop(o, category) as real, PillarBottom(o, category) as real)
    || HitsRoof(c, p)
  }

  /** A collision away from the ceiling has a pillar point strictly within the radius of the ball. */
  lemma CollisionHasWitness(c: Config, p: Player, o: Obstacle, category: Category)
    requires o.width >= 0 && o.height >= 0
    requires IsColliding(c, p, o, category) && !HitsRoof(c, p)
    ensures var px := Geometry.Clamp(c.playerStartPos as real, o.x as real, (o.x + o.width) as real);
      var py := Geometry.Clamp(p.y, PillarTop(o, category) as real, PillarBottom(o, category) as real);
      && o.x as real <= px <= (o.x + o.width) as real
      && PillarTop(o, category) as real <= py <= PillarBottom(o, category) as real
      && Geometry.Square(c.playerStartPos as real - px) + Geometry.Square(p.y - py) < Geometry.Square(p.radius as real)
  {
    Geometry.HitHasWitness(c.playerStartPos as real, p.y, p.radius as real,
                           o.x as real, (o.x + o.width) as real,
                           PillarTop(o, category) as real, PillarBottom(o, category) as real);
  }

  /** Conversely, a pillar point strictly within the radius is a collision. */
  lemma WitnessCollides(c: Config, p: Player, o: Obstacle, category: Category, px: real, py: real)
    requires o.x as real <= px <= (o.x + o.width) as real
    requires PillarTop(o, category) as real <= py <= PillarBottom(o, category) as real
    requires Geometry.Square(c.playerStartPos as real - px) + Geometry.Square(p.y - py)
           < Geometry.Square(p.radius as real)
    ensures IsColliding(c, p, o, category)
  {
    Geometry.ClosePointHits(c.playerStartPos as real, p.y, p.radius as real,
                            o.x as real, (o.x + o.width) as real,
                            PillarTop(o, category) as real, PillarBottom(o, category) as real, px, py);
  }

  /**
   * The state part of `animation`, run each frame on a dead player: while the
   * ball is on screen or has a non-negative radius it drifts left and loses a
   * tenth of its radius, rounded down; otherwise it is parked at x = -radius.
   */
  function AnimationStep(c: Config, p: Player): (r: Player)
    ensures p.radius >= 0 ==> 0 <= r.radius <= p.radius && r.x == p.x - c.obstacleSpeed
    ensures p.radius >= 10 ==> r.radius < p.radius
    ensures 0 <= p.radius < 10 ==> r == p.(x := p.x - c.obstacleSpeed)
    ensures !(p.x + p.radius >= 0 || p.radius >= 0) ==> r == p.(x := -p.radius)
    ensures r == p.(x := r.x, radius := r.radius)
  {
    if p.x + p.radius >= 0 || p.radius >= 0 then
      p.(x := p.x - c.obstacleSpeed, radius := p.radius - p.radius / 10)
    else p.(x := -p.radius)
  }

  /** `k` animation frames. */
  function Animate(c: Config, p: Player, k: nat): Player
  {
    if k == 0 then p else AnimationStep(c, Animate(c, p, k - 1))
  }

  /**
   * From a non-negative radius the parking branch is never reached: the
   * radius stays non-negative and never grows, and every frame moves the
   * ball left by OBSTACLE_SPEED, without end.
   */
  lemma {:induction false} AnimationNeverParks(c: Config, p: Player, k: nat)
    requires p.radius >= 0
    ensures 0 <= Animate(c, p, k).radius <= p.radius
    ensures Animate(c, p, k).x == p.x - k * c.obstacleSpeed
    ensures Animate(c, p, k) == p.(x := Animate(c, p, k).x, radius := Animate(c, p, k).radius)
  {
    if k > 0 {
      AnimationNeverParks(c, p, k - 1);
      assert Animate(c, p, k) == AnimationStep(c, Animate(c, p, k - 1));
      assert (k - 1) * c.obstacleSpeed + c.obstacleSpeed == k * c.obstacleSpeed;
    }
  }

  /** `kill` at clock reading `now`: the rounded time alive is recorded. */
  function Kill(p: Player, now: real): (r: Player)
    ensures !r.isAlive
    ensures -0.0005 <= r.timeAlive - (now - p.initTime) <= 0.0005
    ensures r == p.(isAlive := false, timeAlive := r.timeAlive)
  {
    p.(isAlive := false, timeAlive := Numeric.Round3(now - p.initTime))
  }

  /** `fitness`: the time alive. */
  function Fitness(p: Player): real
  {
    p.timeAlive
  }

  /** The fitness of a killed player is its survival time to the millisecond. */
  lemma FitnessIsSurvivalTime(p: Player, now: real)
    ensures -0.0005 <= Fitness(Kill(p, now)) - (now - p.initTime) <= 0.0005
  {
  }

  /** One `mutation_rate` from the integer draw `k` of `randint(-25, 25)`. */
  function MutationRate(c: Config, k: int): (d: real)
    requires -25 <= k < 25
    ensures c.mutationSize >= 0.0 ==> -0.125 * c.mutationSize <= d <= 0.12 * c.mutationSize
    ensures k == 0 ==> d == 0.0
  {
    var u := 0.005 * k as real;
    assert c.mutationSize >= 0.0 ==>
      Geometry.Mul(-0.125, c.mutationSize) <= Geometry.Mul(u, c.mutationSize) <= Geometry.Mul(0.12, c.mutationSize) by {
      if c.mutationSize >= 0.0 {
        Geometry.MulMonotone(-0.125, u, c.mutationSize);
        Geometry.MulMonotone(u, 0.12, c.mutationSize);
      }
    }
    assert Geometry.Mul(u, c.mutationSize) == c.mutationSize * 0.005 * k as real;
    c.mutationSize * 0.005 * k as real
  }

  /** Integer draws shaped like the matrix. */
  ghost predicate ValidSteps(w: Matrix, steps: seq<seq<int>>)
  {
    && |steps| == |w|
    && (forall i :: 0 <= i < |w| ==> |steps[i]| == |w[i]|)
    && (forall i, j :: 0 <= i < |steps| && 0 <= j < |steps[i]| ==> -25 <= steps[i][j] < 25)
  }

  /** Every weight moves by its own step: an integer multiple of MUTATION_SIZE * 0.005. */
  function MutateMatrix(c: Config, w: Matrix, steps: seq<seq<int>>): (r: Matrix)
    requires ValidSteps(w, steps)
    ensures |r| == |w| && forall i :: 0 <= i < |w| ==> |r[i]| == |w[i]|
    ensures forall i, j :: 0 <= i < |w| && 0 <= j < |w[i]| ==>
      r[i][j] - w[i][j] == c.mutationSize * 0.005 * steps[i][j] as real
    ensures c.mutationSize >= 0.0 ==> forall i, j :: 0 <= i < |w| && 0 <= j < |w[i]| ==>
      -0.125 * c.mutationSize <= r[i][j] - w[i][j] <= 0.12 * c.mutationSize
  {
    seq(|w|, i requires 0 <= i < |w| =>
      seq(|w[i]|, j requires 0 <= j < |w[i]| => w[i][j] + MutationRate(c, steps[i][j])))
  }

  /** `mutate`: both matrices, every weight, the network's shape kept. */
  function Mutate(c: Config, p: Player, stepsI: seq<seq<int>>, stepsH: seq<seq<int>>): (r: Player)
    requires ValidSteps(p.weightsInput, stepsI) && ValidSteps(p.weightsHidden, stepsH)
    ensures Wired(p) ==> Wired(r)
    ensures r == p.(weightsInput := r.weightsInput, weightsHidden := r.weightsHidden)
  {
    p.(weightsInput := MutateMatrix(c, p.weightsInput, stepsI),
       weightsHidden := MutateMatrix(c, p.weightsHidden, stepsH))
  }

  /** Steps negated elementwise. */
  function Negate(steps: seq<seq<int>>): (r: seq<seq<int>>)
    ensures |r| == |steps| && forall i :: 0 <= i < |steps| ==> |r[i]| == |steps[i]|
    ensures forall i, j :: 0 <= i < |steps| && 0 <= j < |steps[i]| ==> r[i][j] == -steps[i][j]
  {
    seq(|steps|, i requires 0 <= i < |steps| =>
      seq(|steps[i]|, j requires 0 <= j < |steps[i]| => -steps[i][j]))
  }

  /**
   * Mutation is undone by the opposite draws: mutating with `steps` and then
   * with their negation (when those are draws too) restores every weight.
   */
  lemma MutationUndone(c: Config, w: Matrix, steps: seq<seq<int>>)
    requires ValidSteps(w, steps) && ValidSteps(w, Negate(steps))
    ensures ValidSteps(MutateMatrix(c, w, steps), Negate(steps))
    ensures MutateMatrix(c, MutateMatrix(c, w, steps), Negate(steps)) == w
  {
    var m := MutateMatrix(c, w, steps);
    var back := MutateMatrix(c, m, Negate(steps));
    assert |back| == |w|;
    forall i | 0 <= i < |w|
      ensures back[i] == w[i]
    {
      assert |back[i]| == |w[i]|;
      forall j | 0 <= j < |w[i]|
        ensures back[i][j] == w[i][j]
      {
        assert back[i][j] - m[i][j] == c.mutationSize * 0.005 * (-steps[i][j]) as real;
      }
    }
  }

  /** The configuration the obstacle needs: a pillar fits under the floor line and the screen is wide. */
  ghost predicate ObstacleConfig(c: Config)
  {
    c.width + c.obstacleWidth > 0 && c.obstacleSpeed >= 0
  }

  /** A pillar as the constructor lays it out, never further left than one tick past the edge. */
  ghost predicate WellFormed(c: Config, o: Obstacle)
  {
    && o.width == c.obstacleWidth
    && c.obstacleHeightMin <= o.height < c.obstacleHeightMax
    && o.y + o.height == c.height - c.baseHeight
    && o.x + o.width > -c.obstacleSpeed
  }

  /** The obstacle's constructor, with the random height `h`. */
  function NewObstacle(c: Config, h: int): (o: Obstacle)
    requires c.obstacleHeightMin <= h < c.obstacleHeightMax
    ensures ObstacleConfig(c) ==> WellFormed(c, o)
    ensures o.x == c.width && o.height == h && o.width == c.obstacleWidth
    ensures o.y + o.height == c.height - c.baseHeight
  {
    Obstacle(c.obstacleWidth, h, c.width, c.height - c.baseHeight - h)
  }

  /** `update`: redraw with height `h` once past the left edge (checked before moving), then move left. */
  function UpdateObstacle(c: Config, o: Obstacle, h: int): (r: Obstacle)
    requires c.obstacleHeightMin <= h < c.obstacleHeightMax
    ensures o.x + o.width <= 0 ==> r == NewObstacle(c, h).(x := c.width - c.obstacleSpeed)
    ensures o.x + o.width > 0 ==> r == o.(x := o.x - c.obstacleSpeed)
    ensures ObstacleConfig(c) ==> r.x + r.width > -c.obstacleSpeed
  {
    var s := if o.x + o.width <= 0 then NewObstacle(c, h) else o;
    s.(x := s.x - c.obstacleSpeed)
  }

  /** The obstacle after one update per height draw. */
  function RunObstacle(c: Config, o: Obstacle, hs: seq<int>): Obstacle
    requires forall k :: 0 <= k < |hs| ==> c.obstacleHeightMin <= hs[k] < c.obstacleHeightMax
  {
    if |hs| == 0 then o else UpdateObstacle(c, RunObstacle(c, o, hs[..|hs| - 1]), hs[|hs| - 1])
  }

  /** However long the game runs, the pillar keeps its shape, stands on the floor and stays on its track. */
  lemma {:induction false} ObstacleStaysWellFormed(c: Config, o: Obstacle, hs: seq<int>)
    requires ObstacleConfig(c) && WellFormed(c, o)
    requires forall k :: 0 <= k < |hs| ==> c.obstacleHeightMin <= hs[k] < c.obstacleHeightMax
    ensures WellFormed(c, RunObstacle(c, o, hs))
    ensures RunObstacle(c, o, hs).x <= (if o.x > c.width then o.x else c.width)
  {
    if |hs| > 0 {
      ObstacleStaysWellFormed(c, o, hs[..|hs| - 1]);
    }
  }
}

=== FILE: metrics.dfy ===
/**
 * The jump-success metric of src/main.py: for one player, the fraction
 * `1 / (1 + loss_penalty * deaths / passed)` where `passed` is the number
 * of obstacles the player got past over a window of recent generations and
 * `deaths` its lifetime death count; and its mean, minimum and maximum over
 * the population. Players are identified by an integer standing for their
 * `id()`.
 */
module Metrics {
  import opened Wrappers
  import Numeric

  /**
   * The `player_scores` table: one row per registered player, holding its
   * per-generation scores and its death count.
   */
  datatype ScoreBook = ScoreBook(ids: seq<int>, scores: seq<seq<int>>, deaths: seq<int>)

  /** Rows line up, and scores and death counts are counts. */
  ghost predicate Valid(book: ScoreBook)
  {
    && |book.scores| == |book.ids| && |book.deaths| == |book.ids|
    && (forall i :: 0 <= i < |book.deaths| ==> book.deaths[i] >= 0)
    && (forall i, g :: 0 <= i < |book.scores| && 0 <= g < |book.scores[i]| ==> book.scores[i][g] >= 0)
  }

  /** Python's `s[-k:]`: the last `k` elements, the whole list when `k` is 0 or too large. */
  function Suffix<T>(s: seq<T>, k: nat): (r: seq<T>)
    ensures |r| == if k == 0 || k >= |s| then |s| else k
    ensures r == s[|s| - |r|..]
  {
    if k == 0 || k >= |s| then s else s[|s| - k..]
  }

  /** The generation counter when the metric functions are defined. */
  const InitialGeneration: int := 1

  /**
   * The default window, `generation - 1` evaluated once, when the functions
   * are defined rather than when they are called.
   */
  const DefaultGenLength: nat := InitialGeneration - 1

  /** The default window is the whole history, however many generations have passed. */
  lemma DefaultWindowIsWholeHistory(history: seq<int>)
    ensures DefaultGenLength == 0
    ensures Suffix(history, DefaultGenLength) == history
  {
  }

  /** A window of the history is never larger than the history it is cut from. */
  lemma {:induction false} WindowBounded(history: seq<int>, k: nat)
    requires forall g :: 0 <= g < |history| ==> history[g] >= 0
    ensures 0 <= Numeric.SumInt(Suffix(history, k)) <= Numeric.SumInt(history)
    decreases |history|
  {
    if k == 0 || k >= |history| {
      SumIntNonNegative(history);
    } else {
      var n := |history|;
      assert history == history[..n - 1] + [history[n - 1]];
      if k == 1 {
        assert Suffix(history, k) == [history[n - 1]];
        assert Numeric.SumInt([history[n - 1]]) == history[n - 1] by {
          assert [history[n - 1]][..0] == [];
        }
        SumIntNonNegative(history[..n - 1]);
      } else {
        var front := history[..n - 1];
        WindowBounded(front, k - 1);
        assert Suffix(history, k) == Suffix(front, k - 1) + [history[n - 1]];
        assert (Suffix(front, k - 1) + [history[n - 1]])[..k - 1] == Suffix(front, k - 1);
      }
    }
  }

  lemma {:induction false} SumIntNonNegative(s: seq<int>)
    requires forall g :: 0 <= g < |s| ==> s[g] >= 0
    ensures Numeric.SumInt(s) >= 0
    decreases |s|
  {
    if |s| > 0 {
      SumIntNonNegative(s[..|s| - 1]);
    }
  }

  /**
   * The success fraction for `passed` obstacles passed and `deaths` deaths:
   * 0 with nothing passed, otherwise the share `passed / (passed + penalty * deaths)`
   * of passings among passings and weighted deaths.
   */
  function Rate(passed: int, deaths: int, lossPenalty: real): (r: real)
    requires passed >= 0 && deaths >= 0 && lossPenalty >= 0.0
    ensures passed == 0 ==> r == 0.0
    ensures passed > 0 ==> 0.0 < r <= 1.0
    ensures passed > 0 ==> r * (passed as real + lossPenalty * deaths as real) == passed as real
    ensures passed > 0 && (deaths == 0 || lossPenalty == 0.0) ==> r == 1.0
  {
    if passed == 0 then 0.0
    else
      var total := passed as real;
      var weighted := lossPenalty * deaths as real;
      assert weighted >= 0.0;
      assert weighted / total >= 0.0;
      var r := 1.0 / (1.0 + weighted / total);
      assert r * (1.0 + weighted / total) == 1.0;
      assert (1.0 + weighted / total) * total == total + weighted;
      r
  }

  /** More deaths never raise the rate. */
  lemma RateFallsWithDeaths(passed: int, d1: int, d2: int, lossPenalty: real)
    requires passed > 0 && 0 <= d1 <= d2 && lossPenalty >= 0.0
    ensures Rate(passed, d2, lossPenalty) <= Rate(passed, d1, lossPenalty)
  {
    var t := passed as real;
    var w1 := lossPenalty * d1 as real;
    var w2 := lossPenalty * d2 as real;
    assert 0.0 <= w1 <= w2 by {
      assert w2 - w1 == lossPenalty * (d2 - d1) as real;
    }
    Numeric.QuotientOf(Rate(passed, d1, lossPenalty), t + w1, t);
    Numeric.QuotientOf(Rate(passed, d2, lossPenalty), t + w2, t);
    Numeric.ShareFalls(t, w1, w2);
  }

  /** Passing more obstacles with the same deaths never lowers the rate. */
  lemma RateRisesWithPassings(p1: int, p2: int, deaths: int, lossPenalty: real)
    requires 0 < p1 <= p2 && deaths >= 0 && lossPenalty >= 0.0
    ensures Rate(p1, deaths, lossPenalty) <= Rate(p2, deaths, lossPenalty)
  {
    var w := lossPenalty * deaths as real;
    assert w >= 0.0;
    Numeric.QuotientOf(Rate(p1, deaths, lossPenalty), p1 as real + w, p1 as real);
    Numeric.QuotientOf(Rate(p2, deaths, lossPenalty), p2 as real + w, p2 as real);
    Numeric.ShareRises(p1 as real, p2 as real, w);
  }

  /**
   * Lines 192-194: the obstacles passed over the window, summed from the
   * player's first row: the whole row for a window of 0 or one at least as
   * long as the row, otherwise its last `genLength` generations; a count, and
   * never more than the whole row's.
   */
  function Passed(book: ScoreBook, pid: int, genLength: nat): (n: int)
    requires Valid(book) && pid in book.ids
    ensures var row := book.scores[Numeric.FirstIndexOf(book.ids, pid)];
      && 0 <= n <= Numeric.SumInt(row)
      && (genLength == 0 || genLength >= |row| ==> n == Numeric.SumInt(row))
      && (0 < genLength < |row| ==> n == Numeric.SumInt(row[|row| - genLength..]))
  {
    var idx := Numeric.FirstIndexOf(book.ids, pid);
    WindowBounded(book.scores[idx], genLength);
    Numeric.SumInt(Suffix(book.scores[idx], genLength))
  }

  /**
   * `get_player_success`: nothing before `gen_length` generations or for an
   * unregistered player; otherwise the rate from the windowed score sum of
   * the first row with that id and that row's lifetime death count.
   */
  function PlayerSuccess(book: ScoreBook, pid: int, genLength: nat, lossPenalty: real, generation: int): (r: Option<real>)
    requires Valid(book) && lossPenalty >= 0.0
    ensures r.Some? <==> generation >= genLength && pid in book.ids
    ensures r.Some? ==> 0.0 <= r.value <= 1.0
    ensures r.Some? ==> (r.value == 0.0 <==> Passed(book, pid, genLength) == 0)
    ensures r.Some? && book.deaths[Numeric.FirstIndexOf(book.ids, pid)] == 0 && Passed(book, pid, genLength) > 0
      ==> r.value == 1.0
  {
    if generation >= genLength && pid in book.ids then
      var idx := Numeric.FirstIndexOf(book.ids, pid);
      Some(Rate(Passed(book, pid, genLength), book.deaths[idx], lossPenalty))
    else None
  }

  /**
   * Only the death count is lifetime: a death recorded in the row, with the
   * scores unchanged, never raises the rate.
   */
  lemma DeathLowersSuccess(book: ScoreBook, pid: int, genLength: nat, lossPenalty: real, generation: int)
    requires Valid(book) && lossPenalty >= 0.0 && pid in book.ids && generation >= genLength
    ensures var idx := Numeric.FirstIndexOf(book.ids, pid);
      var later := book.(deaths := book.deaths[idx := book.deaths[idx] + 1]);
      Valid(later)
      && PlayerSuccess(later, pid, genLength, lossPenalty, generation).value
         <= PlayerSuccess(book, pid, genLength, lossPenalty, generation).value
  {
    var idx := Numeric.FirstIndexOf(book.ids, pid);
    var later := book.(deaths := book.deaths[idx := book.deaths[idx] + 1]);
    assert Passed(later, pid, genLength) == Passed(book, pid, genLength);
    if Passed(book, pid, genLength) > 0 {
      RateFallsWithDeaths(Passed(book, pid, genLength), book.deaths[idx], book.deaths[idx] + 1, lossPenalty);
    }
  }

  datatype Summary = Summary(mean: real, min: real, max: real)

  /** The mean, minimum and maximum of a non-empty list of values. */
  function Summarise(s: seq<real>): (r: Summary)
    requires |s| > 0
    ensures r.mean == Numeric.Sum(s) / |s| as real
    ensures r.min <= r.mean <= r.max
    ensures forall i :: 0 <= i < |s| ==> r.min <= s[i] <= r.max
    ensures (exists i :: 0 <= i < |s| && s[i] == r.min) && (exists i :: 0 <= i < |s| && s[i] == r.max)
  {
    var lo := Numeric.MinOf(s);
    var hi := Numeric.MaxOf(s);
    assert forall i :: 0 <= i < |s| ==> lo <= s[i] <= hi by {
      forall i | 0 <= i < |s| ensures lo <= s[i] <= hi {
        assert s[i] in s;
      }
    }
    var a :| 0 <= a < |s| && s[a] == lo;
    var b :| 0 <= b < |s| && s[b] == hi;
    Summary(Numeric.Mean(s), lo, hi)
  }

  /** The per-player rates, in population order. */
  function Rates(book: ScoreBook, pids: seq<int>, genLength: nat, lossPenalty: real, generation: int): (rates: seq<real>)
    requires Valid(book) && lossPenalty >= 0.0 && generation >= genLength
    requires forall p :: p in pids ==> p in book.ids
    ensures |rates| == |pids|
    ensures forall i :: 0 <= i < |pids| ==>
      Some(rates[i]) == PlayerSuccess(book, pids[i], genLength, lossPenalty, generation)
    ensures forall i :: 0 <= i < |pids| ==> 0.0 <= rates[i] <= 1.0
  {
    seq(|pids|, i requires 0 <= i < |pids| =>
      PlayerSuccess(book, pids[i], genLength, lossPenalty, generation).value)
  }

  /**
   * `get_success_metric` without the standard deviation: nothing before
   * `gen_length` generations, otherwise the mean, minimum and maximum of the
   * population's rates. Every member of the population is registered in the
   * book (its id is recorded when the population is created).
   */
  function SuccessMetric(book: ScoreBook, pids: seq<int>, genLength: nat, lossPenalty: real, generation: int): (r: Option<Summary>)
    requires Valid(book) && lossPenalty >= 0.0 && |pids| > 0
    requires forall p :: p in pids ==> p in book.ids
    ensures r.Some? <==> generation >= genLength
    ensures r.Some? ==> 0.0 <= r.value.min <= r.value.mean <= r.value.max <= 1.0
    ensures r.Some? ==> forall i :: 0 <= i < |pids| ==>
      r.value.min <= PlayerSuccess(book, pids[i], genLength, lossPenalty, generation).value <= r.value.max
    ensures r.Some? ==>
      && (exists i :: 0 <= i < |pids| && PlayerSuccess(book, pids[i], genLength, lossPenalty, generation).value == r.value.min)
      && (exists i :: 0 <= i < |pids| && PlayerSuccess(book, pids[i], genLength, lossPenalty, generation).value == r.value.max)
    ensures r.Some? ==>
      r.value.mean == Numeric.Sum(Rates(book, pids, genLength, lossPenalty, generation)) / |pids| as real
  {
    if generation >= genLength then
      var rates := Rates(book, pids, genLength, lossPenalty, generation);
      var r := Summarise(rates);
      RatesBetween(book, pids, genLength, lossPenalty, generation, r.min, r.max);
      RateAttained(book, pids, genLength, lossPenalty, generation, r.min);
      RateAttained(book, pids, genLength, lossPenalty, generation, r.max);
      Some(r)
    else None
  }

  /** Bounds on the rates are bounds on the players' successes. */
  lemma RatesBetween(book: ScoreBook, pids: seq<int>, genLength: nat, lossPenalty: real, generation: int, lo: real, hi: real)
    requires Valid(book) && lossPenalty >= 0.0 && generation >= genLength
    requires forall p :: p in pids ==> p in book.ids
    requires forall i :: 0 <= i < |pids| ==> lo <= Rates(book, pids, genLength, lossPenalty, generation)[i] <= hi
    ensures forall i :: 0 <= i < |pids| ==> lo <= PlayerSuccess(book, pids[i], genLength, lossPenalty, generation).value <= hi
  {
    var rates := Rates(book, pids, genLength, lossPenalty, generation);
    forall i | 0 <= i < |pids|
      ensures lo <= PlayerSuccess(book, pids[i], genLength, lossPenalty, generation).value <= hi
    {
      assert Some(rates[i]) == PlayerSuccess(book, pids[i], genLength, lossPenalty, generation);
    }
  }

  /** A value one of the rates takes is some player's success. */
  lemma RateAttained(book: ScoreBook, pids: seq<int>, genLength: nat, lossPenalty: real, generation: int, v: real)
    requires Valid(book) && lossPenalty >= 0.0 && generation >= genLength
    requires forall p :: p in pids ==> p in book.ids
    requires exists i :: 0 <= i < |pids| && Rates(book, pids, genLength, lossPenalty, generation)[i] == v
    ensures exists i :: 0 <= i < |pids| && PlayerSuccess(book, pids[i], genLength, lossPenalty, generation).value == v
  {
    var rates := Rates(book, pids, genLength, lossPenalty, generation);
    var i :| 0 <= i < |pids| && rates[i] == v;
    assert PlayerSuccess(book, pids[i], genLength, lossPenalty, generation).value == v;
  }
}

=== FILE: numeric.dfy ===
/**
 * Arithmetic helpers shared by every part of the model: Python's `sum`, `max`,
 * `min`, `list.index` and `round(x, 3)` over exact numbers.
 */
module Numeric {

  /** Python's `sum` over a list of floats, folded from the left. */
  function Sum(s: seq<real>): real
  {
    if |s| == 0 then 0.0 else Sum(s[..|s| - 1]) + s[|s| - 1]
  }

  /** Python's `sum` over a list of ints. */
  function SumInt(s: seq<int>): int
  {
    if |s| == 0 then 0 else SumInt(s[..|s| - 1]) + s[|s| - 1]
  }

  /** Python's `max` over a non-empty list: an element no other element exceeds. */
  function MaxOf(s: seq<real>): (m: real)
    requires |s| > 0
    ensures m in s
    ensures forall x :: x in s ==> x <= m
  {
    if |s| == 1 then s[0]
    else
      var m' := MaxOf(s[..|s| - 1]);
      assert forall x :: x in s ==> x in s[..|s| - 1] || x == s[|s| - 1];
      if s[|s| - 1] > m' then s[|s| - 1] else m'
  }

  /** Python's `min` over a non-empty list. */
  function MinOf(s: seq<real>): (m: real)
    requires |s| > 0
    ensures m in s
    ensures forall x :: x in s ==> m <= x
  {
    if |s| == 1 then s[0]
    else
      var m' := MinOf(s[..|s| - 1]);
      assert forall x :: x in s ==> x in s[..|s| - 1] || x == s[|s| - 1];
      if s[|s| - 1] < m' then s[|s| - 1] else m'
  }

  /** The list of ints read as reals, position by position. */
  function AsReals(s: seq<int>): (r: seq<real>)
    ensures |r| == |s| && forall k :: 0 <= k < |s| ==> r[k] == s[k] as real
  {
    seq(|s|, k requires 0 <= k < |s| => s[k] as real)
  }

  /** Python's `max` over a non-empty list of ints: the entry where `MaxOf` of the list read as reals first occurs. */
  function MaxInt(s: seq<int>): (m: int)
    requires |s| > 0
    ensures m in s
    ensures forall x :: x in s ==> x <= m
  {
    var r := AsReals(s);
    var k := FirstIndexOf(r, MaxOf(r));
    assert forall x :: x in s ==> x as real <= r[k] by {
      forall x | x in s ensures x as real <= r[k] {
        var j :| 0 <= j < |s| && s[j] == x;
        assert r[j] in r;
      }
    }
    s[k]
  }

  /** The maximum bounds every position of the list. */
  lemma MaxOfBoundsEach(s: seq<real>)
    requires |s| > 0
    ensures forall k :: 0 <= k < |s| ==> s[k] <= MaxOf(s)
  {
    forall k | 0 <= k < |s| ensures s[k] <= MaxOf(s) {
      assert s[k] in s;
    }
  }

  /** The maximum bounds every position of the list, and every position before its first occurrence falls short of it. */
  lemma BeforeFirstMax(s: seq<real>)
    requires |s| > 0
    ensures forall k :: 0 <= k < |s| ==> s[k] <= MaxOf(s) && (k < FirstIndexOf(s, MaxOf(s)) ==> s[k] < MaxOf(s))
  {
    var m := MaxOf(s);
    var at := FirstIndexOf(s, m);
    forall k | 0 <= k < |s| ensures s[k] <= m && (k < at ==> s[k] < m) {
      assert s[k] in s;
      assert k < at ==> s[k] != m;
    }
  }

  /** The maximum bounds every position of the list. */
  lemma MaxIntBoundsEach(s: seq<int>)
    requires |s| > 0
    ensures forall k :: 0 <= k < |s| ==> s[k] <= MaxInt(s)
  {
    forall k | 0 <= k < |s| ensures s[k] <= MaxInt(s) {
      assert s[k] in s;
    }
  }

  /** Appending one element moves the maximum only if the new element exceeds it. */
  lemma {:induction false} MaxOfAppend(s: seq<real>, x: real)
    requires |s| > 0
    ensures MaxOf(s + [x]) == if x > MaxOf(s) then x else MaxOf(s)
  {
    assert (s + [x])[..|s + [x]| - 1] == s;
  }

  /** A sum of values inside [lo, hi] lies between n*lo and n*hi. */
  lemma {:induction false} SumBounds(s: seq<real>, lo: real, hi: real)
    requires forall x :: x in s ==> lo <= x <= hi
    ensures |s| as real * lo <= Sum(s) <= |s| as real * hi
  {
    if |s| > 0 {
      var init := s[..|s| - 1];
      var last := s[|s| - 1];
      var k := |init| as real;
      assert forall x :: x in init ==> x in s;
      SumBounds(init, lo, hi);
      assert last in s;
      assert Sum(s) == Sum(init) + last;
      assert |s| as real * lo == k * lo + lo;
      assert |s| as real * hi == k * hi + hi;
    }
  }

  /** The arithmetic mean of a non-empty list lies between its minimum and its maximum. */
  lemma {:induction false} MeanBetweenMinAndMax(s: seq<real>)
    requires |s| > 0
    ensures MinOf(s) <= Sum(s) / |s| as real <= MaxOf(s)
  {
    var n := |s| as real;
    var lo, hi, total := MinOf(s), MaxOf(s), Sum(s);
    SumBounds(s, lo, hi);
    assert n * lo <= total <= n * hi;
    DivideBounds(total, n, lo, hi);
  }

  /** `np.mean`: the value whose `|s|`-fold is the total, between the minimum and the maximum. */
  function Mean(s: seq<real>): (m: real)
    requires |s| > 0
    ensures m == Sum(s) / |s| as real
    ensures m * |s| as real == Sum(s)
    ensures MinOf(s) <= m <= MaxOf(s)
  {
    var n := |s| as real;
    var m := Sum(s) / n;
    TimesQuotient(Sum(s), n);
    assert m * n == Sum(s);
    MeanBetweenMinAndMax(s);
    m
  }

  lemma TimesQuotient(x: real, d: real)
    requires d > 0.0
    ensures (x / d) * d == x
  {
  }

  lemma DivideBounds(total: real, n: real, lo: real, hi: real)
    requires n > 0.0
    requires n * lo <= total <= n * hi
    ensures lo <= total / n <= hi
  {
    assert (n * lo) / n == lo;
    assert (n * hi) / n == hi;
  }

  /** Python's `list.index`: the first position holding `v`. */
  function FirstIndexOf<T(==)>(s: seq<T>, v: T): (i: nat)
    requires v in s
    ensures i < |s| && s[i] == v
    ensures forall j :: 0 <= j < i ==> s[j] != v
  {
    if s[0] == v then 0 else 1 + FirstIndexOf(s[1..], v)
  }

  /** The first position of a value is unaffected by appending to the list. */
  lemma {:induction false} FirstIndexOfAppend<T>(s: seq<T>, x: T, v: T)
    requires v in s
    ensures FirstIndexOf(s + [x], v) == FirstIndexOf(s, v)
  {
    var i := FirstIndexOf(s, v);
    assert (s + [x])[i] == v;
  }

  /**
   * Round to the nearest integer, ties to even, as Python's `round` does on the
   * exact value it is given.
   */
  function RoundHalfEven(x: real): (k: int)
    ensures x - 0.5 <= k as real <= x + 0.5
    ensures k as real - x == 0.5 || x - k as real == 0.5 ==> k % 2 == 0
  {
    var f := x.Floor;
    var frac := x - f as real;
    if frac < 0.5 then f
    else if frac > 0.5 then f + 1
    else if f % 2 == 0 then f
    else f + 1
  }

  /** Python's `round(t, 3)`: a multiple of 1/1000 within half a millisecond of `t`. */
  function Round3(t: real): (r: real)
    ensures -0.0005 <= r - t <= 0.0005
    ensures (r * 1000.0).Floor as real == r * 1000.0
  {
    var k := RoundHalfEven(t * 1000.0);
    var r := k as real / 1000.0;
    assert r * 1000.0 == k as real && (k as real).Floor == k;
    assert t * 1000.0 - 0.5 <= r * 1000.0 <= t * 1000.0 + 0.5;
    r
  }

  /** Taking reciprocals reverses the order of positive reals. */
  lemma ReciprocalAntitone(a: real, b: real)
    requires 0.0 < a <= b
    ensures 0.0 < 1.0 / b <= 1.0 / a
  {
  }

  /** Scaling both sides by a positive factor keeps a comparison. */
  lemma ScaledAtLeast(e: real, c: real, f: real)
    requires f > 0.0
    ensures e >= c <==> e * f >= c * f
  {
    assert e * f - c * f == (e - c) * f;
  }

  /** A product that hits `x` names the quotient `x / d`. */
  lemma QuotientOf(q: real, d: real, x: real)
    requires d > 0.0 && q * d == x
    ensures q == x / d
  {
  }

  /** The share `t / (t + w)` rises with `t` for a fixed weight `w`. */
  lemma ShareRises(a: real, b: real, w: real)
    requires 0.0 < a <= b && w >= 0.0
    ensures a / (a + w) <= b / (b + w)
  {
    assert a * w <= b * w;
    assert a * (b + w) <= b * (a + w);
    ScaledAtLeast(b / (b + w), a / (a + w), (a + w) * (b + w));
    assert a / (a + w) * ((a + w) * (b + w)) == a * (b + w);
    assert b / (b + w) * ((a + w) * (b + w)) == b * (a + w);
  }

  /** The share `t / (t + w)` falls as the weight `w` grows. */
  lemma ShareFalls(t: real, a: real, b: real)
    requires t > 0.0 && 0.0 <= a <= b
    ensures t / (t + b) <= t / (t + a)
  {
    ReciprocalAntitone(t + a, t + b);
    assert t / (t + b) == t * (1.0 / (t + b));
    assert t / (t + a) == t * (1.0 / (t + a));
  }
}

=== FILE: obstacles.dfy ===
/**
 * The scrolling obstacle of the current game (src/common/obstacle.py): a
 * pillar standing on the floor or hanging from the ceiling, moving left by
 * ObstacleSpeed each tick and redrawn at the right edge once it has left the
 * screen. The random category and height of a redraw are parameters.
 */
module Obstacles {
  import opened Settings

  datatype Category = Bottom | Top

  /**
   * `y` is the pillar's free end: a floor pillar spans [y, y + height], a
   * ceiling pillar spans [y - height, y]. `score` counts redraws; the
   * constructor never resets it.
   */
  datatype Obstacle = Obstacle(category: Category, width: int, height: int, x: int, y: int, score: int)

  /** A pillar as the constructor lays it out, for a height the random draw can return. */
  ghost predicate WellFormed(o: Obstacle)
  {
    && o.width == ObstacleWidth
    && ObstacleHeightMin <= o.height < ObstacleHeightMax
    && (o.category == Bottom ==> o.y + o.height == Height - BaseHeight)
    && (o.category == Top ==> o.y - o.height == BaseHeight)
  }

  /** The constructor, keeping the count of earlier redraws. */
  function Spawn(category: Category, height: int, score: int): (o: Obstacle)
    requires ObstacleHeightMin <= height < ObstacleHeightMax
    ensures WellFormed(o)
    ensures o.category == category && o.height == height
    ensures o.x == Width && o.score == score
  {
    var y := if category == Bottom then Height - BaseHeight - height else BaseHeight + height;
    Obstacle(category, ObstacleWidth, height, Width, y, score)
  }

  /** The class attribute gives a fresh obstacle a score of zero. */
  function New(category: Category, height: int): (o: Obstacle)
    requires ObstacleHeightMin <= height < ObstacleHeightMax
    ensures WellFormed(o) && o.x == Width && o.score == 0
  {
    Spawn(category, height, 0)
  }

  /**
   * Fully past the left edge. The obstacle class has no such method although
   * its callers use one; this is the gate's test applied to the obstacle.
   */
  predicate IsOutside(o: Obstacle)
  {
    o.x + o.width <= 0
  }

  /**
   * One tick: redraw (counting the redraw) when the pillar is outside, then
   * move left. The redraw is checked before moving.
   */
  function Update(o: Obstacle, category: Category, height: int): (r: Obstacle)
    requires ObstacleHeightMin <= height < ObstacleHeightMax
    ensures IsOutside(o) ==>
      && r.score == o.score + 1 && r.x == Width - ObstacleSpeed
      && r.category == category && r.height == height && WellFormed(r)
    ensures !IsOutside(o) ==>
      && r.x == o.x - ObstacleSpeed && r.score == o.score
      && r.category == o.category && r.height == o.height
      && r.width == o.width && r.y == o.y
    ensures r.x + r.width > -ObstacleSpeed
    ensures WellFormed(o) ==> WellFormed(r)
  {
    var s := if IsOutside(o) then Spawn(category, height, o.score + 1) else o;
    s.(x := s.x - ObstacleSpeed)
  }

  /** A redraw for each tick: the random category and height the constructor would draw. */
  datatype Draw = Draw(category: Category, height: int)

  ghost predicate ValidDraws(draws: seq<Draw>)
  {
    forall i :: 0 <= i < |draws| ==> ObstacleHeightMin <= draws[i].height < ObstacleHeightMax
  }

  /** Consecutive ticks, tick `i` using `draws[i]` if it redraws. */
  function Run(o: Obstacle, draws: seq<Draw>): Obstacle
    requires ValidDraws(draws)
    decreases |draws|
  {
    if |draws| == 0 then o
    else Run(Update(o, draws[0].category, draws[0].height), draws[1..])
  }

  /** The number of redraws a run makes. */
  function Redraws(o: Obstacle, draws: seq<Draw>): nat
    requires ValidDraws(draws)
    decreases |draws|
  {
    if |draws| == 0 then 0
    else (if IsOutside(o) then 1 else 0) + Redraws(Update(o, draws[0].category, draws[0].height), draws[1..])
  }

  /** The score counts exactly the redraws of the object's lifetime, so it never decreases. */
  lemma {:induction false} ScoreCountsRedraws(o: Obstacle, draws: seq<Draw>)
    requires ValidDraws(draws)
    ensures Run(o, draws).score == o.score + Redraws(o, draws)
    ensures Run(o, draws).score >= o.score
    decreases |draws|
  {
    if |draws| > 0 {
      ScoreCountsRedraws(Update(o, draws[0].category, draws[0].height), draws[1..]);
    }
  }

  /** A run keeps the pillar well formed and, after one tick, never further left than -ObstacleSpeed. */
  lemma {:induction false} RunStaysOnTrack(o: Obstacle, draws: seq<Draw>)
    requires ValidDraws(draws) && WellFormed(o)
    ensures WellFormed(Run(o, draws))
    ensures |draws| > 0 ==> Run(o, draws).x + Run(o, draws).width > -ObstacleSpeed
    decreases |draws|
  {
    if |draws| > 0 {
      var o' := Update(o, draws[0].category, draws[0].height);
      RunStaysOnTrack(o', draws[1..]);
      if |draws| == 1 {
        assert draws[1..] == [];
      }
    }
  }

  /**
   * The states a run from a spawned obstacle can reach: well formed, on the
   * ObstacleSpeed grid and not yet further left than the exact off-screen
   * point.
   */
  ghost predicate Reachable(o: Obstacle)
  {
    WellFormed(o) && o.x % ObstacleSpeed == 0 && o.x + o.width >= 0 && o.x <= Width
  }

  /** Reachability is kept by every tick ... */
  lemma UpdateKeepsReachable(o: Obstacle, category: Category, height: int)
    requires Reachable(o)
    requires ObstacleHeightMin <= height < ObstacleHeightMax
    ensures Reachable(Update(o, category, height))
  {
  }

  /** ... so a redraw always happens on the tick the pillar is exactly off-screen. */
  lemma RedrawIsExact(o: Obstacle)
    requires Reachable(o) && IsOutside(o)
    ensures o.x + o.width == 0
  {
  }

  /**
   * A freshly spawned pillar scrolls for (Width + ObstacleWidth) / ObstacleSpeed
   * = 260 ticks without being redrawn, and is redrawn on the next one.
   */
  lemma {:induction false} Lifetime(o: Obstacle, draws: seq<Draw>)
    requires WellFormed(o) && o.x == Width
    requires ValidDraws(draws) && |draws| <= 260
    ensures Run(o, draws) == o.(x := Width - ObstacleSpeed * |draws|)
    ensures IsOutside(Run(o, draws)) <==> |draws| == 260
    decreases |draws|
  {
    if |draws| > 0 {
      var init := draws[..|draws| - 1];
      Lifetime(o, init);
      RunAppend(o, init, draws[|draws| - 1]);
      assert init + [draws[|draws| - 1]] == draws;
    }
  }

  /** Running one more tick appends an update to the run. */
  lemma {:induction false} RunAppend(o: Obstacle, draws: seq<Draw>, d: Draw)
    requires ValidDraws(draws) && ObstacleHeightMin <= d.height < ObstacleHeightMax
    ensures ValidDraws(draws + [d])
    ensures Run(o, draws + [d]) == Update(Run(o, draws), d.category, d.height)
    decreases |draws|
  {
    if |draws| > 0 {
      assert (draws + [d])[1..] == draws[1..] + [d];
      RunAppend(Update(o, draws[0].category, draws[0].height), draws[1..], d);
    }
  }
}

=== FILE: players.dfy ===
/**
 * The current player (src/common/player.py): a ball at a fixed column that
 * falls under gravity, jumps on a cooldown measured in wall-clock seconds,
 * and, when driven by the network, senses the obstacle before deciding.
 *
 * Clock readings are parameters (`now`); the network's decision (a sigmoid
 * two-layer perceptron) is the function parameter `decide`, applied to the
 * sensor vector and the two weight matrices; the random initial weights,
 * mutation coins and mutation steps are parameters.
 */
module Players {
  import opened Settings
  import opened Obstacles
  import Kinematics
  import Geometry
  import Numeric

  type Matrix = seq<seq<real>>

  /** A `rows` x `cols` matrix. */
  ghost predicate Shaped(m: Matrix, rows: nat, cols: nat)
  {
    |m| == rows && forall i :: 0 <= i < rows ==> |m[i]| == cols
  }

  /** What the network sees of the obstacle: horizontal gap and the two vertical clearances. */
  datatype Sensors = Sensors(dx: real, dyTop: real, dyBottom: real)

  datatype Player = Player(
    radius: int, x: int, y: real, vy: real,
    jumpTime: real, jumpCd: real,
    isAlive: bool, isAnimating: bool,
    initTime: real, timeAlive: real, score: int,
    isAi: bool, sensors: Sensors, weightsInput: Matrix, weightsHidden: Matrix)

  /** The network's shape: 5 sensor inputs, 3 hidden units, 1 output. */
  ghost predicate Wired(p: Player)
  {
    p.isAi ==> Shaped(p.weightsInput, 5, 3) && Shaped(p.weightsHidden, 3, 1)
  }

  /**
   * The constructor at clock reading `now`; `wi` and `wh` are the random
   * initial weights of a network player (ignored for a human player).
   */
  function New(isAi: bool, now: real, wi: Matrix, wh: Matrix): (p: Player)
    requires isAi ==> Shaped(wi, 5, 3) && Shaped(wh, 3, 1)
    ensures Wired(p) && p.isAi == isAi
    ensures p.isAlive && !p.isAnimating && p.score == 0 && p.timeAlive == 0.0
    ensures p.x == PlayerStartPos && p.y == PlayerStartHeight as real && p.vy == 0.0
    ensures p.radius == PlayerRadius && p.jumpTime == now && p.initTime == now
    ensures p.jumpCd == PlayerJumpCooldown
    ensures isAi ==> p.weightsInput == wi && p.weightsHidden == wh && p.sensors == Sensors(0.0, 0.0, 0.0)
  {
    Player(PlayerRadius, PlayerStartPos, PlayerStartHeight as real, 0.0,
           now, PlayerJumpCooldown, true, false, now, 0.0, 0,
           isAi, Sensors(0.0, 0.0, 0.0),
           if isAi then wi else [], if isAi then wh else [])
  }

  /** The cooldown in seconds at a frame rate of `fps`, scaled so that it is `jumpCd` at 60. */
  function Cooldown(jumpCd: real, fps: int): (c: real)
    requires fps != 0
    ensures fps == 60 ==> c == jumpCd
  {
    jumpCd * 60.0 / fps as real
  }

  /**
   * The jump fires only once the cooldown has elapsed since the last jump:
   * at a positive frame rate, once the elapsed time times the frame rate
   * reaches `jumpCd` times 60.
   */
  predicate CanJump(p: Player, fps: int, now: real)
    requires fps != 0
    ensures fps > 0 ==> (CanJump(p, fps, now) <==> (now - p.jumpTime) * fps as real >= p.jumpCd * 60.0)
    ensures fps == 60 ==> (CanJump(p, fps, now) <==> now - p.jumpTime >= p.jumpCd)
  {
    var c := Cooldown(p.jumpCd, fps);
    assert c * fps as real == p.jumpCd * 60.0;
    if fps > 0 then
      Numeric.ScaledAtLeast(now - p.jumpTime, c, fps as real);
      now - p.jumpTime >= c
    else now - p.jumpTime >= c
  }

  /** `jump(fps)`: set the jump velocity and restart the cooldown, or do nothing. */
  function Jump(p: Player, fps: int, now: real): (r: Player)
    requires fps != 0
    ensures CanJump(p, fps, now) ==> r.vy == JumpForce && r.jumpTime == now
    ensures CanJump(p, fps, now) ==> r.(vy := p.vy, jumpTime := p.jumpTime) == p
    ensures !CanJump(p, fps, now) ==> r == p
  {
    if CanJump(p, fps, now) then p.(vy := JumpForce, jumpTime := now) else p
  }

  /** `NN_update`: measure the obstacle; the clearances depend on the pillar's side. */
  function Sense(p: Player, o: Obstacle): (r: Player)
    ensures r == p.(sensors := r.sensors)
    ensures r.sensors.dx == (o.x - p.x) as real
    ensures o.category == Bottom ==>
      r.sensors.dyTop == p.y - BaseHeight as real && r.sensors.dyBottom == o.y as real - p.y
    ensures o.category == Top ==>
      r.sensors.dyTop == o.y as real - p.y && r.sensors.dyBottom == Height as real - p.y
  {
    var dx := (o.x - p.x) as real;
    if o.category == Bottom then
      p.(sensors := Sensors(dx, p.y - BaseHeight as real, o.y as real - p.y))
    else
      p.(sensors := Sensors(dx, o.y as real - p.y, Height as real - p.y))
  }

  /** The network's input row, in the order the weights expect. */
  function SensorVector(p: Player): (v: seq<real>)
    ensures |v| == 5
    ensures v[0] == p.y && v[1] == p.vy && v[2] == p.sensors.dx
    ensures v[3] == p.sensors.dyBottom && v[4] == p.sensors.dyTop
  {
    [p.y, p.vy, p.sensors.dx, p.sensors.dyBottom, p.sensors.dyTop]
  }

  /** The ground-contact height of the ball's centre. */
  function Ground(p: Player): real
  {
    GroundLevel(p.radius) as real
  }

  /**
   * The network fires on this frame: the only way into `jump`, whose
   * cooldown divides by the frame rate, so a frame rate of 0 is harmless
   * on every other path.
   */
  predicate Fires(p: Player, o: Obstacle, decide: (seq<real>, Matrix, Matrix) -> bool)
  {
    p.isAlive && p.isAi && decide(SensorVector(Sense(p, o)), p.weightsInput, p.weightsHidden)
  }

  /** The decision half of `update`: only a live network player senses and maybe jumps. */
  function Decide(p: Player, o: Obstacle, fps: int, now: real,
                  decide: (seq<real>, Matrix, Matrix) -> bool): (r: Player)
    requires Fires(p, o, decide) ==> fps != 0
    ensures !(p.isAlive && p.isAi) ==> r == p
    ensures r.y == p.y && r.isAlive == p.isAlive && r.radius == p.radius
    ensures r.vy == p.vy || (r.vy == JumpForce && r.jumpTime == now)
    ensures !Fires(p, o, decide) ==> r.vy == p.vy && r.jumpTime == p.jumpTime
  {
    if p.isAlive && p.isAi then
      var s := Sense(p, o);
      if decide(SensorVector(s), s.weightsInput, s.weightsHidden) then Jump(s, fps, now) else s
    else p
  }

  /**
   * `update`: the decision, then the ground clamp or gravity and the Euler
   * step. The physics runs whether or not the player is alive.
   */
  function Update(p: Player, o: Obstacle, fps: int, now: real,
                  decide: (seq<real>, Matrix, Matrix) -> bool): (r: Player)
    requires Fires(p, o, decide) ==> fps != 0
    ensures var q := Decide(p, o, fps, now, decide);
      Kinematics.Grounded(q.y, q.vy, Ground(p)) ==> r.y == Ground(p) && r.vy == 0.0
    ensures var q := Decide(p, o, fps, now, decide);
      !Kinematics.Grounded(q.y, q.vy, Ground(p)) ==> r.vy == q.vy + Gravity && r.y == q.y + r.vy
    ensures r.jumpTime == p.jumpTime || (r.jumpTime == now && r.vy == JumpForce + Gravity)
    ensures r.isAlive == p.isAlive && r.isAnimating == p.isAnimating && r.x == p.x
    ensures r.radius == p.radius && r.score == p.score && r.timeAlive == p.timeAlive
  {
    var q := Decide(p, o, fps, now, decide);
    var m := Kinematics.Step(q.y, q.vy, Ground(q), Gravity);
    q.(y := m.y, vy := m.vy)
  }

  /** A dead player keeps falling: its update is the bare physics step. */
  lemma DeadPlayerStillFalls(p: Player, o: Obstacle, fps: int, now: real,
                             decide: (seq<real>, Matrix, Matrix) -> bool)
    requires !p.isAlive
    ensures var m := Kinematics.Step(p.y, p.vy, Ground(p), Gravity);
      Update(p, o, fps, now, decide) == p.(y := m.y, vy := m.vy)
  {
  }

  /**
   * On a tick where the jump fires the velocity is negative, so the clamp
   * cannot fire: the tick ends with vy = JumpForce + Gravity = -9.5 and the
   * ball has risen by that much.
   */
  lemma JumpTick(p: Player, o: Obstacle, fps: int, now: real,
                 decide: (seq<real>, Matrix, Matrix) -> bool)
    requires fps != 0 && Fires(p, o, decide) && CanJump(p, fps, now)
    ensures Update(p, o, fps, now, decide).vy == JumpForce + Gravity == -9.5
    ensures Update(p, o, fps, now, decide).y == p.y - 9.5
    ensures Update(p, o, fps, now, decide).jumpTime == now
  {
    var s := Sense(p, o);
    assert Decide(p, o, fps, now, decide) == Jump(s, fps, now);
  }

  /** A player resting on the ground that does not jump stays exactly at rest. */
  lemma RestingStaysPut(p: Player, o: Obstacle, fps: int, now: real,
                        decide: (seq<real>, Matrix, Matrix) -> bool)
    requires p.y == Ground(p) && p.vy == 0.0 && !Fires(p, o, decide)
    ensures Update(p, o, fps, now, decide).y == Ground(p)
    ensures Update(p, o, fps, now, decide).vy == 0.0
  {
  }

  /**
   * After a jump from rest, the ball rises for 20 ticks: after `n` of them
   * (1 <= n <= 20) its speed is -10 + n/2 and it has risen 10n - n(n+1)/4;
   * at the apex (n = 20) it is 95 pixels above its start.
   */
  lemma JumpApex(n: nat, y: real, ground: real)
    requires 1 <= n <= 20
    ensures Kinematics.Steps(n, y, JumpForce, ground, Gravity).vy == JumpForce + n as real * Gravity
    ensures Kinematics.Steps(n, y, JumpForce, ground, Gravity).y
         == y - 10.0 * n as real + (n * (n + 1)) as real / 4.0
    ensures n == 20 ==> Kinematics.Steps(n, y, JumpForce, ground, Gravity).y == y - 95.0
  {
    Kinematics.RisingArc(n, y, JumpForce, ground, Gravity);
  }

  /** The pillar's rectangle: [y, y + height] for a floor pillar, [y - height, y] for a ceiling one. */
  function PillarTop(o: Obstacle): int
  {
    if o.category == Bottom then o.y else o.y - o.height
  }

  function PillarBottom(o: Obstacle): int
  {
    if o.category == Bottom then o.y + o.height else o.y
  }

  /** The ball touches the ceiling band. */
  predicate HitsRoof(p: Player)
  {
    p.y - p.radius as real <= BaseHeight as real
  }

  /**
   * `is_colliding`: the ball, taken at the player's starting column rather
   * than its own `x`, overlaps the pillar, or it touches the ceiling band.
   */
  predicate IsColliding(p: Player, o: Obstacle)
  {
    || Geometry.CircleHitsRect(PlayerStartPos as real, p.y, p.radius as real,
                               o.x as real, (o.x + o.width) as real,
                               PillarTop(o) as real, PillarBottom(o) as real)
    || HitsRoof(p)
  }

  /** A collision away from the ceiling has a witness: a pillar point strictly within the radius. */
  lemma CollisionHasWitness(p: Player, o: Obstacle)
    requires o.width >= 0 && o.height >= 0
    requires IsColliding(p, o) && !HitsRoof(p)
    ensures var px := Geometry.Clamp(PlayerStartPos as real, o.x as real, (o.x + o.width) as real);
      var py := Geometry.Clamp(p.y, PillarTop(o) as real, PillarBottom(o) as real);
      && o.x as real <= px <= (o.x + o.width) as real
      && PillarTop(o) as real <= py <= PillarBottom(o) as real
      && Geometry.Square(PlayerStartPos as real - px) + Geometry.Square(p.y - py)
         < Geometry.Square(p.radius as real)
  {
    Geometry.HitHasWitness(PlayerStartPos as real, p.y, p.radius as real,
                           o.x as real, (o.x + o.width) as real,
                           PillarTop(o) as real, PillarBottom(o) as real);
  }

  /** Conversely, any pillar point strictly within the radius of the ball is a collision. */
  lemma WitnessCollides(p: Player, o: Obstacle, px: real, py: real)
    requires o.x as real <= px <= (o.x + o.width) as real
    requires PillarTop(o) as real <= py <= PillarBottom(o) as real
    requires Geometry.Square(PlayerStartPos as real - px) + Geometry.Square(p.y - py)
           < Geometry.Square(p.radius as real)
    ensures IsColliding(p, o)
  {
    Geometry.ClosePointHits(PlayerStartPos as real, p.y, p.radius as real,
                            o.x as real, (o.x + o.width) as real,
                            PillarTop(o) as real, PillarBottom(o) as real, px, py);
  }

  /** A ball whose centre is inside the pillar collides whenever its radius is positive. */
  lemma CentreInPillarCollides(p: Player, o: Obstacle)
    requires p.radius > 0
    requires o.x <= PlayerStartPos <= o.x + o.width
    requires PillarTop(o) as real <= p.y <= PillarBottom(o) as real
    ensures IsColliding(p, o)
  {
    Geometry.CentreInsideHits(PlayerStartPos as real, p.y, p.radius as real,
                              o.x as real, (o.x + o.width) as real,
                              PillarTop(o) as real, PillarBottom(o) as real);
  }

  /** A pillar at least one radius ahead of the player's column cannot hit a ball clear of the ceiling. */
  lemma PillarAheadIsHarmless(p: Player, o: Obstacle)
    requires p.radius >= 0 && o.width >= 0
    requires o.x >= PlayerStartPos + p.radius
    requires !HitsRoof(p)
    ensures !IsColliding(p, o)
  {
    var cx := PlayerStartPos as real;
    var px := Geometry.Clamp(cx, o.x as real, (o.x + o.width) as real);
    var py := Geometry.Clamp(p.y, PillarTop(o) as real, PillarBottom(o) as real);
    assert px == o.x as real;
    Geometry.SquareMonotone(p.radius as real, px - cx);
    Geometry.SquareFacts(cx - px);
    Geometry.SquareFacts(p.y - py);
  }

  /**
   * The state part of `animation`, run on a dead player each frame: while the
   * ball is still on screen or has a non-negative radius it drifts left and
   * shrinks; otherwise it is parked at x = -radius and stops animating.
   */
  function AnimationStep(p: Player): (r: Player)
    ensures p.x + p.radius >= 0 || p.radius >= 0 ==>
      r == p.(x := p.x - ObstacleSpeed, radius := p.radius - 1)
    ensures !(p.x + p.radius >= 0 || p.radius >= 0) ==>
      r == p.(x := -p.radius, isAnimating := false)
  {
    if p.x + p.radius >= 0 || p.radius >= 0 then p.(x := p.x - ObstacleSpeed, radius := p.radius - 1)
    else p.(x := -p.radius, isAnimating := false)
  }

  /** How far the animation still has to run: both tests fall by at least one per step. */
  function AnimationBudget(p: Player): nat
  {
    if p.x + p.radius >= 0 || p.radius >= 0 then (if p.x + p.radius >= p.radius then p.x + p.radius else p.radius) + 1
    else 0
  }

  /**
   * Animation frames until the death animation stops: it always stops, with
   * a negative radius and the ball parked at x = -radius, everything else
   * but the position and radius unchanged.
   */
  function FinishAnimation(p: Player): (r: Player)
    requires p.isAnimating
    ensures !r.isAnimating && r.radius < 0 && r.x == -r.radius
    ensures r.radius <= p.radius
    ensures r == p.(x := r.x, radius := r.radius, isAnimating := false)
    decreases AnimationBudget(p)
  {
    var q := AnimationStep(p);
    if q.isAnimating then FinishAnimation(q) else q
  }

  /** The player's own death animation: from the start column and radius it stops at radius -1, x = 1. */
  lemma StartPlayerAnimation(p: Player)
    requires p.isAnimating && p.radius == PlayerRadius && p.x == PlayerStartPos
    ensures FinishAnimation(p).radius == -1 && FinishAnimation(p).x == 1
  {
    AnimationRun(p, 21);
  }

  /**
   * While both tests hold for `k` more steps (radius >= k - 1, so the radius
   * test alone keeps it going), the animation takes `k` plain steps.
   */
  lemma {:induction false} AnimationRun(p: Player, k: nat)
    requires p.isAnimating && p.radius >= k - 1
    requires p.radius - k < 0 && p.x - 5 * k + p.radius - k < 0
    ensures FinishAnimation(p) == p.(x := k - p.radius, radius := p.radius - k, isAnimating := false)
    decreases k
  {
    if k > 0 {
      var q := AnimationStep(p);
      assert q == p.(x := p.x - 5, radius := p.radius - 1);
      AnimationRun(q, k - 1);
    }
  }

  /** `kill` at clock reading `now`: record the rounded time alive and start the animation. */
  function Kill(p: Player, now: real): (r: Player)
    ensures !r.isAlive && r.isAnimating
    ensures -0.0005 <= r.timeAlive - (now - p.initTime) <= 0.0005
    ensures r == p.(isAlive := false, isAnimating := true, timeAlive := r.timeAlive)
  {
    p.(isAlive := false, isAnimating := true, timeAlive := Numeric.Round3(now - p.initTime))
  }

  /** `fitness`: the time alive, as recorded at death. */
  function Fitness(p: Player): real
  {
    p.timeAlive
  }

  /** The fitness of a killed player is its survival time to the millisecond. */
  lemma FitnessIsSurvivalTime(p: Player, now: real)
    ensures -0.0005 <= Fitness(Kill(p, now)) - (now - p.initTime) <= 0.0005
  {
  }

  /** One mutation step, `MUTATION_SIZE * uniform(-0.25, 0.25)`, from a draw `u`. */
  function MutationRate(u: real): (d: real)
    requires -0.25 <= u < 0.25
    ensures -0.25 * MutationSize <= d < 0.25 * MutationSize
  {
    MutationSize * u
  }

  /** The coin flips and uniform draws of one `mutate` call, shaped like the matrix. */
  ghost predicate ValidDraws(w: Matrix, coins: Matrix, steps: Matrix)
  {
    && |coins| == |w| && |steps| == |w|
    && (forall i :: 0 <= i < |w| ==> |coins[i]| == |w[i]| && |steps[i]| == |w[i]|)
    && (forall i, j :: 0 <= i < |steps| && 0 <= j < |steps[i]| ==> -0.25 <= steps[i][j] < 0.25)
  }

  /** Mutate a weight when its coin is at most MutationChance; otherwise keep it. */
  function MutateMatrix(w: Matrix, coins: Matrix, steps: Matrix): (r: Matrix)
    requires ValidDraws(w, coins, steps)
    ensures |r| == |w| && forall i :: 0 <= i < |w| ==> |r[i]| == |w[i]|
    ensures forall i, j :: 0 <= i < |w| && 0 <= j < |w[i]| && coins[i][j] > MutationChance ==>
      r[i][j] == w[i][j]
    ensures forall i, j :: 0 <= i < |w| && 0 <= j < |w[i]| ==>
      -0.25 * MutationSize <= r[i][j] - w[i][j] < 0.25 * MutationSize
  {
    seq(|w|, i requires 0 <= i < |w| =>
      seq(|w[i]|, j requires 0 <= j < |w[i]| =>
        if coins[i][j] <= MutationChance then w[i][j] + MutationRate(steps[i][j]) else w[i][j]))
  }

  /** `mutate`: both weight matrices, keeping the network's shape. */
  function Mutate(p: Player, coinsI: Matrix, stepsI: Matrix, coinsH: Matrix, stepsH: Matrix): (r: Player)
    requires ValidDraws(p.weightsInput, coinsI, stepsI) && ValidDraws(p.weightsHidden, coinsH, stepsH)
    ensures Wired(p) ==> Wired(r)
    ensures r == p.(weightsInput := r.weightsInput, weightsHidden := r.weightsHidden)
  {
    p.(weightsInput := MutateMatrix(p.weightsInput, coinsI, stepsI),
       weightsHidden := MutateMatrix(p.weightsHidden, coinsH, stepsH))
  }
}

=== FILE: ranking.dfy ===
/**
 * The two orderings the genetic algorithm ranks players by: Python's stable
 * `sorted(..., key=...)` (ascending, equal keys keep their original order)
 * and `heapq.nlargest(k, ..., key=...)`, which returns the first `k` of the
 * stable descending sort (equal keys again in original order). Both are
 * computed on player indices, by insertion.
 */
module Ranking {

  /** `i` comes before `j`: strictly better key, or equal key and earlier position. */
  predicate Precedes(keys: seq<real>, desc: bool, i: nat, j: nat)
    requires i < |keys| && j < |keys|
  {
    if desc then keys[i] > keys[j] || (keys[i] == keys[j] && i < j)
    else keys[i] < keys[j] || (keys[i] == keys[j] && i < j)
  }

  /** A strictly increasing run of positions in the `Precedes` order (hence duplicate-free). */
  ghost predicate Ordered(keys: seq<real>, desc: bool, s: seq<nat>)
  {
    && (forall a :: 0 <= a < |s| ==> s[a] < |keys|)
    && (forall a, b :: 0 <= a < b < |s| ==> Precedes(keys, desc, s[a], s[b]))
  }

  lemma PrecedesTransitive(keys: seq<real>, desc: bool, i: nat, j: nat, k: nat)
    requires i < |keys| && j < |keys| && k < |keys|
    requires Precedes(keys, desc, i, j) && Precedes(keys, desc, j, k)
    ensures Precedes(keys, desc, i, k)
  {
  }

  /** A position that precedes every member of an ordered run can lead it. */
  lemma ConsOrdered(keys: seq<real>, desc: bool, x: nat, s: seq<nat>)
    requires x < |keys| && Ordered(keys, desc, s)
    requires forall y :: y in s ==> Precedes(keys, desc, x, y)
    ensures Ordered(keys, desc, [x] + s)
  {
    var r := [x] + s;
    forall a, b | 0 <= a < b < |r|
      ensures Precedes(keys, desc, r[a], r[b])
    {
      assert r[b] == s[b - 1] && s[b - 1] in s;
      if a > 0 {
        assert r[a] == s[a - 1];
      }
    }
  }

  /** Insert position `i` into an ordered run that does not hold it yet. */
  function Insert(keys: seq<real>, desc: bool, s: seq<nat>, i: nat): (r: seq<nat>)
    requires i < |keys| && Ordered(keys, desc, s) && i !in s
    ensures |r| == |s| + 1 && Ordered(keys, desc, r)
    ensures forall x :: x in r <==> x in s || x == i
    decreases |s|
  {
    if |s| == 0 then [i]
    else if Precedes(keys, desc, i, s[0]) then
      assert forall y :: y in s ==> Precedes(keys, desc, i, y) by {
        forall y | y in s
          ensures Precedes(keys, desc, i, y)
        {
          var b :| 0 <= b < |s| && s[b] == y;
          if b > 0 {
            PrecedesTransitive(keys, desc, i, s[0], s[b]);
          }
        }
      }
      ConsOrdered(keys, desc, i, s);
      [i] + s
    else
      var rest := Insert(keys, desc, s[1..], i);
      assert forall y :: y in rest ==> Precedes(keys, desc, s[0], y) by {
        forall y | y in rest
          ensures Precedes(keys, desc, s[0], y)
        {
          if y != i {
            var b :| 0 <= b < |s[1..]| && s[1..][b] == y;
            assert s[b + 1] == y;
          }
        }
      }
      ConsOrdered(keys, desc, s[0], rest);
      [s[0]] + rest
  }

  /** The positions 0 .. n-1 in `Precedes` order. */
  function SortPrefix(keys: seq<real>, desc: bool, n: nat): (r: seq<nat>)
    requires n <= |keys|
    ensures |r| == n
    ensures Ordered(keys, desc, r)
    ensures forall x :: x in r <==> 0 <= x < n
  {
    if n == 0 then []
    else
      var s := SortPrefix(keys, desc, n - 1);
      assert n - 1 !in s;
      Insert(keys, desc, s, n - 1)
  }

  /** `sorted(range(len(keys)), key=keys.__getitem__)`: every position once, ascending and stable. */
  function SortAscending(keys: seq<real>): (r: seq<nat>)
    ensures |r| == |keys| && forall x :: x in r <==> 0 <= x < |keys|
    ensures forall a :: 0 <= a < |r| ==> r[a] < |keys|
    ensures forall a, b :: 0 <= a < b < |r| ==> keys[r[a]] <= keys[r[b]]
    ensures forall a, b :: 0 <= a < b < |r| && keys[r[a]] == keys[r[b]] ==> r[a] < r[b]
  {
    SortPrefix(keys, false, |keys|)
  }

  /** `heapq.nlargest(k, ...)` on positions: the first `k` of the stable descending order. */
  function TopK(keys: seq<real>, k: nat): (r: seq<nat>)
    ensures |r| == if k <= |keys| then k else |keys|
    ensures forall a :: 0 <= a < |r| ==> r[a] < |keys|
    ensures forall a, b :: 0 <= a < b < |r| ==> r[a] != r[b]
    ensures forall a, b :: 0 <= a < b < |r| ==> keys[r[a]] >= keys[r[b]]
  {
    var all := SortPrefix(keys, true, |keys|);
    all[..if k <= |keys| then k else |keys|]
  }

  /**
   * Every selected position ranks above every position left out: a strictly
   * larger key, or an equal key and an earlier position.
   */
  lemma {:induction false} TopKBeatsTheRest(keys: seq<real>, k: nat, i: nat, j: nat)
    requires i in TopK(keys, k) && j < |keys| && j !in TopK(keys, k)
    ensures keys[i] > keys[j] || (keys[i] == keys[j] && i < j)
    ensures keys[i] >= keys[j]
  {
    var all := SortPrefix(keys, true, |keys|);
    var m := if k <= |keys| then k else |keys|;
    var a :| 0 <= a < m && all[a] == i;
    assert j in all;
    var b :| 0 <= b < |all| && all[b] == j;
    assert Precedes(keys, true, all[a], all[b]);
  }

  /** The top pick is the first position holding the largest key. */
  lemma TopPickIsFirstMaximum(keys: seq<real>, k: nat)
    requires k > 0 && |keys| > 0
    ensures var i := TopK(keys, k)[0];
      (forall j :: 0 <= j < |keys| ==> keys[j] <= keys[i])
      && (forall j :: 0 <= j < i ==> keys[j] < keys[i])
  {
    var all := SortPrefix(keys, true, |keys|);
    var i := all[0];
    forall j | 0 <= j < |keys| && j != i
      ensures keys[j] <= keys[i] && (j < i ==> keys[j] < keys[i])
    {
      assert j in all;
      var b :| 0 <= b < |all| && all[b] == j;
      assert Precedes(keys, true, all[0], all[b]);
    }
  }

  /** The last position of the ascending order is the last position holding the largest key. */
  lemma LastIsLastMaximum(keys: seq<real>)
    requires |keys| > 0
    ensures var i := SortAscending(keys)[|keys| - 1];
      (forall j :: 0 <= j < |keys| ==> keys[j] <= keys[i])
      && (forall j :: i < j < |keys| ==> keys[j] < keys[i])
  {
    var all := SortAscending(keys);
    var n := |keys|;
    var i := all[n - 1];
    forall j | 0 <= j < n && j != i
      ensures keys[j] <= keys[i] && (i < j ==> keys[j] < keys[i])
    {
      assert j in all;
      var b :| 0 <= b < n && all[b] == j;
      assert b < n - 1;
      assert Precedes(keys, false, all[b], all[n - 1]);
    }
  }
}

=== FILE: settings.dfy ===
/**
 * The game's tuning constants (src/common/settings.py). Screen coordinates
 * grow downwards: the ceiling band is [0, BaseHeight] and the floor band is
 * [Height - BaseHeight, Height].
 */
module Settings {

  // World
  const Width: int := 1200
  const Height: int := 700
  const BaseHeight: int := 50
  const ObstacleWidth: int := 100
  const ObstacleHeightMin: int := 200
  const ObstacleHeightMax: int := 300
  const KeySize: int := 50

  // Physics
  const ObstacleSpeed: int := 5
  const Gravity: real := 0.5
  const JumpForce: real := -10.0
  const GameFps: int := 90

  // Player
  const PlayerStartPos: int := 70
  const PlayerStartHeight: int := Height / 2
  const PlayerRadius: int := 20
  /** Seconds between jumps when the game runs at 60 frames per second. */
  const PlayerJumpCooldown: real := 0.25

  // Genetic algorithm
  const PopulationSize: int := 5
  const MutationChance: real := 0.5
  const MutationSize: real := 0.5
  const KeepParents: int := 2
  const CrossoverRate: real := 0.3
  const CrossGenerationRate: real := 0.3
  const ResetThreshold: int := 10
  const LossPenalty: real := 1.0
  const EmKSuccess: int := 5

  /** The floor the player's centre rests on, for a circle of radius `r`. */
  function GroundLevel(r: int): (g: int)
    ensures g + r + BaseHeight == Height
  {
    Height - BaseHeight - r
  }
}

=== FILE: wrappers.dfy ===
/** Optional values: the model's stand-in for Python's `None` results. */
module Wrappers {

  datatype Option<+T> = None | Some(value: T)
}
